=== FILE: README.md ===
# SigmaOS packages in Dafny

SigmaOS is a collection of small terminal programs ("packages") written in
Python: a line editor, a document viewer, a package manager, a password
store, a log viewer, process, network and system reports, a benchmark and a
few smaller tools. None of them has a large engine. Each one has some
pure logic inside a command-line script, and this project models that logic,
one module per script:

| module | script | what is modelled |
|---|---|---|
| `Yapper` | `yapper/main.py` | the console key decoder, the line buffer with its cursor and the seven edits, loading and saving |
| `Sourcerer` | `Sourcerer/main.py` | the `description.txt` section parser and the `user/repo` source list |
| `ViewLogs` | `sigma/viewlogs.py` | the line filters, the tail, severity and timestamp split of `view_log`, and the arguments of `main` |
| `DoccX` | `DoccX/main.py` | the file search and choice, and the pages, navigation and search jump of the viewer |
| `Wifi` | `sigma/wifi.py` | signal bars, colour and percentage, and the quoted-SSID arguments of `connect` |
| `Benchmark` | `sigma/benchmark.py` | the 6k±1 primality test, the prime-counting loop, the progress display, the rating and the history file |
| `ProcList` | `sigma/proclist.py` | the process filter, command-line shortening, sorting, top-N, the process tree and `main` |
| `NetStat` | `sigma/netstat.py` | connection reporting, interface rates, listening ports and `main` |
| `RhoSecure` | `RhoSecure/main.py` | the command parser and the password map |
| `Env` | `sigma/env.py` | the variable map and the argument dispatch |
| `LigmaDev` | `LigmaDev/main.py` | the package-name rule and the menu's handling of a rejected name |
| `SysInfo` | `sigma/sysinfo.py` | the uptime line, the macOS release name and GPU names taken from command output |
| `SigArt` | `SIGArt/main.py` | the pixel-to-character palette and the cutting into rows |
| `XiAI` | `XiAI/online.py` | the trimming of the chat history |
| `Sucker` | `Sucker/main.py` | the name a download is saved under |

Shared modules give Python's built-ins a meaning:

- `Text` covers `strip`, `lower`, `split`, `splitlines`, `join`, `int()` and `in` on strings.
- `Lists` provides filtering.
- `Sorting` and `StrOrder` give `sorted` and string order.
- `Arith` holds division facts.
- `Options` holds `Option`.

The scripts' I/O becomes the parameters of the model. This covers:

- the bytes read from the console;
- file contents and the names in a directory;
- `psutil` tables and network snapshots;
- the output of `lspci` and `system_profiler`;
- the pixels of the resized image.

What is done with the results (printing, colouring, writing files) is left out.

The model follows the code where the code and its documentation differ. The
editor has no scrolling viewport, no Escape handling and no indentation
carried over on Enter. Enter always starts the new line at column 0, and
Ctrl+X saves and leaves.

## Model

| member | source | states |
|---|---|---|
| Yapper.GetKey | yapper/main.py:16-39 | 0xE0 then H/P/K/M gives up/down/left/right, any other code after it gives nothing; 0x18 is exit, `\r` Enter, 0x08 Backspace; a byte of 0x80 or more is nothing, any other is that ASCII character |
| Yapper.DecodeEncode | yapper/main.py:16-39 | every key the console can send is read back as that key |
| Yapper.EncodeDecode | yapper/main.py:16-39 | whatever the decoder recognises was sent as exactly that key's bytes, so no two byte sequences give the same key |
| Yapper.Newline | yapper/main.py:94-100 | Enter splits the line at the cursor into two lines that put together give the old line, adds exactly one line, moves the cursor to the start of the new line and leaves the other lines alone |
| Yapper.DeleteBack | yapper/main.py:101-111 | Backspace deletes the character before the cursor; at the start of a line it joins the line onto the one above with the cursor at the join; at the top left it changes nothing |
| Yapper.MoveLeft | yapper/main.py:112-118 | Left moves back one column or to the end of the previous line, never edits, and does nothing at the top left |
| Yapper.MoveRight | yapper/main.py:119-125 | Right moves on one column or to the start of the next line, never edits, and does nothing at the end of the text |
| Yapper.MoveUp | yapper/main.py:126-130 | Up goes to the previous line, keeping the column or clamping it to that line's length, and does nothing on the first line |
| Yapper.MoveDown | yapper/main.py:131-135 | Down goes to the next line, keeping the column or clamping it to that line's length, and does nothing on the last line |
| Yapper.Type | yapper/main.py:136-140 | a printable character is spliced in at the cursor, the cursor moves past it, and every other line is unchanged |
| Yapper.Step | yapper/main.py:88-140 | Enter splits the line, Backspace deletes back, each arrow moves the cursor its own way, and a printable character is typed at the cursor; an unknown key or a non-printable character leaves the buffer as it was, and every key keeps the cursor inside the buffer |
| Yapper.Run | yapper/main.py:87-142 | the editing loop ends exactly when an exit key is read, with the cursor inside the buffer |
| Yapper.Load | yapper/main.py:56-64 | a missing or empty file opens as one empty line; no loaded line holds a line terminator |
| Yapper.Session | yapper/main.py:56-146 | a session saves exactly when Ctrl+X is among the keys read |
| Yapper.NewlineKeepsNoBreaks | yapper/main.py:94-100 | splitting a line puts no terminator into either half |
| Yapper.DeleteBackKeepsNoBreaks | yapper/main.py:101-111 | joining two lines puts no terminator into the buffer |
| Yapper.StepKeepsNoBreaks | yapper/main.py:88-140 | no key ever puts a line terminator into a line |
| Yapper.LoadSave | yapper/main.py:57-61 | saving and then loading gives the lines back when the last line is not empty |
| Yapper.LoadSaveLosesEmptyLastLine | yapper/main.py:59 | an empty last line is lost: `["a", ""]` is saved as "a\n", which opens as `["a"]` |
| Yapper.SaveAtCursor | yapper/main.py:144-146 | the cursor cuts the saved text into the part before it and the part after it |
| Yapper.BeforeEmpty | yapper/main.py:101-118 | the cursor is at the start of the saved text exactly when it is at the top left |
| Yapper.AfterEmpty | yapper/main.py:119-125 | the cursor is at the end of the saved text exactly when it is at the end of the last line |
| Yapper.TypeInserts | yapper/main.py:136-140 | typing a character inserts it into the saved text at the cursor |
| Yapper.NewlineInserts | yapper/main.py:94-100 | Enter inserts "\n" into the saved text at the cursor |
| Yapper.DeleteBackDeletes | yapper/main.py:101-111 | Backspace removes the one character of the saved text before the cursor, or does nothing when there is none |
| Yapper.MoveLeftMoves | yapper/main.py:112-118 | Left moves the cursor one character back in the saved text |
| Yapper.MoveRightMoves | yapper/main.py:119-125 | Right moves the cursor one character on in the saved text |
| Yapper.HiByeKeys | yapper/main.py:16-39 | the bytes of "Hi", Enter, "Bye", Ctrl+X are read as those seven keys |
| Yapper.HiByeRuns | yapper/main.py:87-140 | the loop applies those keys one by one and stops at Ctrl+X |
| Yapper.HiByeSaves | yapper/main.py:144-146 | the resulting buffer saves as "Hi\nBye" |
| Yapper.HiByeSession | yapper/main.py:56-146 | typing "Hi", Enter, "Bye", Ctrl+X into a new file saves "Hi\nBye" |
| Sourcerer.Feed | Sourcerer/main.py:72-83 | a blank line changes nothing; a header switches the section; a value is ignored outside any section, appended under `requirements`, and replaces the field under any other section |
| Sourcerer.BlankLinesIgnored | Sourcerer/main.py:73-75 | any number of blank lines leave the parser as it was |
| Sourcerer.BlankDescription | Sourcerer/main.py:69-75 | an empty or all-blank description gives the defaults |
| Sourcerer.PreambleIgnored | Sourcerer/main.py:71-79 | lines before the first header have no effect |
| Sourcerer.NoSectionIgnores | Sourcerer/main.py:79 | outside any section no line has an effect |
| Sourcerer.RequirementsAccumulate | Sourcerer/main.py:80-81 | under `[requirements]` every value is appended, in order |
| Sourcerer.RequirementsKeepFields | Sourcerer/main.py:80-81 | under `[requirements]` the section and the other fields stay as they were |
| Sourcerer.LastValueWins | Sourcerer/main.py:82-83 | under any other section the field ends up holding the last value given, and nothing else changes |
| Sourcerer.HeaderSwitches | Sourcerer/main.py:76-78 | `[Name]` switches to the section `name` in lower case, whatever came before |
| Sourcerer.SourceParts | Sourcerer/main.py:38 | an accepted source is a user name and a repository name of `[\w-]` characters with one slash between them |
| Sourcerer.SourcePartsOfJoin | Sourcerer/main.py:38 | every `user/repo` of name characters is accepted, and so is one followed by a final newline |
| Sourcerer.AddSource | Sourcerer/main.py:36-48 | an invalid or already listed source leaves the list as it was; a new valid one is added at the end; no duplicate is ever added |
| Sourcerer.RemoveSource | Sourcerer/main.py:50-57 | removing takes out one occurrence and leaves everything else |
| Sourcerer.RemoveSourceKeepsOthers | Sourcerer/main.py:50-53 | on a list without duplicates, removing leaves exactly the other sources in their order |
| ViewLogs.Tail | sigma/viewlogs.py:82-83 | 0 keeps every line; a positive n keeps the last min(n, count) lines; a negative n drops that many lines from the front |
| ViewLogs.SelectByText | sigma/viewlogs.py:75-76 | the text filter keeps exactly the lines that mention the text in any case, in their order |
| ViewLogs.SelectErrors | sigma/viewlogs.py:78-79 | the errors view keeps exactly the lines that mention "error" or "exception" in any case |
| ViewLogs.Classify | sigma/viewlogs.py:97-106 | the severity is the first kind of marker in the line, in the order error, warning, success, info, else normal |
| ViewLogs.SplitTimestamp | sigma/viewlogs.py:109-112 | the timestamp runs up to and including the first `]`, and timestamp and message put together give the line |
| ViewLogs.Render | sigma/viewlogs.py:93-115 | a line gets a timestamp exactly when it holds both brackets, and its text is kept whole |
| ViewLogs.ShowRendersShown | sigma/viewlogs.py:91-95 | the entries shown are exactly the non-blank lines, in order, each stripped and then rendered |
| ViewLogs.ViewLog | sigma/viewlogs.py:85-87 | "No log entries match" exactly when the filters select nothing |
| ViewLogs.LogName | sigma/viewlogs.py:230 | the name always ends in ".log", and ".log" is added only when missing |
| ViewLogs.LogNameIdempotent | sigma/viewlogs.py:230 | normalising a name twice is normalising it once |
| ViewLogs.Newest | sigma/viewlogs.py:202 | the listing holds the same log files |
| ViewLogs.NewestSorted | sigma/viewlogs.py:202 | the listing is in descending name order |
| ViewLogs.Pick | sigma/viewlogs.py:201-205 | a number k picks the k-th log of the listing, exactly when 1 <= k <= the number of logs |
| ViewLogs.OptionsOf | sigma/viewlogs.py:207-224 | no second argument gives the plain view, `filter TEXT` filters, `errors` shows errors only, a number sets the line count, and any other word falls back to the plain view |
| ViewLogs.OptionsRead | sigma/viewlogs.py:207-224 | each single option, typed after a log number as `errors`, `filter TEXT` or a line count, is read back as that option |
| ViewLogs.Main | sigma/viewlogs.py:166-236 | exactly one outcome per branch: no argument lists the logs; `help` and `clear` in any case; `delete k` deletes the k-th newest log or reports an invalid number; a number views the log at that place with the options after it, or reports an invalid number; any other word views the log of that name with ".log" added when missing |
| ViewLogs.MainNumber | sigma/viewlogs.py:199-226 | a numeric argument views the log at that place in the listing, or reports an invalid number |
| ViewLogs.MainByNumber | sigma/viewlogs.py:199-226 | the number k views the k-th newest log when there are at least k, else reports an invalid number |
| DoccX.Matching | DoccX/main.py:40-41 | the search keeps exactly the names that contain it in any case, and an empty search keeps all |
| DoccX.MatchingInOrder | DoccX/main.py:40-47 | the matches keep the directory's order for every search, so the numbers shown name the files in that order |
| DoccX.Choose | DoccX/main.py:52-61 | an empty answer leaves; a number k opens the k-th match exactly when 1 <= k <= the number of matches |
| DoccX.TotalPages | DoccX/main.py:73-75 | a non-empty file has ceil(lines / 20) pages, at least one |
| DoccX.PageBounds | DoccX/main.py:85-86 | a page shows a non-empty slice of at most 20 lines inside the file, starting at page * 20 |
| DoccX.LineOnItsPage | DoccX/main.py:73-86 | every line is shown on the page its index divided by 20 names |
| DoccX.FirstMatch | DoccX/main.py:116-119 | the search finds the first line that contains the term |
| DoccX.Step | DoccX/main.py:107-129 | Left and Right move one page and stop at the ends, Home and End go to the first and last page; a prefixed key never changes the highlight, and one with any other code changes nothing; every key keeps the page valid |
| DoccX.SearchShowsMatch | DoccX/main.py:111-119 | a successful search shows the page that holds the first matching line, and that line is on it |
| DoccX.Browse | DoccX/main.py:78-129 | any sequence of keys keeps the page valid |
| Wifi.Bars | sigma/wifi.py:101-115 | four bars from -50 dBm, none below -80 dBm, and the thresholds in between |
| Wifi.BarsMonotone | sigma/wifi.py:101-115 | a stronger signal never shows fewer bars |
| Wifi.BarText | sigma/wifi.py:101-115 | four glyphs, the first n filled and the rest underscores |
| Wifi.ToneOf | sigma/wifi.py:101-115 | green for three or four bars, red for none, yellow otherwise |
| Wifi.Percentage | sigma/wifi.py:117 | the percentage is between 0 and 100, 0 at -90 dBm and below, 100 at -30 dBm and above |
| Wifi.PercentageMonotone | sigma/wifi.py:117 | a stronger signal never shows a lower percentage |
| Wifi.QuoteEnd | sigma/wifi.py:401-407 | the search finds the first argument that ends with a quote |
| Wifi.QuoteEndIs | sigma/wifi.py:401-407 | that argument is the only answer |
| Wifi.ConnectArgs | sigma/wifi.py:396-421 | an SSID that opens a quote runs to the first argument that closes it, joined by spaces and unquoted, and the password is the argument after it if any; an SSID that does not open a quote, or opens one that never closes, is the second argument unquoted, with the third as password |
| Wifi.Main | sigma/wifi.py:378-428 | no argument shows the status and help; `help`, `scan`, `status` and `disconnect` are chosen exactly by their word; `connect` connects exactly when it has an argument, with the SSID and password read as ConnectArgs reads them; an unknown command exactly when the word is none of these, reported by its lowercased name |
| Wifi.QuotedJoin | sigma/wifi.py:411 | the quoted words joined by spaces are the words' text in quotes |
| Wifi.QuotedUnquote | sigma/wifi.py:411 | stripping the quotes gives the words' text |
| Wifi.QuotedEnd | sigma/wifi.py:401-407 | the closing quote is found on the last word of the SSID |
| Wifi.MainConnect | sigma/wifi.py:394-423 | `connect` with an argument connects with the SSID and password the argument rule reads |
| Wifi.ConnectArgsQuoted | sigma/wifi.py:396-413 | a quoted SSID of several words followed by a password is read back whole, with that password |
| Wifi.ConnectQuoted | sigma/wifi.py:394-423 | `connect "w1 ... wn" password` connects to the SSID "w1 ... wn" with that password |
| Benchmark.IsPrimeTest | sigma/benchmark.py:76-88 | the 6k±1 trial division answers true exactly for the primes |
| Benchmark.SixStep | sigma/benchmark.py:83-87 | one round of the loop rules out every factor below the next i, not only i and i + 2 |
| Benchmark.NoSmallFactor | sigma/benchmark.py:84-88 | a number with no factor up to its square root is prime |
| Benchmark.PrimeCountIsSize | sigma/benchmark.py:90-100 | the count of primes up to m is the size of the set of those primes |
| Benchmark.CountPrimes | sigma/benchmark.py:90-100 | the loop counts the primes in [2, iterations + 1] |
| Benchmark.UpdateInterval | sigma/benchmark.py:94 | the update interval is at least 1 and is one twentieth of the run, rounded down |
| Benchmark.SpinnerIndex | sigma/benchmark.py:95-108 | the spinner frame is one of the ten frames and advances by one per interval |
| Benchmark.ProgressBar | sigma/benchmark.py:104-107 | the bar has 30 cells, filled in proportion to the progress, and the last cell is never filled before the end |
| Benchmark.RatingOf | sigma/benchmark.py:309-320 | the rating climbs one rank for each of 50000, 100000, 200000, 500000 and 1000000 the score is strictly above: Excellent exactly above 1000000, Poor exactly at 50000 and below |
| Benchmark.RatingMonotone | sigma/benchmark.py:309-320 | a higher score never gets a lower rating |
| Benchmark.SaveResult | sigma/benchmark.py:44-63 | saving appends exactly the new record after the earlier ones; a missing or unreadable file starts a new list |
| Benchmark.SaveTwice | sigma/benchmark.py:44-63 | two saves keep both records in the order they were made |
| ProcList.Shorten | sigma/proclist.py:61-62 | a command line over 100 characters becomes its first 97 and "...", and a shorter one is kept |
| ProcList.ShortenIdempotent | sigma/proclist.py:61-62 | shortening twice is shortening once, and the result fits in 100 characters |
| ProcList.CommandLine | sigma/proclist.py:58-64 | the arguments joined and shortened, or the name when they cannot be read |
| ProcList.SortKeyOf | sigma/proclist.py:86-95 | exactly cpu, memory, pid, name and time are sort orders |
| ProcList.BeforeIsTotalPreorder | sigma/proclist.py:86-95 | each sort order compares every two processes consistently |
| ProcList.SortBy | sigma/proclist.py:85-95 | sorting rearranges the processes without adding or dropping any, and an unknown order leaves them as they were |
| ProcList.SortByStable | sigma/proclist.py:85-95 | processes that tie on the sort key keep their table order, as Python's stable `sort` keeps them |
| ProcList.SortBySorted | sigma/proclist.py:85-95 | the result is in the named order: CPU, memory and start time descending, pid and lowercased name ascending |
| ProcList.SortByMembers | sigma/proclist.py:85-95 | sorting lists the same processes |
| ProcList.Head | sigma/proclist.py:97-99 | the result is a prefix of the list: 0 keeps all, a positive n keeps min(n, count) entries, a negative n drops that many from the end or leaves nothing |
| ProcList.Listed | sigma/proclist.py:44-46 | the filter keeps exactly the processes whose name contains the text in any case |
| ProcList.GetProcesses | sigma/proclist.py:41-99 | every listed process is in the table and matches the filter; with no limit every match is listed; a positive limit lists min(n, matches) |
| ProcList.TopIsSortedPrefix | sigma/proclist.py:85-99 | a positive limit lists the first entries of the sorted, filtered processes |
| ProcList.LinkStep | sigma/proclist.py:168-174 | linking one process extends exactly one list: its parent's children, or the roots |
| ProcList.Table | sigma/proclist.py:152-165 | the dictionary's key order has no repeats and holds exactly its keys |
| ProcList.TableKeys | sigma/proclist.py:152-165 | the dictionary's keys are exactly the pids read |
| ProcList.TableParent | sigma/proclist.py:152-165 | a pid read more than once keeps the parent read last |
| ProcList.LinkTree | sigma/proclist.py:167-174 | for a dictionary whose key order lists each key once, the roots are the processes whose parent is not a key, and each process's children are those whose parent it is, in key order |
| ProcList.PlacedOnce | sigma/proclist.py:167-174 | each process appears exactly once in the tree: once among the roots when its parent is not a key, otherwise once among its parent's children and in no other list |
| ProcList.ProcessTree | sigma/proclist.py:145-179 | every pid read is placed exactly once, and the roots and children are those of the dictionary the records build |
| ProcList.Main | sigma/proclist.py:284-326 | no argument lists by CPU; `help`, `tree` and `detail` are chosen exactly by their word; a count or pid that is not a number is reported; a sort name other than the five orders is rejected; an unknown command exactly when the word is none of the commands with the arguments it needs; `top N` lists the top N by CPU, `sort X` lists by the order X, and `find T` lists the processes matching T, and `detail` gives the detailed listing by CPU with no limit and no filter |
| ProcList.MainIgnoresCase | sigma/proclist.py:293 | the command word is read in any case |
| NetStat.AddressRoundTrip | sigma/netstat.py:62-63 | the "ip:port" shown reads back as the address, even for an IPv6 address |
| NetStat.ToneOf | sigma/netstat.py:68-76 | ESTABLISHED is success, LISTEN info, FIN_WAIT1, FIN_WAIT2 and TIME_WAIT warning |
| NetStat.Describe | sigma/netstat.py:62-86 | a missing local address shows "Unknown", a missing remote one "-", the protocol is TCP for a stream socket and UDP otherwise, and the state and pid are the socket's |
| NetStat.DescribeReadsBack | sigma/netstat.py:62-63 | the addresses shown read back as the socket's own |
| NetStat.DescribeAll | sigma/netstat.py:55-86 | one description per socket, in order |
| NetStat.Connections | sigma/netstat.py:47-91 | the sockets not in CLOSE_WAIT, each described, in table order |
| NetStat.ClosingNotReported | sigma/netstat.py:58-60 | no connection in CLOSE_WAIT is reported, and every other one is |
| NetStat.ActiveEntries | sigma/netstat.py:121-130 | the interfaces of the second snapshot that were in the first and moved bytes |
| NetStat.Rate | sigma/netstat.py:124-127 | an interface's rates are the differences of its counters between the snapshots |
| NetStat.RatesOf | sigma/netstat.py:121-145 | one rate per interface, in order |
| NetStat.NetworkStats | sigma/netstat.py:93-150 | one entry per active interface, in the second snapshot's order |
| NetStat.RatesAreDifferences | sigma/netstat.py:124-130 | every listed interface sent or received bytes, and its rates are its counter differences |
| NetStat.ActiveListed | sigma/netstat.py:121-130 | an interface is listed exactly when it is in both snapshots and moved bytes |
| NetStat.ListeningOf | sigma/netstat.py:236-247 | each listening port comes from a listening socket with a local address |
| NetStat.ListenEntry | sigma/netstat.py:238-247 | an entry carries the socket's port, address and pid, with the process name or "Unknown" |
| NetStat.ScanEnd | sigma/netstat.py:236-250 | the scan stops at the first listening socket without a local address, whose read raises, or runs to the end of the table |
| NetStat.ListeningScans | sigma/netstat.py:236-250 | the entries are exactly those of the listening sockets before the scan stops, one each, in table order |
| NetStat.ListeningPorts | sigma/netstat.py:231-253 | the listening ports sorted by port, none added or dropped |
| NetStat.ListeningPortsStable | sigma/netstat.py:253 | entries on the same port keep their table order, as Python's stable `sorted` keeps them |
| NetStat.PortTone | sigma/netstat.py:272-275 | a port below 1024 is well-known |
| NetStat.Main | sigma/netstat.py:292-317 | no argument shows everything; each command word, and only it, shows its report; an unknown command exactly when the word is none of the commands |
| NetStat.MainIgnoresCase | sigma/netstat.py:305 | the command word is read in any case |
| RhoSecure.Dispatch | RhoSecure/main.py:133-150 | `exit` in any case leaves; `help` and `list` are chosen exactly by their word; `add` needs three more words and the password is the rest joined by spaces; `get` and `delete` need exactly one; anything else is invalid exactly when it is none of these |
| RhoSecure.DispatchIgnoresCase | RhoSecure/main.py:133 | the command word is read in any case |
| RhoSecure.Parse | RhoSecure/main.py:129-131 | a blank command does nothing |
| RhoSecure.Continues | RhoSecure/main.py:136-150 | the shell stops exactly on `exit` |
| RhoSecure.ParseJoined | RhoSecure/main.py:129-133 | a command typed as words separated by spaces is dispatched on those words |
| RhoSecure.AddReadsPassword | RhoSecure/main.py:142-143 | `add service user w1 ... wn` stores the password "w1 ... wn" |
| RhoSecure.GetTakesOneService | RhoSecure/main.py:144-149 | `get` and `delete` take exactly one service, and a second word makes the command invalid |
| RhoSecure.AddPassword | RhoSecure/main.py:71-80 | adding inserts or overwrites only that service's entry, and nothing happens when the store cannot be read |
| RhoSecure.GetPassword | RhoSecure/main.py:82-91 | the entry is found exactly when the store is read and holds the service |
| RhoSecure.DeletePassword | RhoSecure/main.py:105-113 | deleting removes only that service, and an absent service leaves the store as it was |
| RhoSecure.StoreRoundTrip | RhoSecure/main.py:71-113 | after adding, the entry is found; after deleting, it is not; other services are unaffected |
| RhoSecure.ListServices | RhoSecure/main.py:93-103 | the services in sorted order, or nothing stored yet |
| Env.Load | sigma/env.py:27-41 | a missing or unreadable file gives no variables |
| Env.SetVariable | sigma/env.py:54-58 | the name is bound to the value and every other name is unchanged |
| Env.GetVariable | sigma/env.py:63-71 | the stored value when the name is set, nothing otherwise |
| Env.DeleteVariable | sigma/env.py:73-83 | only the name is removed, and an absent name leaves the variables as they were |
| Env.SetGetDelete | sigma/env.py:54-83 | after a set the value is read back; after a delete nothing is; other names are unaffected |
| Env.SetOverwrites | sigma/env.py:54-83 | a second set overwrites the first, and a delete undoes a set |
| Env.Dispatch | sigma/env.py:104-124 | `set` needs two more words and its value is the rest joined by spaces; `get` and `delete` need exactly one |
| Env.Run | sigma/env.py:104-124 | only `set` and `delete` change the variables |
| Env.SetThenGet | sigma/env.py:117-120 | `set name w1 ... wn` stores "w1 ... wn" under the name |
| Env.WrongArityShowsHelp | sigma/env.py:117-124 | `get` or `delete` with two names, or `set` without a value, shows help and changes nothing |
| LigmaDev.ValidatePackageName | LigmaDev/main.py:24-28 | the match accepts exactly a letter followed by letters, digits and underscores, with at most a final newline |
| LigmaDev.FirstMustBeLetter | LigmaDev/main.py:26 | an accepted name is not empty and starts with a letter |
| LigmaDev.ForbiddenCharRejects | LigmaDev/main.py:26 | a space, `-`, `.` or `/` anywhere makes a name rejected |
| LigmaDev.Examples | LigmaDev/main.py:26 | "", "my pkg", "my-pkg", "1pkg" and "_pkg" are rejected and "MyPkg_2" accepted |
| LigmaDev.ExtendKeepsValid | LigmaDev/main.py:26 | an accepted name stays accepted when a letter, digit or underscore is added |
| LigmaDev.NewlineThenLetter | LigmaDev/main.py:26 | "a\n" is accepted, yet "a\nb" is not |
| LigmaDev.CreateChoice | LigmaDev/main.py:246-251 | a package is created exactly when the name is accepted |
| LigmaDev.Session | LigmaDev/main.py:238-265 | the packages created are exactly the accepted names, in the order typed |
| SysInfo.ClockOf | sigma/sysinfo.py:387-389 | hours, minutes and seconds add back up to the seconds, with minutes and seconds below 60 and hours below 24 |
| SysInfo.ClockUnique | sigma/sysinfo.py:387-389 | that reading is the only one |
| SysInfo.UptimeText | sigma/sysinfo.py:391-394 | "N days, " appears exactly when the uptime is a day or more, and it is followed by the time of day |
| SysInfo.UptimeReadsBack | sigma/sysinfo.py:387-394 | the time of day is three two-digit fields separated by colons that read back as the seconds |
| SysInfo.MacName | sigma/sysinfo.py:364-376 | the name is a known release name or "Unknown", and a known major version decides it |
| SysInfo.MajorDecides | sigma/sysinfo.py:373-376 | a known major version gives its name whatever follows it |
| SysInfo.MajorMinorOnly | sigma/sysinfo.py:373-376 | a two-field version with an unknown major is named by both fields or unknown, and a single unknown field is unknown |
| SysInfo.MajorMinorDecides | sigma/sysinfo.py:373-376 | otherwise the first two fields decide |
| SysInfo.CatalinaExample | sigma/sysinfo.py:364-376 | "10.15.7" is Catalina |
| SysInfo.UnknownExample | sigma/sysinfo.py:364-376 | "10.14.6" is Unknown |
| SysInfo.CatalinaTwoFields | sigma/sysinfo.py:364-376 | "10.15" is Catalina |
| SysInfo.BigSurExample | sigma/sysinfo.py:364-376 | "11.0" is Big Sur |
| SysInfo.SonomaExample | sigma/sysinfo.py:364-376 | "14.2" is Sonoma |
| SysInfo.ColonCut | sigma/sysinfo.py:66 | the cut falls just after the n-th colon, or after the last one when there are fewer |
| SysInfo.ColonCutUnique | sigma/sysinfo.py:66 | that is the only such cut |
| SysInfo.GpuFields | sigma/sysinfo.py:64-67 | one name per line that holds a colon, in order; lines without one are skipped |
| SysInfo.GpuInfo | sigma/sysinfo.py:61-69 | no GPU is reported exactly when no line holds a colon; otherwise the names joined by ", " |
| SysInfo.LspciAfterSecond | sigma/sysinfo.py:66 | an `lspci` line gives the stripped text after its second colon |
| SysInfo.AfterFirstColon | sigma/sysinfo.py:66-80 | a `system_profiler` line, or an `lspci` line with one colon, gives the stripped text after its first colon |
| SigArt.PaletteIndex | SIGArt/main.py:18-29 | the index is inside the ten-character palette, 0 exactly below 25 and the last exactly from 225 |
| SigArt.PaletteMonotone | SIGArt/main.py:29 | a lighter pixel never gets a darker character |
| SigArt.PaletteEnds | SIGArt/main.py:18-29 | black is `@`, and 225 and above is a space |
| SigArt.Shades | SIGArt/main.py:27-29 | one palette character per pixel, in order |
| SigArt.Rows | SIGArt/main.py:30 | rows of exactly `width` characters, the last one shorter but not empty, that put together give the string |
| SigArt.ImageToAscii | SIGArt/main.py:17-34 | there is no art exactly when the width or the height is not positive |
| SigArt.RowsOfFullImage | SIGArt/main.py:30 | a full image of height rows is cut into exactly height rows of exactly width characters |
| SigArt.RowsNoNewline | SIGArt/main.py:30 | no row holds a newline, so each newline of the art ends a row |
| SigArt.ArtLines | SIGArt/main.py:27-30 | the art has one line per image row, each exactly width characters, holding the pixels' characters in order |
| SigArt.ArtHoldsEveryPixel | SIGArt/main.py:27-30 | taking the newlines out of the art gives one character per pixel |
| XiAI.Trim | XiAI/online.py:74-75 | more than ten messages become the system prompt and the nine latest, in order; ten or fewer are kept as they are |
| XiAI.TrimIdempotent | XiAI/online.py:74-75 | trimming a trimmed history changes nothing |
| XiAI.History | XiAI/online.py:56-75 | the history always starts with the system prompt |
| XiAI.LatestStep | XiAI/online.py:71-75 | one more message, appended and trimmed, moves the kept messages on by one |
| XiAI.HistoryStep | XiAI/online.py:71-75 | one more message keeps the history equal to the system prompt and the latest messages |
| XiAI.HistoryKeepsLatest | XiAI/online.py:56-75 | the history is the system prompt followed by the latest messages, at most nine, in the order typed |
| Sucker.SplitLast | Sucker/main.py:37 | the last piece of a split at a separator is a suffix that starts the string or follows the separator |
| Sucker.FileName | Sucker/main.py:37 | the name is never empty and never holds a slash |
| Sucker.FileNameIsLastSegment | Sucker/main.py:37 | the text after the last slash, once trailing slashes are dropped, is empty exactly when the URL is all slashes; then the name is the fallback, and otherwise it is that text |
| Sucker.Destination | Sucker/main.py:30-37 | nothing is downloaded for a blank URL; otherwise the name comes from the stripped URL |
| Sucker.TrailingSlashIgnored | Sucker/main.py:37 | a trailing slash does not change the name |
| Sucker.LastSegment | Sucker/main.py:37 | a file in a directory is named after itself |
| Sucker.NoSlashOrOnlySlashes | Sucker/main.py:37 | a URL without a slash is the name itself, and one of slashes only gets "downloaded.file" |
| Text.Words | RhoSecure/main.py:129 | `split()` gives non-empty pieces without whitespace, none at all for a blank string |
| Text.WordsJoin | RhoSecure/main.py:129 | words joined by single spaces split back into those words |
| Text.SplitLinesJoin | yapper/main.py:59 | lines without terminators, the last not empty, joined by "\n" split back into those lines |
| Text.ParseNatToString | sigma/viewlogs.py:201 | `int()` reads a number's decimal digits back as the number |
| Text.ParseGrouped | sigma/viewlogs.py:201 | `int()` reads two digit groups joined by an underscore as the digits together |
| Text.UnderscoreBetweenDigits | sigma/viewlogs.py:201 | every underscore `int()` accepts stands between two digits |
| Text.SplitJoin | SIGArt/main.py:30 | pieces without the separator joined by it split back into those pieces |
| Sorting.SortStable | sigma/proclist.py:85-95 | sorting keeps the order of the elements that tie with any given one |

## Left out

- Console, screen and colour: `msvcrt` reads, ANSI writes, `colorama`, `clear_screen`, banners, menus and loading animations. The editor's full redraw on each key and the shell relaunch (yapper/main.py:71-83, 150) are left out too. Keys and file contents are parameters.
- Files, processes and the network: `psutil`, `subprocess`, `requests`, `pywifi`, `json` files and directory listings. Their results become the inputs of the model, and the writes that follow are left out.
- Floating point:
  - the benchmark timing scores and the weighted overall score (`RatingOf` takes the score as an integer);
  - CPU percentages, which are integers here;
  - `format_bytes` and the KB/MB sizes;
  - the SIGArt aspect ratio (SIGArt/main.py:21-22);
  - the printed progress percentage.
- Concurrency: the benchmark's process pool and the spinner thread of `Sucker/SigmaOS_core.py`.
- Cryptography: RhoSecure's key derivation and encryption (RhoSecure/main.py:23-68). The store is a plain map, and a store that cannot be decrypted is `None`.
- Yapper: the byte 0x00 prefix of some Windows keys is not decoded (the script does not decode it either). The second `b'\xe0'` test (yapper/main.py:33) is unreachable and has no counterpart.
- Yapper.LoadSave: holds only when the last line is not empty. `splitlines` drops a final empty line, which `Yapper.LoadSaveLosesEmptyLastLine` exhibits.
- DoccX: the viewer reads 0xE0 then `H` as Home and `F` as End, as the code says. The same `H` is the Up arrow for the editor.
- DoccX.Choose: models one answer. The script's loop that asks again after a number out of range, or after a non-number, is left out.
- Wifi.Percentage: the float `(signal + 90) * (100 / 60)` is taken as the exact rational, truncated toward zero. Only the bounds and monotonicity are stated, not the printed digits.
- Benchmark.ProgressBar: uses the exact integer `30 * i / iterations` where the script rounds a float product. The two can differ by one cell when the float rounds down across an integer.
- ProcList: `find_process` and the detail view only print. The process fields stand for `psutil`'s values.
- ProcList.LinkTree: requires its input to be a dictionary: a key order that lists each key once and exactly the keys. `ProcList.Table` builds such a dictionary from the records `psutil` yields, and `ProcList.ProcessTree` links it.
- Sourcerer.NameChar: Python's `\w` is taken over ASCII letters, digits and `_`. Unicode letters that `\w` also matches are not modelled.
- Text.Lower: Python's `lower()` is modelled on ASCII letters only. Other characters are left unchanged.
- Text.ParseInt: only ASCII digits are read. Python's `int()` also accepts other Unicode decimal digits, such as Arabic-Indic ones, and those are not modelled.
- LigmaDev: Python's `$` also matches before a final "\n", so "name\n" is accepted. `input()` never returns a trailing newline, so the menu cannot reach this.
- SysInfo: every other field of the report (CPU, memory, disk, network) is read from the operating system and is left out. The `GPUtil` fallback is left out too.
- XiAI: `XiAI/online.py` does not parse, because lines 79-80 lack a comma. Only the history trimming is modelled; the request and the streamed reply are left out.
- XiAI.History: holds the user's messages only. The script also appends each assistant reply (XiAI/online.py:105), which is the network's answer and is left out with the request.
- SigArt: the image is opened, resized and converted by PIL. The pixels are its grayscale values, row by row. The height `int(aspect_ratio * width * 0.55)` is a parameter, because it comes from a float product. A size that `resize` refuses raises an exception, which the script catches; here that is a width or a height that is not positive, and it gives no art.
- Sucker: the download itself and the destination folder are left out.
- Env.Load: a corrupt or unreadable file and a missing file are both the empty map. The error messages are not modelled.

=== FILE: arith.dfy ===
/**
 Facts about integer division and remainder by a positive divisor, proved from the
 defining equation `x == k * (x / k) + x % k` with `0 <= x % k < k`.
 */
module Arith {

  /** A positive number times a positive number is at least the first. */
  lemma {:induction false} MulAtLeast(k: int, t: int)
    requires k > 0 && t >= 1
    ensures k * t >= k
    decreases t
  {
    if t > 1 {
      MulAtLeast(k, t - 1);
      assert k * t == k * (t - 1) + k;
    }
  }

  /** Quotient and remainder are the only ones: any `q`, `r` with `x == k * q + r`
      and `0 <= r < k` are `x / k` and `x % k`. */
  lemma DivUnique(x: int, k: int, q: int, r: int)
    requires k > 0 && 0 <= r < k && x == k * q + r
    ensures x / k == q && x % k == r
  {
    var q', r' := x / k, x % k;
    assert x == k * q' + r';
    if q > q' {
      MulAtLeast(k, q - q');
    } else if q < q' {
      MulAtLeast(k, q' - q);
    }
  }

  /** A remainder of zero means `x` is `k` times its quotient. */
  lemma ModZero(x: int, k: int)
    requires k > 0 && x % k == 0
    ensures x == k * (x / k)
  {
  }

  /** `k * q` leaves no remainder. */
  lemma MulMod(k: int, q: int)
    requires k > 0
    ensures (k * q) % k == 0 && (k * q) / k == q
  {
    DivUnique(k * q, k, q, 0);
  }

  /** A multiple of a multiple of `k` is a multiple of `k`. */
  lemma DividesTrans(n: int, d: int, k: int)
    requires 0 < k && 0 < d && n % d == 0 && d % k == 0
    ensures n % k == 0
  {
    var q, p := n / d, d / k;
    ModZero(n, d);
    ModZero(d, k);
    assert n == (k * p) * q;
    assert (k * p) * q == k * (p * q);
    MulMod(k, p * q);
  }

  /** Adding the divisor moves the quotient up by one and keeps the remainder. */
  lemma DivAddDivisor(x: int, k: int)
    requires k > 0
    ensures (x + k) / k == x / k + 1 && (x + k) % k == x % k
  {
    DivUnique(x + k, k, x / k + 1, x % k);
  }

  /** The two factors of a factorisation `n == d * e` with `n > d > 0` and `n > 0`:
      `e` is a divisor too, and at least 2. */
  lemma CoFactor(n: int, d: int)
    requires 0 < d < n && n % d == 0
    ensures n / d >= 2 && n % (n / d) == 0 && n / (n / d) == d
  {
    var e := n / d;
    ModZero(n, d);
    if e < 0 {
      MulAtLeast(d, -e);
    }
    assert n == e * d;
    MulMod(e, d);
  }

  /** Two factors at least `i` multiply to at least `i * i`. */
  lemma SquareBelow(d: int, e: int, i: int)
    requires 0 < i <= d && i <= e
    ensures d * e >= i * i
  {
    assert d * e - i * e == (d - i) * e;
    assert i * e - i * i == i * (e - i);
    if d > i {
      MulAtLeast(e, d - i);
      assert (d - i) * e == e * (d - i);
    }
    if e > i {
      MulAtLeast(i, e - i);
    }
  }
}

=== FILE: benchmark.dfy ===
/**
 The benchmark tool (`sigma/benchmark.py`): the trial-division primality test and
 the prime-counting loop of the CPU benchmark, the progress display's indexing, the
 rating of an overall score, and the history file's append. Timing, the other
 benchmarks' workloads and the JSON file itself are outside the model; the score is
 a parameter and the history file is what was read from it.
 */
module Benchmark {
  import opened Options
  import opened Arith

  // ---------------------------------------------------------------------------
  // Primality
  // ---------------------------------------------------------------------------

  /** The reference definition: at least 2 and no divisor strictly between 1 and
      itself. */
  predicate IsPrime(n: int)
  {
    n >= 2 && forall d :: 2 <= d < n ==> n % d != 0
  }

  /** No number in `[2, bound)` divides `n`. */
  predicate NoFactorBelow(n: int, bound: int)
  {
    forall d :: 2 <= d < bound ==> n % d != 0
  }

  /** An odd number has no even divisor, and one that is not a multiple of 3 has
      no divisor that is. */
  lemma NoMultipleDivides(n: int, d: int, k: int)
    requires 0 < k && 0 < d && d % k == 0 && n % k != 0
    ensures n % d != 0
  {
    if n % d == 0 {
      DividesTrans(n, d, k);
    }
  }

  /** Past `6q + 5`, the numbers up to `6q + 11` other than `6q + 5` and `6q + 7`
      are even or multiples of 3. */
  lemma SixResidues(i: int)
    requires i % 6 == 5
    ensures (i + 1) % 2 == 0 && (i + 3) % 2 == 0 && (i + 5) % 2 == 0 && (i + 4) % 3 == 0
  {
    var q := i / 6;
    assert i == 6 * q + 5;
    assert i + 1 == 2 * (3 * q + 3) && i + 3 == 2 * (3 * q + 4) && i + 5 == 2 * (3 * q + 5);
    assert i + 4 == 3 * (2 * q + 3);
  }

  /** One round of the loop: when neither `i` nor `i + 2` divides `n`, and `n` is
      odd and not a multiple of 3, nothing in `[i, i + 6)` divides it. */
  lemma SixStep(n: int, i: int)
    requires n % 2 != 0 && n % 3 != 0
    requires i >= 5 && i % 6 == 5
    requires NoFactorBelow(n, i) && n % i != 0 && n % (i + 2) != 0
    ensures NoFactorBelow(n, i + 6)
  {
    SixResidues(i);
    NoMultipleDivides(n, i + 1, 2);
    NoMultipleDivides(n, i + 3, 2);
    NoMultipleDivides(n, i + 5, 2);
    NoMultipleDivides(n, i + 4, 3);
    forall d | 2 <= d < i + 6 ensures n % d != 0 {
      if d >= i {
        assert d == i || d == i + 1 || d == i + 2 || d == i + 3 || d == i + 4 || d == i + 5;
      }
    }
  }

  /** A number with no factor below `i`, where `i * i > n`, is prime: a factor pair
      always has one member below the square root. */
  lemma NoSmallFactor(n: int, i: int)
    requires n >= 2 && i >= 2 && i * i > n
    requires NoFactorBelow(n, i)
    ensures IsPrime(n)
  {
    forall d | 2 <= d < n ensures n % d != 0 {
      if n % d == 0 {
        CoFactor(n, d);
        var e := n / d;
        assert n % e == 0 && e >= 2;
        if d >= i && e >= i {
          SquareBelow(d, e, i);
          ModZero(n, d);
        }
      }
    }
  }

  /** `is_prime`: the 6k +/- 1 trial division. */
  method IsPrimeTest(n: int) returns (r: bool)
    ensures r <==> IsPrime(n)
  {
    if n <= 1 {
      return false;
    }
    if n <= 3 {
      return true;
    }
    if n % 2 == 0 || n % 3 == 0 {
      assert !IsPrime(n) by {
        if n % 2 == 0 { assert 2 < n; } else { assert 3 < n; }
      }
      return false;
    }
    assert n % 4 != 0 by {
      if n % 4 == 0 {
        DividesTrans(n, 4, 2);
      }
    }
    var i := 5;
    while i * i <= n
      invariant 5 <= i && i % 6 == 5
      invariant NoFactorBelow(n, i)
      decreases n - i
    {
      assert i + 2 < i * i;
      if n % i == 0 || n % (i + 2) == 0 {
        assert !IsPrime(n) by {
          if n % i == 0 { assert 2 <= i < n; } else { assert 2 <= i + 2 < n; }
        }
        return false;
      }
      SixStep(n, i);
      DivAddDivisor(i, 6);
      i := i + 6;
    }
    NoSmallFactor(n, i);
    return true;
  }

  // ---------------------------------------------------------------------------
  // The CPU benchmark's count
  // ---------------------------------------------------------------------------

  /** The number of primes in `[2, m]`. */
  function PrimeCount(m: int): (c: nat)
    ensures m < 2 ==> c == 0
    ensures c <= if m < 2 then 0 else m - 1
    decreases m
  {
    if m < 2 then 0 else PrimeCount(m - 1) + if IsPrime(m) then 1 else 0
  }

  /** The primes in `[2, m]` as a set. */
  ghost function PrimesUpTo(m: int): set<int>
  {
    set k | 2 <= k <= m && IsPrime(k)
  }

  /** The recursive count is the size of the set of primes it counts. */
  lemma {:induction false} PrimeCountIsSize(m: int)
    ensures PrimeCount(m) == |PrimesUpTo(m)|
    decreases m
  {
    if m < 2 {
      assert PrimesUpTo(m) == {};
    } else {
      PrimeCountIsSize(m - 1);
      if IsPrime(m) {
        assert PrimesUpTo(m) == PrimesUpTo(m - 1) + {m};
      } else {
        assert PrimesUpTo(m) == PrimesUpTo(m - 1);
      }
    }
  }

  /** The loop of `cpu_benchmark`: `iterations` candidates from 2 on, counting the
      primes. */
  method CountPrimes(iterations: int) returns (count: nat)
    ensures count == PrimeCount(iterations + 1)
    ensures count == |PrimesUpTo(iterations + 1)|
  {
    count := 0;
    var n := 2;
    var i := 0;
    while i < iterations
      invariant 0 <= i <= if iterations < 0 then 0 else iterations
      invariant n == i + 2
      invariant count == PrimeCount(n - 1)
    {
      var p := IsPrimeTest(n);
      if p {
        count := count + 1;
      }
      n := n + 1;
      i := i + 1;
    }
    PrimeCountIsSize(iterations + 1);
  }

  // ---------------------------------------------------------------------------
  // Progress display
  // ---------------------------------------------------------------------------

  const SpinnerFrames: nat := 10
  const BarLength: nat := 30

  /** `max(1, iterations // 20)`: about one update for every twentieth of the run. */
  function UpdateInterval(iterations: int): (u: int)
    ensures u >= 1
    ensures iterations >= 20 ==> u * 20 <= iterations < (u + 1) * 20
    ensures iterations < 40 ==> u == 1
  {
    if iterations / 20 > 1 then iterations / 20 else 1
  }

  /** The spinner frame shown at step `i`. */
  function SpinnerIndex(i: nat, interval: int): (k: nat)
    requires interval >= 1
    ensures k < SpinnerFrames
    ensures (i + interval) / interval % SpinnerFrames == (k + 1) % SpinnerFrames
  {
    DivAddDivisor(i, interval);
    i / interval % SpinnerFrames
  }

  /** The progress bar at step `i` of `iterations`: filled in proportion, thirty
      cells in all. The script computes the proportion in floating point. */
  function ProgressBar(i: nat, iterations: int): (bar: string)
    requires i < iterations
    ensures |bar| == BarLength
    ensures forall k :: 0 <= k < |bar| ==> (bar[k] == '█' <==> k < BarLength * i / iterations)
    ensures bar[BarLength - 1] == '░'
  {
    var filled := BarLength * i / iterations;
    assert filled < BarLength by {
      assert BarLength * i < BarLength * iterations;
    }
    seq(filled, _ => '█') + seq(BarLength - filled, _ => '░')
  }

  // ---------------------------------------------------------------------------
  // Rating
  // ---------------------------------------------------------------------------

  datatype Rating = Poor | BelowAverage | Average | Good | VeryGood | Excellent
  {
    /** The place of the rating from the bottom. */
    function Rank(): nat
    {
      match this
      case Poor => 0
      case BelowAverage => 1
      case Average => 2
      case Good => 3
      case VeryGood => 4
      case Excellent => 5
    }
  }

  /** The scores a rating must beat to climb one rank, from the bottom. */
  const Thresholds: seq<int> := [50000, 100000, 200000, 500000, 1000000]

  /** The rating of an overall score: strictly above 1000000, 500000, 200000, 100000,
      50000, or none of them. */
  function RatingOf(score: int): (r: Rating)
    ensures forall k :: 0 <= k < |Thresholds| ==> (r.Rank() > k <==> score > Thresholds[k])
    ensures r == Excellent <==> score > 1000000
    ensures r == Poor <==> score <= 50000
  {
    if score > 1000000 then Excellent
    else if score > 500000 then VeryGood
    else if score > 200000 then Good
    else if score > 100000 then Average
    else if score > 50000 then BelowAverage
    else Poor
  }

  /** A higher score never rates lower. */
  lemma RatingMonotone(lower: int, higher: int)
    requires lower <= higher
    ensures RatingOf(lower).Rank() <= RatingOf(higher).Rank()
  {
  }

  // ---------------------------------------------------------------------------
  // History
  // ---------------------------------------------------------------------------

  /** One saved result; the platform fields are what `platform` reported. */
  datatype Record = Record(
    timestamp: string, kind: string, score: int,
    system: string, platform: string, processor: string, pythonVersion: string)

  /** What reading `benchmark_history.json` gave: no file, a file `json.load`
      rejected, or a document with or without a `benchmarks` list. */
  datatype Stored = Absent | Unreadable | Document(benchmarks: Option<seq<Record>>)

  /** The records before this run: none unless a document holding the list was read. */
  function Prior(stored: Stored): seq<Record>
  {
    match stored
    case Document(Some(records)) => records
    case _ => []
  }

  /** `save_benchmark_result`: the list written back, or `None` when the document
      lacks its `benchmarks` list and the script stops with an exception. */
  function SaveResult(stored: Stored, rec: Record): (r: Option<seq<Record>>)
    ensures r.None? <==> stored == Document(None)
    ensures r.Some? ==> |r.value| == |Prior(stored)| + 1
    ensures r.Some? ==> r.value[..|Prior(stored)|] == Prior(stored) && r.value[|Prior(stored)|] == rec
    ensures stored.Absent? || stored.Unreadable? ==> r == Some([rec])
  {
    match stored
    case Document(None) => None
    case _ => Some(Prior(stored) + [rec])
  }

  /** Two saves keep both records, in the order they were made, after the earlier
      ones. */
  lemma SaveTwice(stored: Stored, a: Record, b: Record)
    requires stored != Document(None)
    ensures var first := SaveResult(stored, a).value;
            SaveResult(Document(Some(first)), b) == Some(Prior(stored) + [a, b])
  {
    assert Prior(stored) + [a] + [b] == Prior(stored) + [a, b];
  }
}

=== FILE: doccx.dfy ===
/**
 The DoccX document viewer (`DoccX/main.py`): choosing a document from the listing,
 and paging through its lines twenty at a time with the arrow keys and a search.
 The directory listing, the file's lines (as `readlines` returns them) and the
 keyboard are parameters.
 */
module DoccX {
  import opened Options
  import opened Text
  import opened Lists

  // ---------------------------------------------------------------------------
  // Choosing a document
  // ---------------------------------------------------------------------------

  /** The listing's search: names that contain the search text, ignoring case; an
      empty search lists every file. */
  function Matching(files: seq<string>, search: string): (r: seq<string>)
    ensures search == [] ==> r == files
    ensures forall f :: f in r <==> f in files && ContainsIgnoringCase(f, search)
  {
    if search == [] then
      forall f | f in files ensures ContainsIgnoringCase(f, search) {
        ContainsEmpty(Lower(f));
      }
      files
    else Filter(f => ContainsIgnoringCase(f, search), files)
  }

  /** The test the search applies to one name. */
  function Matches(search: string): string -> bool
  {
    f => ContainsIgnoringCase(f, search)
  }

  /** The matches are listed in the directory's order, whatever the search, so the
      number typed next picks the same file the listing showed. */
  lemma MatchingInOrder(files: seq<string>, search: string)
    ensures Matching(files, search) == Filter(Matches(search), files)
  {
    if search == [] {
      forall f | f in files ensures Matches(search)(f) {
        ContainsEmpty(Lower(f));
      }
      FilterAll(Matches(search), files);
    } else {
      FilterSame(f => ContainsIgnoringCase(f, search), Matches(search), files);
    }
  }

  datatype Choice = Quit | Open(file: string) | Again

  /** One answer to "Enter file number": an empty answer leaves, a number between 1
      and the number of matches opens that file, and anything else asks again. */
  function Choose(matching: seq<string>, answer: string): (c: Choice)
    ensures answer == [] <==> c == Quit
    ensures c.Open? <==>
      answer != [] && ParseInt(answer).Some? && 1 <= ParseInt(answer).value <= |matching|
    ensures c.Open? ==> c.file == matching[ParseInt(answer).value - 1]
  {
    if answer == [] then Quit else Pick(matching, ParseInt(answer))
  }

  /** The choice a parsed answer makes: a number in range opens that file. */
  function Pick(matching: seq<string>, number: Option<int>): (c: Choice)
    ensures c != Quit
    ensures c.Open? <==> number.Some? && 1 <= number.value <= |matching|
    ensures c.Open? ==> c.file == matching[number.value - 1]
  {
    match number
    case Some(k) => if 1 <= k <= |matching| then Open(matching[k - 1]) else Again
    case None => Again
  }

  // ---------------------------------------------------------------------------
  // Paging
  // ---------------------------------------------------------------------------

  const PageSize: nat := 20

  /** The number of pages of a non-empty file: the line count divided by twenty,
      rounded up. */
  function TotalPages(n: nat): (t: nat)
    requires n > 0
    ensures t >= 1
    ensures (t - 1) * PageSize < n <= t * PageSize
  {
    (n + PageSize - 1) / PageSize
  }

  /** The lines shown on a page: from `page * 20` to twenty lines on or the end. */
  function PageBounds(n: nat, page: nat): (r: (nat, nat))
    requires n > 0 && page < TotalPages(n)
    ensures r.0 == page * PageSize
    ensures r.0 < r.1 <= n && r.1 - r.0 <= PageSize
    ensures r.1 == n || r.1 - r.0 == PageSize
  {
    var start := page * PageSize;
    (start, if start + PageSize < n then start + PageSize else n)
  }

  /** Every line is on exactly one page: the one its index divided by twenty names. */
  lemma LineOnItsPage(n: nat, i: nat)
    requires i < n
    ensures i / PageSize < TotalPages(n)
    ensures PageBounds(n, i / PageSize).0 <= i < PageBounds(n, i / PageSize).1
  {
  }

  /** The first line containing the (lowercased) search term, or the line count. */
  function FirstMatch(content: seq<string>, term: string): (i: nat)
    ensures i <= |content|
    ensures i < |content| ==> Contains(Lower(content[i]), term)
    ensures forall k :: 0 <= k < i ==> !Contains(Lower(content[k]), term)
    decreases |content|
  {
    if content == [] then 0
    else if Contains(Lower(content[0]), term) then 0
    else 1 + FirstMatch(content[1..], term)
  }

  /** The viewer between keys: the page shown and the highlighted term. */
  datatype Viewer = Viewer(page: nat, highlight: string)

  /** A key of the viewer: Escape, "/" followed by the typed search, an arrow-prefixed
      code, or any other byte. */
  datatype ViewKey = Escape | Search(typed: string) | Prefixed(code: int) | Ignored

  /** The codes after the 0xE0 prefix the viewer acts on. The script treats 'H' as
      Home and 'F' as End; yapper's decoder reads the same 'H' as the Up arrow. */
  const Left: int := 0x4B
  const Right: int := 0x4D
  const Home: int := 0x48
  const End: int := 0x46

  /** One key of `view_file` other than Escape. */
  function Step(content: seq<string>, v: Viewer, k: ViewKey): (r: Viewer)
    requires content != [] && v.page < TotalPages(|content|)
    ensures r.page < TotalPages(|content|)
    ensures k == Prefixed(Left) ==> r.page == if v.page == 0 then 0 else v.page - 1
    ensures k == Prefixed(Right) ==>
      r.page == if v.page + 1 < TotalPages(|content|) then v.page + 1 else v.page
    ensures k == Prefixed(Home) ==> r.page == 0
    ensures k == Prefixed(End) ==> r.page == TotalPages(|content|) - 1
    ensures k.Prefixed? ==> r.highlight == v.highlight
    ensures k.Prefixed? && k.code !in {Left, Right, Home, End} ==> r == v
    ensures k.Search? && Lower(k.typed) != [] ==>
      var i := FirstMatch(content, Lower(k.typed));
      r.highlight == Lower(k.typed) && r.page == if i < |content| then i / PageSize else v.page
    ensures k.Search? && Lower(k.typed) == [] ==> r == v
    ensures k == Escape || k == Ignored ==> r == v
  {
    var total := TotalPages(|content|);
    match k
    case Search(typed) =>
      var term := Lower(typed);
      if term == [] then v
      else
        var i := FirstMatch(content, term);
        if i < |content| then
          LineOnItsPage(|content|, i);
          Viewer(i / PageSize, term)
        else Viewer(v.page, term)
    case Prefixed(code) =>
      if code == Left then v.(page := if v.page == 0 then 0 else v.page - 1)
      else if code == Right then v.(page := if v.page + 1 < total then v.page + 1 else v.page)
      else if code == Home then v.(page := 0)
      else if code == End then v.(page := total - 1)
      else v
    case _ => v
  }

  /** A search that finds its term shows the page holding the first line that
      contains it. */
  lemma SearchShowsMatch(content: seq<string>, v: Viewer, typed: string)
    requires content != [] && v.page < TotalPages(|content|)
    requires Lower(typed) != [] && FirstMatch(content, Lower(typed)) < |content|
    ensures var r := Step(content, v, Search(typed));
            var (start, end) := PageBounds(|content|, r.page);
            start <= FirstMatch(content, Lower(typed)) < end
  {
    var i := FirstMatch(content, Lower(typed));
    LineOnItsPage(|content|, i);
  }

  /** The pages visited by a sequence of keys, up to Escape. */
  function Browse(content: seq<string>, v: Viewer, keys: seq<ViewKey>): (r: Viewer)
    requires content != [] && v.page < TotalPages(|content|)
    ensures r.page < TotalPages(|content|)
    decreases |keys|
  {
    if keys == [] || keys[0] == Escape then v
    else Browse(content, Step(content, v, keys[0]), keys[1..])
  }
}

=== FILE: env.dfy ===
/**
 The `sigma.env` variable store (`sigma/env.py`): the name-to-value map kept in
 `user.env`, the set, get and delete operations on it, and how the command line
 picks one of them. Reading and writing the file are outside the model: what a
 read gave is a parameter, and each operation returns the map it would save.
 */
module Env {
  import opened Options
  import opened Text

  type Variables = map<string, string>

  /** What reading `user.env` gave: no file, a file `json.load` rejected, a file
      that could not be read at all, or the decoded map. */
  datatype Stored = Missing | Corrupt | Unreadable | Decoded(variables: Variables)

  /** `load_env_variables`: every failure reads as no variables. */
  function Load(stored: Stored): (vars: Variables)
    ensures !stored.Decoded? ==> vars == map[]
    ensures stored.Decoded? ==> vars == stored.variables
  {
    match stored
    case Decoded(m) => m
    case _ => map[]
  }

  /** `set_variable`: the name now holds the value; every other name keeps its own. */
  function SetVariable(vars: Variables, name: string, value: string): (r: Variables)
    ensures r.Keys == vars.Keys + {name}
    ensures r[name] == value
    ensures forall n :: n in vars && n != name ==> r[n] == vars[n]
  {
    vars[name := value]
  }

  /** `get_variable`: the stored value, or `None` ("not found"). */
  function GetVariable(vars: Variables, name: string): (r: Option<string>)
    ensures r.Some? <==> name in vars
    ensures r.Some? ==> r.value == vars[name]
  {
    if name in vars then Some(vars[name]) else None
  }

  /** `delete_variable`: the name is gone and the rest is untouched; an absent name
      leaves the map as it was and nothing is saved. */
  function DeleteVariable(vars: Variables, name: string): (r: Variables)
    ensures r.Keys == vars.Keys - {name}
    ensures forall n :: n in r ==> r[n] == vars[n]
    ensures name !in vars ==> r == vars
  {
    if name in vars then vars - {name} else vars
  }

  /** Reading back what was just set gives it; reading back what was just deleted
      gives nothing; neither operation changes what another name reads. */
  lemma SetGetDelete(vars: Variables, name: string, other: string, value: string)
    requires other != name
    ensures GetVariable(SetVariable(vars, name, value), name) == Some(value)
    ensures GetVariable(DeleteVariable(vars, name), name) == None
    ensures GetVariable(SetVariable(vars, name, value), other) == GetVariable(vars, other)
    ensures GetVariable(DeleteVariable(vars, name), other) == GetVariable(vars, other)
  {
  }

  /** Setting a name twice keeps only the second value; deleting after setting is
      the same as deleting. */
  lemma SetOverwrites(vars: Variables, name: string, first: string, second: string)
    ensures SetVariable(SetVariable(vars, name, first), name, second) == SetVariable(vars, name, second)
    ensures DeleteVariable(SetVariable(vars, name, first), name) == DeleteVariable(vars, name)
  {
  }

  // ---------------------------------------------------------------------------
  // The command line
  // ---------------------------------------------------------------------------

  datatype Command =
    | Overview                                   // no arguments: help, then the list
    | ListAll
    | Get(name: string)
    | Set(name: string, value: string)
    | Delete(name: string)
    | ShowHelp

  /** `main`'s dispatch on the arguments after the program name, the first one
      lowercased: `get` and `delete` take exactly a name, `set` a name and a value
      of one or more words; anything else shows the help. */
  function Dispatch(args: seq<string>): (c: Command)
    ensures c == Overview <==> args == []
    ensures c == ListAll <==> args != [] && Lower(args[0]) == "list"
    ensures c.Get? <==> |args| == 2 && Lower(args[0]) == "get"
    ensures c.Delete? <==> |args| == 2 && Lower(args[0]) == "delete"
    ensures c.Set? <==> |args| >= 3 && Lower(args[0]) == "set"
    ensures c.Get? || c.Delete? ==> c.name == args[1]
    ensures c.Set? ==> c == Set(args[1], Join(args[2..], " "))
  {
    if args == [] then Overview
    else
      var command := Lower(args[0]);
      if command == "list" then ListAll
      else if command == "get" && |args| == 2 then Get(args[1])
      else if command == "set" && |args| >= 3 then Set(args[1], Join(args[2..], " "))
      else if command == "delete" && |args| == 2 then Delete(args[1])
      else ShowHelp
  }

  /** The variables after a command runs against what was read: only `set` and
      `delete` change them. */
  function Run(stored: Stored, command: Command): (r: Variables)
    ensures command.Set? ==> r == SetVariable(Load(stored), command.name, command.value)
    ensures command.Delete? ==> r == DeleteVariable(Load(stored), command.name)
    ensures !command.Set? && !command.Delete? ==> r == Load(stored)
  {
    match command
    case Set(name, value) => SetVariable(Load(stored), name, value)
    case Delete(name) => DeleteVariable(Load(stored), name)
    case _ => Load(stored)
  }

  /** The command words are already in lower case. */
  lemma CommandNamesLower()
    ensures Lower("set") == "set" && Lower("get") == "get" && Lower("delete") == "delete"
  {
    assert Lower("set") == "set";
    assert Lower("get") == "get";
    assert Lower("delete") == "delete";
  }

  /** `set NAME some words` stores the words joined by single spaces, and a `get
      NAME` run afterwards reads them back. */
  lemma SetThenGet(stored: Stored, name: string, words: seq<string>)
    requires words != []
    ensures Dispatch(["set", name] + words) == Set(name, Join(words, " "))
    ensures GetVariable(Run(stored, Dispatch(["set", name] + words)), name) == Some(Join(words, " "))
  {
    CommandNamesLower();
    assert (["set", name] + words)[2..] == words;
  }

  /** `get` and `delete` with a second name, or `set` without a value, only show
      the help and leave the variables alone. */
  lemma WrongArityShowsHelp(stored: Stored, name: string, extra: string)
    ensures Dispatch(["get", name, extra]) == ShowHelp
    ensures Dispatch(["delete", name, extra]) == ShowHelp
    ensures Dispatch(["set", name]) == ShowHelp
    ensures Run(stored, Dispatch(["set", name])) == Load(stored)
  {
    CommandNamesLower();
  }
}

=== FILE: ligmadev.dfy ===
/**
 The package creator (`LigmaDev/main.py`): the rule a new package's name must meet,
 `^[A-Za-z][A-Za-z0-9_]*$` as `re.match` reads it, and the menu's handling of a
 rejected name. Writing the package's files is outside the model.
 */
module LigmaDev {
  import opened Text
  import opened Lists

  /** A character allowed after the first: an ASCII letter, a digit or `_`. */
  predicate NameChar(c: char)
  {
    IsAsciiLetter(c) || IsDigit(c) || c == '_'
  }

  /** The reference definition of a package name: a letter, then any number of
      letters, digits and underscores. */
  predicate PackageName(s: string)
  {
    |s| >= 1 && IsAsciiLetter(s[0]) && forall k :: 1 <= k < |s| ==> NameChar(s[k])
  }

  /** What `validate_package_name` accepts: Python's `$` also matches just before a
      final "\n", so a name followed by one newline passes too. */
  predicate Accepts(name: string)
  {
    PackageName(Chomp(name))
  }

  /** `validate_package_name`, as the pattern is matched: a letter, the longest run
      of name characters after it, then the end of the string or a final "\n". */
  method ValidatePackageName(name: string) returns (ok: bool)
    ensures ok <==> Accepts(name)
  {
    if |name| == 0 || !IsAsciiLetter(name[0]) {
      return false;
    }
    var i := 1;
    while i < |name| && NameChar(name[i])
      invariant 1 <= i <= |name|
      invariant forall k :: 1 <= k < i ==> NameChar(name[k])
    {
      i := i + 1;
    }
    if i == |name| {
      assert Chomp(name) == name by {
        assert !NameChar('\n');
      }
      return true;
    }
    ok := i == |name| - 1 && name[i] == '\n';
    if ok {
      assert Chomp(name) == name[..i];
    } else {
      assert !PackageName(Chomp(name)) by {
        assert i < |Chomp(name)| && Chomp(name)[i] == name[i];
      }
    }
  }

  /** The empty name is rejected, and so is every name whose first character is
      not a letter. */
  lemma FirstMustBeLetter(name: string)
    requires Accepts(name)
    ensures name != [] && IsAsciiLetter(name[0])
  {
    assert Chomp(name)[0] == name[0];
  }

  /** A space, `-`, `.` or `/` anywhere in a name makes it rejected. */
  lemma ForbiddenCharRejects(name: string, k: int)
    requires 0 <= k < |name| && name[k] in [' ', '-', '.', '/']
    ensures !Accepts(name)
  {
    var t := Chomp(name);
    assert k < |t| && t[k] == name[k];
    assert !NameChar(t[k]) && !IsAsciiLetter(t[k]);
  }

  /** Concrete names the rule turns down and accepts. */
  lemma Examples()
    ensures !Accepts("") && !Accepts("my pkg") && !Accepts("my-pkg") && !Accepts("1pkg") && !Accepts("_pkg")
    ensures Accepts("MyPkg_2")
  {
    ForbiddenCharRejects("my pkg", 2);
    ForbiddenCharRejects("my-pkg", 2);
    assert !IsAsciiLetter('1') && !IsAsciiLetter('_');
    assert Chomp("MyPkg_2") == "MyPkg_2";
  }

  /** A name accepted without a trailing newline stays accepted when a letter, a
      digit or an underscore is added to it. */
  lemma ExtendKeepsValid(name: string, c: char)
    requires Accepts(name) && name[|name| - 1] != '\n'
    requires NameChar(c)
    ensures Accepts(name + [c])
  {
    var longer := name + [c];
    assert Chomp(longer) == longer by {
      assert longer[|longer| - 1] == c;
    }
    assert Chomp(name) == name;
    forall k | 1 <= k < |longer| ensures NameChar(longer[k]) {
      if k < |name| {
        assert longer[k] == name[k];
      }
    }
  }

  /** The trailing newline `$` lets through is why the extension needs one: "a\n"
      is accepted, yet adding a letter to it is not. */
  lemma NewlineThenLetter()
    ensures Accepts("a\n") && !Accepts("a\n" + "b")
  {
    assert Chomp("a\n") == "a";
    assert Chomp("a\n" + "b") == "a\nb";
    assert !NameChar("a\nb"[1]);
  }

  // ---------------------------------------------------------------------------
  // The menu
  // ---------------------------------------------------------------------------

  datatype Outcome = Rejected | Created(name: string)

  /** Menu choice 1 with the name typed in: a rejected name creates nothing and the
      menu comes back. */
  function CreateChoice(name: string): (o: Outcome)
    ensures o.Created? <==> Accepts(name)
    ensures o.Created? ==> o.name == name
  {
    if Accepts(name) then Created(name) else Rejected
  }

  /** The packages a sequence of attempts creates, in order. */
  function Session(names: seq<string>): (created: seq<string>)
    ensures created == Filter(Accepts, names)
    ensures forall n :: n in created <==> n in names && Accepts(n)
    decreases |names|
  {
    if names == [] then []
    else
      var rest := Session(names[1..]);
      assert names == [names[0]] + names[1..];
      FilterCons(Accepts, names[0], names[1..]);
      match CreateChoice(names[0])
      case Created(n) => [n] + rest
      case Rejected => rest
  }
}

=== FILE: lists.dfy ===
/**
 List comprehensions with a condition, `[x for x in xs if p(x)]`, and the facts the
 scripts' filters rely on: exactly the satisfying elements are kept, in order.
 */
module Lists {

  /** `[x for x in xs if p(x)]`. */
  function Filter<T(!new)>(p: T -> bool, xs: seq<T>): (r: seq<T>)
    ensures |r| <= |xs|
    ensures forall k :: 0 <= k < |r| ==> p(r[k])
    ensures forall x :: x in r <==> x in xs && p(x)
    decreases |xs|
  {
    if xs == [] then []
    else
      assert xs == [xs[0]] + xs[1..];
      if p(xs[0]) then [xs[0]] + Filter(p, xs[1..]) else Filter(p, xs[1..])
  }

  /** Filtering keeps the order: filtering a concatenation concatenates the filtered
      parts. */
  lemma {:induction false} FilterAppend<T(!new)>(p: T -> bool, xs: seq<T>, ys: seq<T>)
    ensures Filter(p, xs + ys) == Filter(p, xs) + Filter(p, ys)
    decreases |xs|
  {
    if xs == [] {
      assert xs + ys == ys;
    } else {
      assert (xs + ys)[0] == xs[0] && (xs + ys)[1..] == xs[1..] + ys;
      FilterAppend(p, xs[1..], ys);
    }
  }

  /** A list every element of which passes is kept whole. */
  lemma {:induction false} FilterAll<T(!new)>(p: T -> bool, xs: seq<T>)
    requires forall k :: 0 <= k < |xs| ==> p(xs[k])
    ensures Filter(p, xs) == xs
    decreases |xs|
  {
    if xs != [] {
      FilterAll(p, xs[1..]);
      assert xs == [xs[0]] + xs[1..];
    }
  }

  /** Filtering a list with one more element at the end. */
  lemma FilterSnoc<T(!new)>(p: T -> bool, xs: seq<T>, x: T)
    ensures Filter(p, xs + [x]) == Filter(p, xs) + if p(x) then [x] else []
  {
    FilterAppend(p, xs, [x]);
    assert [x][1..] == [];
  }

  /** Filtering a list with one more element at the front. */
  lemma FilterCons<T(!new)>(p: T -> bool, x: T, xs: seq<T>)
    ensures Filter(p, [x] + xs) == (if p(x) then [x] else []) + Filter(p, xs)
  {
    assert ([x] + xs)[0] == x && ([x] + xs)[1..] == xs;
  }

  /** No element occurs twice, as with the keys of a dictionary. */
  predicate NoDup<T(==)>(xs: seq<T>)
  {
    forall i, j :: 0 <= i < j < |xs| ==> xs[i] != xs[j]
  }

  /** Filtering keeps every occurrence of a passing element and none of a failing one. */
  lemma {:induction false} FilterCount<T(!new)>(p: T -> bool, xs: seq<T>, x: T)
    ensures multiset(Filter(p, xs))[x] == if p(x) then multiset(xs)[x] else 0
    decreases |xs|
  {
    if xs != [] {
      FilterCount(p, xs[1..], x);
      FilterCons(p, xs[0], xs[1..]);
      assert xs == [xs[0]] + xs[1..];
      assert multiset(xs) == multiset{xs[0]} + multiset(xs[1..]);
    }
  }

  /** An element of a list without duplicates occurs in it exactly once. */
  lemma {:induction false} NoDupCount<T>(xs: seq<T>, x: T)
    requires NoDup(xs) && x in xs
    ensures multiset(xs)[x] == 1
    decreases |xs|
  {
    assert xs == [xs[0]] + xs[1..];
    assert multiset(xs) == multiset{xs[0]} + multiset(xs[1..]);
    if xs[0] == x {
      assert x !in xs[1..] by {
        forall k | 0 <= k < |xs| - 1 ensures xs[1..][k] != x {
          assert xs[1..][k] == xs[k + 1];
        }
      }
    } else {
      assert NoDup(xs[1..]) by {
        forall i, j | 0 <= i < j < |xs| - 1 ensures xs[1..][i] != xs[1..][j] {
          assert xs[1..][i] == xs[i + 1] && xs[1..][j] == xs[j + 1];
        }
      }
      NoDupCount(xs[1..], x);
    }
  }

  /** `[f(x) for x in xs]`. */
  function Map<T, U>(f: T -> U, xs: seq<T>): (r: seq<U>)
    ensures |r| == |xs|
    ensures forall k :: 0 <= k < |xs| ==> r[k] == f(xs[k])
  {
    seq(|xs|, k requires 0 <= k < |xs| => f(xs[k]))
  }

  lemma MapCons<T, U>(f: T -> U, x: T, xs: seq<T>)
    ensures Map(f, [x] + xs) == [f(x)] + Map(f, xs)
  {
    var r := Map(f, [x] + xs);
    forall k | 1 <= k < |r| ensures r[k] == Map(f, xs)[k - 1] {
      assert ([x] + xs)[k] == xs[k - 1];
    }
  }

  /** Two conditions that agree on every element keep the same elements. */
  lemma {:induction false} FilterSame<T(!new)>(p: T -> bool, q: T -> bool, xs: seq<T>)
    requires forall x :: p(x) == q(x)
    ensures Filter(p, xs) == Filter(q, xs)
    decreases |xs|
  {
    if xs != [] {
      FilterSame(p, q, xs[1..]);
      FilterCons(p, xs[0], xs[1..]);
      FilterCons(q, xs[0], xs[1..]);
      assert xs == [xs[0]] + xs[1..];
    }
  }
}

=== FILE: netstat.dfy ===
/**
 The network monitor (`sigma/netstat.py`): which connections are reported and how
 their addresses and states are shown, which interfaces count as active between two
 counter snapshots, and the listening ports in port order. The socket table, the two
 counter snapshots and the process names are parameters.
 */
module NetStat {
  import opened Options
  import opened Text
  import opened Sorting
  import opened Lists

  // ---------------------------------------------------------------------------
  // Connections
  // ---------------------------------------------------------------------------

  datatype Address = Address(ip: string, port: nat)

  /** One socket as `psutil.net_connections` reports it; a missing address is `None`
      and a missing pid is 0. */
  datatype Socket = Socket(status: string, laddr: Option<Address>, raddr: Option<Address>, pid: nat, stream: bool)

  /** The colour of a state. */
  datatype Tone = Success | Info | Warning | Plain

  /** One reported connection. */
  datatype Connection = Connection(
    protocol: string, local: string, remote: string, state: string, tone: Tone,
    pid: nat, program: string)

  /** An address as "ip:port". */
  function AddressText(a: Address): string
  {
    a.ip + ":" + NatToString(a.port)
  }

  /** The last colon of a text. */
  function LastColon(s: string): (i: Option<nat>)
    ensures i.Some? ==> i.value < |s| && s[i.value] == ':' &&
                        forall k :: i.value < k < |s| ==> s[k] != ':'
    ensures i.None? ==> forall k :: 0 <= k < |s| ==> s[k] != ':'
    decreases |s|
  {
    if s == [] then None
    else if s[|s| - 1] == ':' then Some(|s| - 1)
    else LastColon(s[..|s| - 1])
  }

  /** Reading an address back: the ip before the last colon, the port after it. */
  function ParseAddress(s: string): Option<Address>
  {
    match LastColon(s)
    case None => None
    case Some(i) =>
      match ParseInt(s[i + 1..])
      case Some(port) => if port >= 0 then Some(Address(s[..i], port)) else None
      case None => None
  }

  /** The shown address gives back the ip and the port, even for an IPv6 ip that has
      colons of its own. */
  lemma AddressRoundTrip(a: Address)
    ensures ParseAddress(AddressText(a)) == Some(a)
  {
    var s := AddressText(a);
    var digits := NatToString(a.port);
    assert s[|a.ip|] == ':';
    forall k | |a.ip| < k < |s| ensures s[k] != ':' {
      assert s[k] == digits[k - |a.ip| - 1];
      assert IsDigit(digits[k - |a.ip| - 1]);
    }
    assert LastColon(s) == Some(|a.ip|);
    assert s[|a.ip| + 1..] == digits;
    assert s[..|a.ip|] == a.ip;
    ParseNatToString(a.port);
  }

  /** The colour of a state: established, listening, closing, anything else. */
  function ToneOf(status: string): (t: Tone)
    ensures t == Success <==> status == "ESTABLISHED"
    ensures t == Info <==> status == "LISTEN"
    ensures t == Warning <==> status in ["FIN_WAIT1", "FIN_WAIT2", "TIME_WAIT"]
  {
    if status == "ESTABLISHED" then Success
    else if status == "LISTEN" then Info
    else if status in ["FIN_WAIT1", "FIN_WAIT2", "TIME_WAIT"] then Warning
    else Plain
  }

  /** The name of a process, "Unknown" when it cannot be read. */
  function ProcessName(names: map<nat, string>, pid: nat): string
  {
    if pid in names then names[pid] else "Unknown"
  }

  /** One socket as reported: a missing local address shows "Unknown", a missing
      remote one "-", and a socket without a pid has no program. */
  function Describe(s: Socket, names: map<nat, string>): (c: Connection)
    ensures c.protocol == if s.stream then "TCP" else "UDP"
    ensures c.state == s.status && c.tone == ToneOf(s.status) && c.pid == s.pid
    ensures c.local == if s.laddr.Some? then AddressText(s.laddr.value) else "Unknown"
    ensures c.remote == if s.raddr.Some? then AddressText(s.raddr.value) else "-"
    ensures c.program == if s.pid == 0 then "" else ProcessName(names, s.pid)
  {
    Connection(
      if s.stream then "TCP" else "UDP",
      if s.laddr.Some? then AddressText(s.laddr.value) else "Unknown",
      if s.raddr.Some? then AddressText(s.raddr.value) else "-",
      s.status,
      ToneOf(s.status),
      s.pid,
      if s.pid == 0 then "" else ProcessName(names, s.pid))
  }

  /** The addresses shown for a connection read back as the socket's own. */
  lemma DescribeReadsBack(s: Socket, names: map<nat, string>)
    ensures s.laddr.Some? ==> ParseAddress(Describe(s, names).local) == s.laddr
    ensures s.raddr.Some? ==> ParseAddress(Describe(s, names).remote) == s.raddr
  {
    if s.laddr.Some? {
      AddressRoundTrip(s.laddr.value);
    }
    if s.raddr.Some? {
      AddressRoundTrip(s.raddr.value);
    }
  }

  /** A socket `get_connections` reports. */
  predicate Reported(s: Socket)
  {
    s.status != "CLOSE_WAIT"
  }

  /** The description of each socket of a list, in order. */
  function DescribeAll(sockets: seq<Socket>, names: map<nat, string>): (r: seq<Connection>)
    ensures |r| == |sockets|
    ensures forall k :: 0 <= k < |r| ==> r[k] == Describe(sockets[k], names)
    decreases |sockets|
  {
    if sockets == [] then [] else [Describe(sockets[0], names)] + DescribeAll(sockets[1..], names)
  }

  /** `get_connections`: every socket not in CLOSE_WAIT, in table order. */
  function Connections(sockets: seq<Socket>, names: map<nat, string>): (r: seq<Connection>)
    ensures |r| == |Filter(Reported, sockets)| <= |sockets|
    ensures forall k :: 0 <= k < |r| ==> r[k] == Describe(Filter(Reported, sockets)[k], names)
  {
    DescribeAll(Filter(Reported, sockets), names)
  }

  /** No connection in CLOSE_WAIT is reported, and every other one is. */
  lemma ClosingNotReported(sockets: seq<Socket>, names: map<nat, string>)
    ensures forall c :: c in Connections(sockets, names) ==> c.state != "CLOSE_WAIT"
    ensures forall s :: s in sockets && s.status != "CLOSE_WAIT" ==> Describe(s, names) in Connections(sockets, names)
  {
    var kept := Filter(Reported, sockets);
    var r := Connections(sockets, names);
    forall c | c in r ensures c.state != "CLOSE_WAIT" {
      var k :| 0 <= k < |r| && r[k] == c;
      assert kept[k] in kept;
    }
    forall s | s in sockets && s.status != "CLOSE_WAIT" ensures Describe(s, names) in r {
      assert s in kept;
      var k :| 0 <= k < |kept| && kept[k] == s;
      assert r[k] == Describe(s, names);
    }
  }

  // ---------------------------------------------------------------------------
  // Interfaces
  // ---------------------------------------------------------------------------

  datatype Counters = Counters(
    bytesSent: int, bytesRecv: int, packetsSent: int, packetsRecv: int,
    errin: int, errout: int, dropin: int, dropout: int)

  /** One active interface: the second snapshot's counters and the change since the
      first. */
  datatype Activity = Activity(
    name: string, now: Counters,
    bytesSentRate: int, bytesRecvRate: int, packetsSentRate: int, packetsRecvRate: int)

  /** An interface of the second snapshot that was also in the first and sent or
      received something in between. */
  predicate Active(first: map<string, Counters>, entry: (string, Counters))
  {
    entry.0 in first &&
    (entry.1.bytesSent - first[entry.0].bytesSent > 0 || entry.1.bytesRecv - first[entry.0].bytesRecv > 0)
  }

  /** The active interfaces of the second snapshot, in its order. */
  function ActiveEntries(first: map<string, Counters>, second: seq<(string, Counters)>): (r: seq<(string, Counters)>)
    ensures forall e :: e in r <==> e in second && Active(first, e)
  {
    Filter(e => Active(first, e), second)
  }

  /** The change of an interface's counters since the first snapshot. */
  function Rate(first: map<string, Counters>, entry: (string, Counters)): (a: Activity)
    requires entry.0 in first
    ensures a.name == entry.0 && a.now == entry.1
  {
    var (name, now) := entry;
    var before := first[name];
    Activity(name, now,
             now.bytesSent - before.bytesSent, now.bytesRecv - before.bytesRecv,
             now.packetsSent - before.packetsSent, now.packetsRecv - before.packetsRecv)
  }

  /** The rates of some interfaces that are all in the first snapshot, in order. */
  function RatesOf(first: map<string, Counters>, entries: seq<(string, Counters)>): (r: seq<Activity>)
    requires forall k :: 0 <= k < |entries| ==> entries[k].0 in first
    ensures |r| == |entries|
    ensures forall k :: 0 <= k < |r| ==> r[k] == Rate(first, entries[k])
    decreases |entries|
  {
    if entries == [] then [] else [Rate(first, entries[0])] + RatesOf(first, entries[1..])
  }

  /** `get_network_stats`, given the first snapshot and the second in iteration order. */
  function NetworkStats(first: map<string, Counters>, second: seq<(string, Counters)>): (r: seq<Activity>)
    ensures |r| == |ActiveEntries(first, second)| <= |second|
    ensures forall k :: 0 <= k < |r| ==> r[k] == Rate(first, ActiveEntries(first, second)[k])
  {
    var kept := ActiveEntries(first, second);
    assert forall k :: 0 <= k < |kept| ==> kept[k].0 in first by {
      forall k | 0 <= k < |kept| ensures kept[k].0 in first {
        assert kept[k] in kept;
      }
    }
    RatesOf(first, kept)
  }

  /** Every listed interface moved bytes, and its rates are the differences of its
      counters between the two snapshots. */
  lemma RatesAreDifferences(first: map<string, Counters>, second: seq<(string, Counters)>, k: nat)
    requires k < |NetworkStats(first, second)|
    ensures var a := NetworkStats(first, second)[k];
            && (a.name, a.now) in second && a.name in first
            && a.bytesSentRate == a.now.bytesSent - first[a.name].bytesSent
            && a.bytesRecvRate == a.now.bytesRecv - first[a.name].bytesRecv
            && a.packetsSentRate == a.now.packetsSent - first[a.name].packetsSent
            && a.packetsRecvRate == a.now.packetsRecv - first[a.name].packetsRecv
            && (a.bytesSentRate > 0 || a.bytesRecvRate > 0)
  {
    var e := ActiveEntries(first, second)[k];
    assert e in ActiveEntries(first, second);
  }

  /** The listed interface at a position is the active entry at that position. */
  lemma StatsAt(first: map<string, Counters>, second: seq<(string, Counters)>, k: nat)
    requires k < |NetworkStats(first, second)|
    ensures ActiveEntries(first, second)[k]
         == (NetworkStats(first, second)[k].name, NetworkStats(first, second)[k].now)
  {
  }

  /** An interface appears exactly when it is in both snapshots and moved bytes. */
  lemma ActiveListed(first: map<string, Counters>, second: seq<(string, Counters)>, name: string, now: Counters)
    ensures (exists k :: 0 <= k < |NetworkStats(first, second)| &&
               NetworkStats(first, second)[k].name == name && NetworkStats(first, second)[k].now == now)
        <==> (name, now) in second && Active(first, (name, now))
  {
    var kept := ActiveEntries(first, second);
    var r := NetworkStats(first, second);
    if (name, now) in second && Active(first, (name, now)) {
      assert (name, now) in kept;
      var k :| 0 <= k < |kept| && kept[k] == (name, now);
      StatsAt(first, second, k);
    }
    if exists k :: 0 <= k < |r| && r[k].name == name && r[k].now == now {
      var k :| 0 <= k < |r| && r[k].name == name && r[k].now == now;
      StatsAt(first, second, k);
      assert kept[k] in kept;
    }
  }

  // ---------------------------------------------------------------------------
  // Listening ports
  // ---------------------------------------------------------------------------

  datatype Listening = Listening(protocol: string, port: nat, address: string, pid: nat, program: string)

  predicate Listens(s: Socket)
  {
    s.status == "LISTEN"
  }

  /** The entry of a listening socket: a socket without a pid has program "Unknown". */
  function ListenEntry(s: Socket, names: map<nat, string>): (l: Listening)
    requires s.laddr.Some?
    ensures l.protocol == if s.stream then "TCP" else "UDP"
    ensures l.port == s.laddr.value.port && l.address == s.laddr.value.ip && l.pid == s.pid
    ensures l.program == if s.pid == 0 then "Unknown" else ProcessName(names, s.pid)
  {
    Listening(if s.stream then "TCP" else "UDP", s.laddr.value.port, s.laddr.value.ip, s.pid,
              if s.pid == 0 then "Unknown" else ProcessName(names, s.pid))
  }

  /** The listening sockets in table order. The script reads each one's local
      address; a listening socket without one raises, which ends the scan there. */
  function ListeningOf(sockets: seq<Socket>, names: map<nat, string>): (r: seq<Listening>)
    ensures |r| <= |sockets|
    ensures forall l :: l in r ==> exists s :: s in sockets && Listens(s) && s.laddr.Some? && l.port == s.laddr.value.port
    decreases |sockets|
  {
    if sockets == [] then []
    else
      var s := sockets[0];
      if !Listens(s) then ListeningOf(sockets[1..], names)
      else if s.laddr.None? then []
      else
        var rest := ListeningOf(sockets[1..], names);
        assert forall l :: l in rest ==> exists t :: t in sockets[1..] && Listens(t) && t.laddr.Some? && l.port == t.laddr.value.port;
        [ListenEntry(s, names)] + rest
  }

  /** Where the scan stops: the first listening socket without a local address, or
      the end of the table. */
  function ScanEnd(sockets: seq<Socket>): (n: nat)
    ensures n <= |sockets|
    ensures forall k :: 0 <= k < n ==> !(Listens(sockets[k]) && sockets[k].laddr.None?)
    ensures n < |sockets| ==> Listens(sockets[n]) && sockets[n].laddr.None?
    decreases |sockets|
  {
    if sockets == [] then 0
    else if Listens(sockets[0]) && sockets[0].laddr.None? then 0
    else 1 + ScanEnd(sockets[1..])
  }

  /** The entries of listening sockets that all have a local address, in order. */
  function EntriesOf(xs: seq<Socket>, names: map<nat, string>): (r: seq<Listening>)
    requires forall k :: 0 <= k < |xs| ==> xs[k].laddr.Some?
    ensures |r| == |xs|
    ensures forall k :: 0 <= k < |xs| ==> r[k] == ListenEntry(xs[k], names)
  {
    seq(|xs|, k requires 0 <= k < |xs| && xs[k].laddr.Some? => ListenEntry(xs[k], names))
  }

  lemma EntriesCons(x: Socket, xs: seq<Socket>, names: map<nat, string>)
    requires x.laddr.Some? && forall k :: 0 <= k < |xs| ==> xs[k].laddr.Some?
    ensures forall k :: 0 <= k < |[x] + xs| ==> ([x] + xs)[k].laddr.Some?
    ensures EntriesOf([x] + xs, names) == [ListenEntry(x, names)] + EntriesOf(xs, names)
  {
    var ys := [x] + xs;
    assert forall k :: 0 <= k < |ys| ==> ys[k].laddr.Some? by {
      forall k | 0 <= k < |ys| ensures ys[k].laddr.Some? {
        if k > 0 {
          assert ys[k] == xs[k - 1];
        }
      }
    }
    var r := EntriesOf(ys, names);
    forall k | 1 <= k < |ys| ensures r[k] == EntriesOf(xs, names)[k - 1] {
      assert ys[k] == xs[k - 1];
    }
  }

  /** The listening sockets before the scan stops, in table order. */
  function Scanned(sockets: seq<Socket>): (kept: seq<Socket>)
    ensures forall k :: 0 <= k < |kept| ==> Listens(kept[k]) && kept[k].laddr.Some?
  {
    var kept := Filter(Listens, sockets[..ScanEnd(sockets)]);
    assert forall k :: 0 <= k < |kept| ==> kept[k].laddr.Some? by {
      forall k | 0 <= k < |kept| ensures kept[k].laddr.Some? {
        assert kept[k] in sockets[..ScanEnd(sockets)];
      }
    }
    kept
  }

  /** Every listening socket before the first one without a local address is listed,
      in table order, with its protocol, port, address, pid and program, and nothing
      else is. */
  lemma {:induction false} ListeningScans(sockets: seq<Socket>, names: map<nat, string>)
    ensures ListeningOf(sockets, names) == EntriesOf(Scanned(sockets), names)
    decreases |sockets|
  {
    if sockets != [] {
      var s, rest := sockets[0], sockets[1..];
      assert sockets == [s] + rest;
      if !(Listens(s) && s.laddr.None?) {
        ListeningScans(rest, names);
        var n := ScanEnd(rest);
        assert sockets[..ScanEnd(sockets)] == [s] + rest[..n];
        FilterCons(Listens, s, rest[..n]);
        if Listens(s) {
          EntriesCons(s, Scanned(rest), names);
        }
      }
    }
  }

  /** Ascending port order. */
  function ByPort(): (Listening, Listening) -> bool
  {
    (a: Listening, b: Listening) => a.port <= b.port
  }

  /** `get_listening_ports`: the listening sockets sorted by port. */
  function ListeningPorts(sockets: seq<Socket>, names: map<nat, string>): (r: seq<Listening>)
    ensures multiset(r) == multiset(ListeningOf(sockets, names))
    ensures SortedBy(ByPort(), r)
    ensures forall i, j :: 0 <= i < j < |r| ==> r[i].port <= r[j].port
  {
    assert TotalPreorder(ByPort());
    SortSorted(ByPort(), ListeningOf(sockets, names));
    Sort(ByPort(), ListeningOf(sockets, names))
  }

  /** Entries on the same port keep their table order. */
  lemma ListeningPortsStable(sockets: seq<Socket>, names: map<nat, string>, port: nat)
    ensures Filter(OnPort(port), ListeningPorts(sockets, names))
         == Filter(OnPort(port), ListeningOf(sockets, names))
  {
    var l := Listening("", port, "", 0, "");
    assert TotalPreorder(ByPort());
    SortStable(ByPort(), l, ListeningOf(sockets, names));
    FilterSame(Tied(ByPort(), l), OnPort(port), ListeningPorts(sockets, names));
    FilterSame(Tied(ByPort(), l), OnPort(port), ListeningOf(sockets, names));
  }

  function OnPort(port: nat): Listening -> bool
  {
    (l: Listening) => l.port == port
  }

  /** Ports below 1024 are shown as well-known. */
  function PortTone(port: nat): (t: Tone)
    ensures t == Warning <==> port < 1024
    ensures t == Success <==> port >= 1024
  {
    if port < 1024 then Warning else Success
  }

  // ---------------------------------------------------------------------------
  // The command line
  // ---------------------------------------------------------------------------

  /** What `main` shows. */
  datatype Command = ShowAll | Help | ShowConnections | ShowPorts | ShowInterfaces | Unknown(name: string)

  /** `main`, given `sys.argv[1:]`. */
  function Main(args: seq<string>): (c: Command)
    ensures args == [] <==> c == ShowAll
    ensures c == Help <==> args != [] && Lower(args[0]) == "help"
    ensures c == ShowConnections <==> args != [] && Lower(args[0]) in ["conn", "connections"]
    ensures c == ShowPorts <==> args != [] && Lower(args[0]) in ["listen", "listening", "ports"]
    ensures c == ShowInterfaces <==> args != [] && Lower(args[0]) in ["stats", "interfaces"]
    ensures c.Unknown? <==> args != [] && Lower(args[0]) !in Commands
    ensures c.Unknown? ==> c.name == Lower(args[0])
  {
    if args == [] then ShowAll
    else
      var command := Lower(args[0]);
      if command == "help" then Help
      else if command in ["conn", "connections"] then ShowConnections
      else if command in ["listen", "listening", "ports"] then ShowPorts
      else if command in ["stats", "interfaces"] then ShowInterfaces
      else Unknown(command)
  }

  /** The command words `main` knows, lowercased. */
  const Commands: seq<string> :=
    ["help", "conn", "connections", "listen", "listening", "ports", "stats", "interfaces"]

  /** The command word is read case-insensitively. */
  lemma MainIgnoresCase(args: seq<string>)
    requires args != []
    ensures Main(args) == Main([Lower(args[0])] + args[1..])
  {
    LowerIdempotent(args[0]);
  }
}

=== FILE: options.dfy ===
/** The optional value every script returns where Python returns `None`. */
module Options {

  datatype Option<+T> = None | Some(value: T) {

    /** The wrapped value, or `default` for `None` (Python's `x or default`). */
    function GetOr(default: T): T
    {
      match this
      case Some(v) => v
      case None => default
    }
  }
}

=== FILE: proclist.dfy ===
/**
 The process lister (`sigma/proclist.py`): which processes are listed and in what
 order, how a long command line is shortened, how the process tree is linked, and
 how the command line picks what to show. The process table is a parameter: the
 records `psutil` reported, in the order it reported them. CPU percentages, which
 are floating point in the script, are integers here.
 */
module ProcList {
  import opened Options
  import opened Text
  import opened Sorting
  import opened StrOrder
  import opened Lists

  // ---------------------------------------------------------------------------
  // Records
  // ---------------------------------------------------------------------------

  /** One listed process; `createTime` is its start time as "HH:MM:SS". */
  datatype Process = Process(
    pid: int, name: string, username: string, status: string,
    cpu: int, memoryBytes: int, createTime: string, cmdline: string)

  const CmdlineLimit: nat := 100
  const CmdlineKept: nat := 97

  /** A command line longer than 100 characters is cut to its first 97 and "...". */
  function Shorten(cmdline: string): (r: string)
    ensures |r| <= CmdlineLimit || r == cmdline
    ensures |cmdline| <= CmdlineLimit ==> r == cmdline
    ensures |cmdline| > CmdlineLimit ==>
      |r| == CmdlineLimit && r[..CmdlineKept] == cmdline[..CmdlineKept] && EndsWith(r, "...")
  {
    if |cmdline| > CmdlineLimit then cmdline[..CmdlineKept] + "..." else cmdline
  }

  /** Shortening twice is shortening once. */
  lemma ShortenIdempotent(cmdline: string)
    ensures Shorten(Shorten(cmdline)) == Shorten(cmdline)
    ensures |Shorten(cmdline)| <= CmdlineLimit
  {
  }

  /** The command line shown: the arguments joined by spaces and shortened, or the
      process name when reading the arguments failed (`None`). */
  function CommandLine(args: Option<seq<string>>, name: string): (r: string)
    ensures args.None? ==> r == name
    ensures args.Some? ==> |r| <= CmdlineLimit && r == Shorten(Join(args.value, " "))
  {
    match args
    case Some(parts) => Shorten(Join(parts, " "))
    case None => name
  }

  // ---------------------------------------------------------------------------
  // Listing
  // ---------------------------------------------------------------------------

  /** The name filter; an empty filter keeps every process. */
  predicate NameMatches(filter: string, p: Process)
  {
    filter == [] || ContainsIgnoringCase(p.name, filter)
  }

  datatype SortKey = ByCpu | ByMemory | ByPid | ByName | ByTime

  /** The sort orders `get_processes` knows; any other name leaves the order alone. */
  function SortKeyOf(sortBy: string): (k: Option<SortKey>)
    ensures k.Some? <==> sortBy in ["cpu", "memory", "pid", "name", "time"]
  {
    if sortBy == "cpu" then Some(ByCpu)
    else if sortBy == "memory" then Some(ByMemory)
    else if sortBy == "pid" then Some(ByPid)
    else if sortBy == "name" then Some(ByName)
    else if sortBy == "time" then Some(ByTime)
    else None
  }

  /** "May come before" for each key: CPU, memory and start time descending, pid and
      lowercased name ascending. */
  function Before(key: SortKey): (Process, Process) -> bool
  {
    match key
    case ByCpu => (a: Process, b: Process) => a.cpu >= b.cpu
    case ByMemory => (a: Process, b: Process) => a.memoryBytes >= b.memoryBytes
    case ByPid => (a: Process, b: Process) => a.pid <= b.pid
    case ByName => (a: Process, b: Process) => StrLe(Lower(a.name), Lower(b.name))
    case ByTime => (a: Process, b: Process) => StrGe(a.createTime, b.createTime)
  }

  lemma BeforeIsTotalPreorder(key: SortKey)
    ensures TotalPreorder(Before(key))
  {
    match key
    case ByName =>
      forall a: Process, b: Process ensures Before(key)(a, b) || Before(key)(b, a) {
        StrLeTotal(Lower(a.name), Lower(b.name));
      }
      forall a: Process, b: Process, c: Process | Before(key)(a, b) && Before(key)(b, c)
        ensures Before(key)(a, c)
      {
        StrLeTrans(Lower(a.name), Lower(b.name), Lower(c.name));
      }
    case ByTime =>
      forall a: Process, b: Process ensures Before(key)(a, b) || Before(key)(b, a) {
        StrLeTotal(a.createTime, b.createTime);
      }
      forall a: Process, b: Process, c: Process | Before(key)(a, b) && Before(key)(b, c)
        ensures Before(key)(a, c)
      {
        StrLeTrans(c.createTime, b.createTime, a.createTime);
      }
    case _ =>
  }

  /** `processes.sort(key=..., reverse=...)` for the named order. */
  function SortBy(ps: seq<Process>, sortBy: string): (r: seq<Process>)
    ensures |r| == |ps| && multiset(r) == multiset(ps)
    ensures SortKeyOf(sortBy).None? ==> r == ps
  {
    match SortKeyOf(sortBy)
    case Some(key) => Sort(Before(key), ps)
    case None => ps
  }

  lemma SortBySorted(ps: seq<Process>, sortBy: string)
    requires SortKeyOf(sortBy).Some?
    ensures SortedBy(Before(SortKeyOf(sortBy).value), SortBy(ps, sortBy))
  {
    var key := SortKeyOf(sortBy).value;
    BeforeIsTotalPreorder(key);
    SortSorted(Before(key), ps);
  }

  /** `processes[:top]` when `top` is non-zero: a positive count keeps that many from
      the front, a negative one drops that many from the back. */
  function Head<T>(xs: seq<T>, top: int): (r: seq<T>)
    ensures |r| <= |xs| && r == xs[..|r|]
    ensures top == 0 ==> |r| == |xs|
    ensures top > 0 ==> |r| == if top < |xs| then top else |xs|
    ensures top < 0 ==> |r| == if -top < |xs| then |xs| + top else 0
  {
    if top == 0 then xs
    else if top > 0 then xs[..if top < |xs| then top else |xs|]
    else xs[..if -top < |xs| then |xs| + top else 0]
  }

  /** The sort is stable: processes with equal keys stay in table order. */
  lemma SortByStable(ps: seq<Process>, sortBy: string, p: Process)
    requires SortKeyOf(sortBy).Some?
    ensures var tied := Tied(Before(SortKeyOf(sortBy).value), p);
            Filter(tied, SortBy(ps, sortBy)) == Filter(tied, ps)
  {
    var key := SortKeyOf(sortBy).value;
    BeforeIsTotalPreorder(key);
    SortStable(Before(key), p, ps);
  }

  /** The processes the name filter keeps, in table order. */
  function Listed(table: seq<Process>, filter: string): (r: seq<Process>)
    ensures forall p :: p in r <==> p in table && NameMatches(filter, p)
  {
    Filter(p => NameMatches(filter, p), table)
  }

  /** Sorting lists the same processes. */
  lemma SortByMembers(ps: seq<Process>, sortBy: string)
    ensures forall p :: p in SortBy(ps, sortBy) <==> p in ps
  {
    forall p ensures p in SortBy(ps, sortBy) <==> p in ps {
      assert p in SortBy(ps, sortBy) <==> p in multiset(SortBy(ps, sortBy));
      assert p in ps <==> p in multiset(ps);
    }
  }

  /** `get_processes`: filter by name, sort, then keep the top entries. A `top` of 0
      stands for the absent argument. */
  function GetProcesses(table: seq<Process>, sortBy: string, top: int, filter: string): (r: seq<Process>)
    ensures forall p :: p in r ==> p in table && NameMatches(filter, p)
    ensures top == 0 ==> forall p :: p in table && NameMatches(filter, p) ==> p in r
    ensures top > 0 ==> |r| == if top < |Listed(table, filter)| then top else |Listed(table, filter)|
  {
    var sorted := SortBy(Listed(table, filter), sortBy);
    SortByMembers(Listed(table, filter), sortBy);
    Head(sorted, top)
  }

  /** A positive `top` lists the first entries of the sorted, filtered table: the
      highest by CPU, memory or start time, the lowest by pid or name. */
  lemma TopIsSortedPrefix(table: seq<Process>, sortBy: string, top: int, filter: string)
    requires top > 0 && SortKeyOf(sortBy).Some?
    ensures var r := GetProcesses(table, sortBy, top, filter);
            var sorted := SortBy(Listed(table, filter), sortBy);
            && SortedBy(Before(SortKeyOf(sortBy).value), r)
            && r == sorted[..|r|]
            && forall i, j :: 0 <= i < |r| <= j < |sorted| ==>
                 Before(SortKeyOf(sortBy).value)(r[i], sorted[j])
  {
    var sorted := SortBy(Listed(table, filter), sortBy);
    SortBySorted(Listed(table, filter), sortBy);
    var r := GetProcesses(table, sortBy, top, filter);
    assert r == sorted[..|r|];
  }

  // ---------------------------------------------------------------------------
  // The process tree
  // ---------------------------------------------------------------------------

  /** A process whose parent is not in the table is a root of the tree. */
  function IsRoot(parent: map<int, int>): int -> bool
  {
    pid => pid in parent && parent[pid] !in parent
  }

  /** A child of `q`: a process of the table whose parent is `q`. */
  function ChildOf(parent: map<int, int>, q: int): int -> bool
  {
    pid => pid in parent && parent[pid] == q && q in parent
  }

  /** The `processes` dictionary as the reading loop fills it from the records that
      were read, each a pid and its parent's pid: a pid read again keeps its first
      place in the key order and takes the parent read last. `order` lists the keys
      in insertion order. */
  function Table(records: seq<(int, int)>): (t: (seq<int>, map<int, int>))
    ensures NoDup(t.0)
    ensures forall pid :: pid in t.1 <==> pid in t.0
    decreases |records|
  {
    if records == [] then ([], map[])
    else
      var n := |records| - 1;
      var (order, parent) := Table(records[..n]);
      var pid := records[n].0;
      if pid in parent then (order, parent[pid := records[n].1])
      else
        assert pid !in order;
        (order + [pid], parent[pid := records[n].1])
  }

  /** The pids of the records, in reading order. */
  function Pids(records: seq<(int, int)>): (pids: seq<int>)
    ensures |pids| == |records|
  {
    seq(|records|, k requires 0 <= k < |records| => records[k].0)
  }

  /** The dictionary's keys are exactly the pids read. */
  lemma {:induction false} TableKeys(records: seq<(int, int)>)
    ensures forall pid :: pid in Table(records).1 <==> pid in Pids(records)
    decreases |records|
  {
    if records != [] {
      var n := |records| - 1;
      TableKeys(records[..n]);
      assert Pids(records) == Pids(records[..n]) + [records[n].0];
    }
  }

  /** A pid's entry holds the parent its last record read. */
  lemma {:induction false} TableParent(records: seq<(int, int)>, k: nat)
    requires k < |records| && LastReading(records, k)
    ensures records[k].0 in Table(records).1
    ensures Table(records).1[records[k].0] == records[k].1
    decreases |records|
  {
    var n := |records| - 1;
    TableLast(records);
    if k < n {
      LastReadingPrefix(records, k);
      TableParent(records[..n], k);
    }
  }

  /** The last record sets its pid's entry. */
  lemma TableLast(records: seq<(int, int)>)
    requires records != []
    ensures var n := |records| - 1;
      Table(records).1 == Table(records[..n]).1[records[n].0 := records[n].1]
  {
  }

  /** A last reading among all the records is one among all but the final record,
      and the final record reads another pid. */
  lemma LastReadingPrefix(records: seq<(int, int)>, k: nat)
    requires k < |records| - 1 && LastReading(records, k)
    ensures LastReading(records[..|records| - 1], k)
    ensures records[|records| - 1].0 != records[k].0
  {
    var prefix := records[..|records| - 1];
    assert prefix[k] == records[k];
    forall l | k < l < |prefix| ensures prefix[l].0 != prefix[k].0 {
      assert prefix[l] == records[l];
    }
  }

  /** No later record reads the same pid as record `k`. */
  predicate LastReading(records: seq<(int, int)>, k: nat)
    requires k < |records|
  {
    forall l :: k < l < |records| ==> records[l].0 != records[k].0
  }

  /** The roots and children lists after linking the first `i` processes of `order`. */
  ghost predicate LinkedUpTo(order: seq<int>, parent: map<int, int>, i: nat,
                             roots: seq<int>, children: map<int, seq<int>>)
    requires i <= |order|
  {
    && roots == Filter(IsRoot(parent), order[..i])
    && children.Keys == parent.Keys
    && forall q :: q in parent ==> children[q] == Filter(ChildOf(parent, q), order[..i])
  }

  /** Linking one more process extends exactly one list: its parent's children, or
      the roots. */
  lemma LinkStep(order: seq<int>, parent: map<int, int>, i: nat,
                 roots: seq<int>, children: map<int, seq<int>>)
    requires i < |order| && order[i] in parent
    requires LinkedUpTo(order, parent, i, roots, children)
    ensures var pid := order[i];
            if parent[pid] in parent
            then LinkedUpTo(order, parent, i + 1, roots, children[parent[pid] := children[parent[pid]] + [pid]])
            else LinkedUpTo(order, parent, i + 1, roots + [pid], children)
  {
    var pid := order[i];
    assert order[..i + 1] == order[..i] + [pid];
    FilterSnoc(IsRoot(parent), order[..i], pid);
    forall q | q in parent
      ensures Filter(ChildOf(parent, q), order[..i + 1])
           == Filter(ChildOf(parent, q), order[..i]) + if ChildOf(parent, q)(pid) then [pid] else []
    {
      FilterSnoc(ChildOf(parent, q), order[..i], pid);
    }
  }

  /** The linking loop of `get_process_tree` over the dictionary `Table` builds:
      `order` is its keys in insertion order, `parent` maps each to its parent's pid.
      Every process starts with no children; each is then added to its parent's
      children, or to the roots when its parent is not in the table. */
  method LinkTree(order: seq<int>, parent: map<int, int>) returns (roots: seq<int>, children: map<int, seq<int>>)
    requires NoDup(order)
    requires forall pid :: pid in parent <==> pid in order
    ensures roots == Filter(IsRoot(parent), order)
    ensures children.Keys == parent.Keys
    ensures forall q :: q in parent ==> children[q] == Filter(ChildOf(parent, q), order)
  {
    roots := [];
    children := map q | q in parent :: [];
    var i := 0;
    while i < |order|
      invariant i <= |order|
      invariant LinkedUpTo(order, parent, i, roots, children)
    {
      var pid := order[i];
      var ppid := parent[pid];
      LinkStep(order, parent, i, roots, children);
      if ppid in parent {
        children := children[ppid := children[ppid] + [pid]];
      } else {
        roots := roots + [pid];
      }
      i := i + 1;
    }
    assert order[..i] == order;
  }

  /** Each process of the table is placed exactly once: once among the roots when its
      parent is missing, otherwise once among its parent's children and in nobody
      else's list. */
  lemma PlacedOnce(order: seq<int>, parent: map<int, int>, pid: int)
    requires NoDup(order)
    requires forall p :: p in parent <==> p in order
    requires pid in parent
    ensures multiset(Filter(IsRoot(parent), order))[pid] == if parent[pid] in parent then 0 else 1
    ensures forall q :: q in parent ==>
              multiset(Filter(ChildOf(parent, q), order))[pid] == if q == parent[pid] then 1 else 0
  {
    NoDupCount(order, pid);
    FilterCount(IsRoot(parent), order, pid);
    forall q | q in parent
      ensures multiset(Filter(ChildOf(parent, q), order))[pid] == if q == parent[pid] then 1 else 0
    {
      FilterCount(ChildOf(parent, q), order, pid);
    }
  }

  /** `get_process_tree`: the records read become the dictionary, which is then
      linked. Every pid read is placed exactly once. */
  method ProcessTree(records: seq<(int, int)>) returns (roots: seq<int>, children: map<int, seq<int>>)
    ensures var (order, parent) := Table(records);
            && roots == Filter(IsRoot(parent), order)
            && children.Keys == parent.Keys
            && forall q :: q in parent ==> children[q] == Filter(ChildOf(parent, q), order)
    ensures var parent := Table(records).1;
            forall pid :: pid in Pids(records) ==>
              && pid in parent
              && multiset(roots)[pid] == (if parent[pid] in parent then 0 else 1)
              && forall q :: q in parent ==> multiset(children[q])[pid] == if q == parent[pid] then 1 else 0
  {
    var (order, parent) := Table(records);
    roots, children := LinkTree(order, parent);
    TableKeys(records);
    forall pid | pid in Pids(records)
      ensures && pid in parent
              && multiset(roots)[pid] == (if parent[pid] in parent then 0 else 1)
              && forall q :: q in parent ==> multiset(children[q])[pid] == if q == parent[pid] then 1 else 0
    {
      PlacedOnce(order, parent, pid);
    }
  }

  // ---------------------------------------------------------------------------
  // The command line
  // ---------------------------------------------------------------------------

  /** What `main` shows. */
  datatype Command =
    | List(sortBy: string, top: int, filter: string, detailed: bool)
    | Help
    | InvalidNumber(text: string)
    | InvalidSort(name: string)
    | Tree
    | Details(pid: int)
    | InvalidPid(text: string)
    | Unknown(name: string)

  const DefaultList: Command := List("cpu", 0, "", false)

  /** The lowercased commands `main` acts on, given the number of arguments: `top`,
      `sort`, `find` and `pid` need one more. */
  predicate Known(command: string, count: nat)
  {
    || command in ["help", "detail", "tree"]
    || (command in ["top", "sort", "find", "pid"] && count >= 2)
  }

  /** `main`, given `sys.argv[1:]`. */
  function Main(args: seq<string>): (c: Command)
    ensures args == [] ==> c == DefaultList
    ensures c.List? ==> SortKeyOf(c.sortBy).Some?
    ensures c == Help <==> args != [] && Lower(args[0]) == "help"
    ensures c == Tree <==> args != [] && Lower(args[0]) == "tree"
    ensures c.List? && c.detailed <==> args != [] && Lower(args[0]) == "detail"
    ensures c.InvalidSort? <==>
      |args| >= 2 && Lower(args[0]) == "sort" && SortKeyOf(Lower(args[1])).None?
    ensures c.InvalidNumber? <==> |args| >= 2 && Lower(args[0]) == "top" && ParseInt(args[1]).None?
    ensures c.InvalidPid? <==> |args| >= 2 && Lower(args[0]) == "pid" && ParseInt(args[1]).None?
    ensures c.Details? <==> |args| >= 2 && Lower(args[0]) == "pid" && ParseInt(args[1]).Some?
    ensures c.Details? ==> c.pid == ParseInt(args[1]).value
    ensures c.Unknown? <==> args != [] && !Known(Lower(args[0]), |args|)
    ensures c.Unknown? ==> c.name == Lower(args[0])
    ensures |args| >= 2 && Lower(args[0]) == "top" && ParseInt(args[1]).Some? ==>
      c == List("cpu", ParseInt(args[1]).value, "", false)
    ensures |args| >= 2 && Lower(args[0]) == "sort" && SortKeyOf(Lower(args[1])).Some? ==>
      c == List(Lower(args[1]), 0, "", false)
    ensures |args| >= 2 && Lower(args[0]) == "find" ==> c == List("cpu", 0, args[1], false)
    ensures args != [] && Lower(args[0]) == "detail" ==> c == List("cpu", 0, "", true)
  {
    if args == [] then DefaultList
    else
      var command := Lower(args[0]);
      if command == "help" then Help
      else if command == "top" && |args| >= 2 then
        match ParseInt(args[1])
        case Some(n) => List("cpu", n, "", false)
        case None => InvalidNumber(args[1])
      else if command == "sort" && |args| >= 2 then
        var sortBy := Lower(args[1]);
        if SortKeyOf(sortBy).Some? then List(sortBy, 0, "", false) else InvalidSort(sortBy)
      else if command == "detail" then List("cpu", 0, "", true)
      else if command == "find" && |args| >= 2 then List("cpu", 0, args[1], false)
      else if command == "tree" then Tree
      else if command == "pid" && |args| >= 2 then
        match ParseInt(args[1])
        case Some(n) => Details(n)
        case None => InvalidPid(args[1])
      else Unknown(command)
  }

  /** The command word is read case-insensitively. */
  lemma MainIgnoresCase(args: seq<string>)
    requires args != []
    ensures Main(args) == Main([Lower(args[0])] + args[1..])
  {
    LowerIdempotent(args[0]);
    assert ([Lower(args[0])] + args[1..])[1..] == args[1..];
  }
}

=== FILE: rhosecure.dfy ===
/**
 The password manager (`RhoSecure/main.py`): how a typed command is read, and the
 store of entries it adds to, reads, lists and deletes. The store is the decrypted
 `passwords` dictionary, `None` when it could not be loaded; encryption and the
 files are outside the model.
 */
module RhoSecure {
  import opened Options
  import opened Text
  import opened Sorting
  import opened StrOrder

  // ---------------------------------------------------------------------------
  // Commands
  // ---------------------------------------------------------------------------

  datatype Action =
    | Nothing                                            // a blank line
    | Exit
    | Help
    | ListAll
    | Add(service: string, username: string, password: string)
    | Get(service: string)
    | Delete(service: string)
    | Invalid                                            // "Invalid command"

  /** `handle_command`'s dispatch on the command's words, the first one lowercased.
      `add` takes a service, a user name and a password that may contain spaces;
      `get` and `delete` take exactly a service. */
  function Dispatch(parts: seq<string>): (a: Action)
    ensures a == Nothing <==> parts == []
    ensures a == Exit <==> parts != [] && Lower(parts[0]) == "exit"
    ensures a.Add? <==> |parts| >= 4 && Lower(parts[0]) == "add"
    ensures a.Add? ==> a == Add(parts[1], parts[2], Join(parts[3..], " "))
    ensures a.Get? <==> |parts| == 2 && Lower(parts[0]) == "get"
    ensures a.Delete? <==> |parts| == 2 && Lower(parts[0]) == "delete"
    ensures a == Help <==> parts != [] && Lower(parts[0]) == "help"
    ensures a == ListAll <==> parts != [] && Lower(parts[0]) == "list"
    ensures a == Invalid <==> parts != [] && !Recognised(Lower(parts[0]), |parts| - 1)
  {
    if parts == [] then Nothing
    else
      var cmd := Lower(parts[0]);
      var args := parts[1..];
      if cmd == "exit" then Exit
      else if cmd == "help" then Help
      else if cmd == "list" then ListAll
      else if cmd == "add" && |args| >= 3 then Add(args[0], args[1], Join(args[2..], " "))
      else if cmd == "get" && |args| == 1 then Get(args[0])
      else if cmd == "delete" && |args| == 1 then Delete(args[0])
      else Invalid
  }

  /** A lowercased command word `handle_command` acts on, given how many arguments
      follow it. */
  predicate Recognised(cmd: string, argc: nat)
  {
    || cmd in ["exit", "help", "list"]
    || (cmd == "add" && argc >= 3)
    || (cmd in ["get", "delete"] && argc == 1)
  }

  /** The command word is read case-insensitively. */
  lemma DispatchIgnoresCase(parts: seq<string>)
    requires parts != []
    ensures Dispatch(parts) == Dispatch([Lower(parts[0])] + parts[1..])
  {
    LowerIdempotent(parts[0]);
    assert ([Lower(parts[0])] + parts[1..])[1..] == parts[1..];
  }

  /** `handle_command`'s reading of a typed command: its whitespace-separated words. */
  function Parse(command: string): (a: Action)
    ensures a == Nothing <==> AllIn(Strip(command), Spaces)
  {
    Dispatch(Words(Strip(command)))
  }

  /** What `handle_command` returns: whether the shell goes on. */
  function Continues(command: string): (more: bool)
    ensures !more <==> Parse(command) == Exit
  {
    Parse(command) != Exit
  }

  /** Every word of a command is a non-empty run without whitespace. */
  predicate IsWord(w: string)
  {
    w != [] && NoneIn(w, Spaces)
  }

  /** The words of words joined by spaces are those words. */
  lemma WordsOfJoin(ws: seq<string>)
    requires Pieces(ws, Spaces)
    ensures Words(Strip(Join(ws, " "))) == ws
  {
    if ws != [] {
      JoinEnds(ws, " ");
    }
    StripUnpadded(Join(ws, " "));
    WordsJoin(ws);
  }

  /** A command made of words joined by single spaces is dispatched on those words. */
  lemma ParseJoined(ws: seq<string>)
    requires Pieces(ws, Spaces)
    ensures Parse(Join(ws, " ")) == Dispatch(ws)
  {
    WordsOfJoin(ws);
  }

  /** The command words are already in lower case. */
  lemma CommandNamesLower()
    ensures Lower("add") == "add" && Lower("get") == "get" && Lower("delete") == "delete"
  {
    assert Lower("add") == "add";
    assert Lower("get") == "get";
    assert Lower("delete") == "delete";
  }

  /** `add` with a service, a user name and at least one more word. */
  lemma DispatchAdd(service: string, username: string, password: seq<string>)
    requires password != []
    ensures Dispatch(["add", service, username] + password) == Add(service, username, Join(password, " "))
  {
    CommandNamesLower();
    var ws := ["add", service, username] + password;
    assert ws[1..][2..] == password;
  }

  /** Words that are all words, with three more in front, are still all words. */
  lemma AddPieces(service: string, username: string, password: seq<string>)
    requires IsWord(service) && IsWord(username)
    requires forall k :: 0 <= k < |password| ==> IsWord(password[k])
    ensures Pieces(["add", service, username] + password, Spaces)
  {
    var ws := ["add", service, username] + password;
    forall k | 0 <= k < |ws| ensures |ws[k]| > 0 && NoneIn(ws[k], Spaces) {
      if k >= 3 {
        assert ws[k] == password[k - 3];
      } else if k == 0 {
        assert ws[k] == "add";
      }
    }
  }

  /** `add service user pass word` stores the password with its spaces: the words
      after the user name joined by single spaces. */
  lemma AddReadsPassword(service: string, username: string, password: seq<string>)
    requires IsWord(service) && IsWord(username) && password != []
    requires forall k :: 0 <= k < |password| ==> IsWord(password[k])
    ensures Parse(Join(["add", service, username] + password, " "))
         == Add(service, username, Join(password, " "))
  {
    AddPieces(service, username, password);
    ParseJoined(["add", service, username] + password);
    DispatchAdd(service, username, password);
  }

  /** `get` and `delete` with exactly one service, and with one word too many. */
  lemma DispatchGet(command: string, service: string, extra: string)
    requires command == "get" || command == "delete"
    ensures Dispatch([command, service]) == if command == "get" then Get(service) else Delete(service)
    ensures Dispatch([command, service, extra]) == Invalid
  {
    CommandNamesLower();
  }

  /** `get` and `delete` take one service: a second word makes the command invalid. */
  lemma GetTakesOneService(command: string, service: string, extra: string)
    requires command == "get" || command == "delete"
    requires IsWord(service) && IsWord(extra)
    ensures Parse(Join([command, service], " ")) ==
              if command == "get" then Get(service) else Delete(service)
    ensures Parse(Join([command, service, extra], " ")) == Invalid
  {
    ParseOneService(command, service, extra);
    ParseExtraWord(command, service, extra);
  }

  lemma ParseOneService(command: string, service: string, extra: string)
    requires command == "get" || command == "delete"
    requires IsWord(service)
    ensures Parse(Join([command, service], " ")) ==
              if command == "get" then Get(service) else Delete(service)
  {
    assert IsWord(command);
    ParseJoined([command, service]);
    DispatchGet(command, service, extra);
  }

  lemma ParseExtraWord(command: string, service: string, extra: string)
    requires command == "get" || command == "delete"
    requires IsWord(service) && IsWord(extra)
    ensures Parse(Join([command, service, extra], " ")) == Invalid
  {
    assert IsWord(command);
    ParseJoined([command, service, extra]);
    DispatchGet(command, service, extra);
  }

  // ---------------------------------------------------------------------------
  // The store
  // ---------------------------------------------------------------------------

  datatype Entry = Entry(username: string, password: string)

  /** `add_password`: insert or overwrite the service's entry; nothing happens when
      the store could not be loaded. */
  function AddPassword(store: Option<map<string, Entry>>, service: string, username: string, password: string)
    : (r: Option<map<string, Entry>>)
    ensures r.Some? <==> store.Some?
    ensures r.Some? ==> r.value.Keys == store.value.Keys + {service}
    ensures r.Some? ==> r.value[service] == Entry(username, password)
    ensures r.Some? ==> forall s :: s in store.value && s != service ==> r.value[s] == store.value[s]
  {
    match store
    case Some(m) => Some(m[service := Entry(username, password)])
    case None => None
  }

  /** `get_password`: the entry, when the store is loaded and holds the service. */
  function GetPassword(store: Option<map<string, Entry>>, service: string): (r: Option<Entry>)
    ensures r.Some? <==> store.Some? && service in store.value
    ensures r.Some? ==> r.value == store.value[service]
  {
    if store.Some? && service in store.value then Some(store.value[service]) else None
  }

  /** `delete_password`: remove the service's entry; a missing service, or a store
      that could not be loaded, leaves everything as it was. */
  function DeletePassword(store: Option<map<string, Entry>>, service: string): (r: Option<map<string, Entry>>)
    ensures r.Some? <==> store.Some?
    ensures r.Some? ==> r.value.Keys == store.value.Keys - {service}
    ensures r.Some? ==> forall s :: s in r.value ==> r.value[s] == store.value[s]
    ensures store.Some? && service !in store.value ==> r == store
  {
    match store
    case Some(m) => if service in m then Some(m - {service}) else store
    case None => None
  }

  /** Adding then reading gives back what was added; deleting then reading gives
      nothing; neither touches another service. */
  lemma StoreRoundTrip(store: map<string, Entry>, service: string, other: string, username: string, password: string)
    requires other != service
    ensures GetPassword(AddPassword(Some(store), service, username, password), service) == Some(Entry(username, password))
    ensures GetPassword(DeletePassword(Some(store), service), service) == None
    ensures GetPassword(AddPassword(Some(store), service, username, password), other) == GetPassword(Some(store), other)
    ensures GetPassword(DeletePassword(Some(store), service), other) == GetPassword(Some(store), other)
  {
  }

  /** `list_passwords`: the services in sorted order, or `None` ("No passwords stored
      yet") when the store is empty or could not be loaded. `services` is the store's
      keys in the dictionary's own order. */
  function ListServices(store: Option<map<string, Entry>>, services: seq<string>): (r: Option<seq<string>>)
    requires store.Some? ==> forall s :: s in services <==> s in store.value
    ensures r.None? <==> store.None? || store.value == map[]
    ensures r.Some? ==> multiset(r.value) == multiset(services) && SortedBy(StrLe, r.value)
    ensures r.Some? ==> forall s :: s in r.value <==> s in store.value
  {
    if store.None? || store.value == map[] then None
    else
      var sorted := Sort(StrLe, services);
      StrLeIsTotalPreorder();
      SortSorted(StrLe, services);
      assert forall s :: s in sorted <==> s in services by {
        forall s ensures s in sorted <==> s in services {
          assert s in sorted <==> s in multiset(sorted);
          assert s in services <==> s in multiset(services);
        }
      }
      Some(sorted)
  }
}

=== FILE: sigart.dfy ===
/**
 The ASCII-art generator (`SIGArt/main.py`): each grayscale pixel becomes one
 character of a ten-step palette, and the characters are cut into rows of the
 image's width. Opening and resizing the image are outside the model: the pixels
 are the resized image's grayscale values, row by row.
 */
module SigArt {
  import opened Options
  import opened Lists
  import opened Text

  /** The palette from darkest to lightest. */
  const Palette: string := "@%#*+=-:. "

  /** A grayscale value. */
  predicate IsPixel(p: int)
  {
    0 <= p <= 255
  }

  /** `min(pixel_value // 25, len(chars) - 1)`. */
  function PaletteIndex(p: int): (i: nat)
    requires IsPixel(p)
    ensures i < |Palette|
    ensures i == 0 <==> p < 25
    ensures i == |Palette| - 1 <==> p >= 225
  {
    if p / 25 < |Palette| - 1 then p / 25 else |Palette| - 1
  }

  /** A lighter pixel never gets a darker character. */
  lemma PaletteMonotone(p: int, q: int)
    requires 0 <= p <= q <= 255
    ensures PaletteIndex(p) <= PaletteIndex(q)
  {
  }

  /** Black is `@`, and everything from 225 up is a space. */
  lemma PaletteEnds(p: int)
    requires 225 <= p <= 255
    ensures Palette[PaletteIndex(0)] == '@'
    ensures Palette[PaletteIndex(p)] == ' '
  {
  }

  /** The characters for the pixels, one each, before the rows are cut. */
  function Shades(pixels: seq<int>): (s: string)
    requires forall k :: 0 <= k < |pixels| ==> IsPixel(pixels[k])
    ensures |s| == |pixels|
    ensures forall k :: 0 <= k < |s| ==> s[k] == Palette[PaletteIndex(pixels[k])]
    decreases |pixels|
  {
    if pixels == [] then [] else [Palette[PaletteIndex(pixels[0])]] + Shades(pixels[1..])
  }

  /** The rows laid end to end. */
  function Concat(rows: seq<string>): string
  {
    if rows == [] then [] else rows[0] + Concat(rows[1..])
  }

  /** `[s[i:i+width] for i in range(0, len(s), width)]`: rows of exactly `width`
      characters, the last one possibly shorter but never empty, that put back
      together give the string. */
  function Rows(s: string, width: int): (rows: seq<string>)
    requires width > 0
    ensures rows == [] <==> s == []
    ensures forall k :: 0 <= k < |rows| - 1 ==> |rows[k]| == width
    ensures rows != [] ==> 0 < |rows[|rows| - 1]| <= width
    ensures Concat(rows) == s
    decreases |s|
  {
    if s == [] then []
    else if |s| <= width then
      assert Concat([s]) == s + Concat([]);
      [s]
    else
      var rest := Rows(s[width..], width);
      var rows := [s[..width]] + rest;
      assert rows[1..] == rest;
      assert s == s[..width] + s[width..];
      rows
  }

  /** `image_to_ascii` once the image is opened: `width` and `height` are the size
      it is resized to, and `pixels` the resized image's grayscale values, row by row.
      `resize` refuses a size that is not positive in both directions; the exception
      is caught and there is no art. */
  function ImageToAscii(pixels: seq<int>, width: int, height: int): (art: Option<string>)
    requires forall k :: 0 <= k < |pixels| ==> IsPixel(pixels[k])
    requires width > 0 && height > 0 ==> |pixels| == width * height
    ensures art.None? <==> width <= 0 || height <= 0
  {
    if width <= 0 || height <= 0 then None
    else Some(Join(Rows(Shades(pixels), width), "\n"))
  }

  lemma DropOneRow(width: int, height: int)
    ensures width * height - width == width * (height - 1)
  {
  }

  /** A string of `height` full rows is cut into `height` rows of `width`. */
  lemma {:induction false} RowsOfFullImage(s: string, width: int, height: nat)
    requires width > 0 && height > 0 && |s| == width * height
    ensures |Rows(s, width)| == height
    ensures forall k :: 0 <= k < height ==> |Rows(s, width)[k]| == width
    decreases height
  {
    if height == 1 {
      assert Rows(s, width) == [s];
    } else {
      var rest := s[width..];
      DropOneRow(width, height);
      RowsOfFullImage(rest, width, height - 1);
      assert Rows(s, width) == [s[..width]] + Rows(rest, width);
    }
  }

  predicate NotNewline(c: char)
  {
    c != '\n'
  }

  /** No palette character is a newline. */
  lemma PaletteNoNewline()
    ensures '\n' !in Palette
  {
  }

  /** Taking the newlines out of a string without any leaves it as it is. */
  lemma NoNewlineKept(s: string)
    requires '\n' !in s
    ensures Filter(NotNewline, s) == s
  {
    FilterAll(NotNewline, s);
  }

  /** Each row's characters are characters of the rows laid end to end. */
  lemma {:induction false} InConcat(rows: seq<string>, k: int, c: char)
    requires 0 <= k < |rows| && c in rows[k]
    ensures c in Concat(rows)
    decreases |rows|
  {
    if k > 0 {
      InConcat(rows[1..], k - 1, c);
    }
  }

  /** No row holds a newline, so each newline of the art is a row break. */
  lemma RowsNoNewline(pixels: seq<int>, width: int)
    requires forall k :: 0 <= k < |pixels| ==> IsPixel(pixels[k])
    requires width > 0
    ensures forall k :: 0 <= k < |Rows(Shades(pixels), width)| ==> '\n' !in Rows(Shades(pixels), width)[k]
  {
    var s := Shades(pixels);
    var rows := Rows(s, width);
    PaletteNoNewline();
    assert '\n' !in s;
    forall k | 0 <= k < |rows| ensures '\n' !in rows[k] {
      if '\n' in rows[k] {
        InConcat(rows, k, '\n');
      }
    }
  }

  /** Removing the newlines from rows joined by newlines lays the rows end to end,
      when no row holds a newline of its own. */
  lemma {:induction false} DropNewlines(rows: seq<string>)
    requires forall k :: 0 <= k < |rows| ==> '\n' !in rows[k]
    ensures Filter(NotNewline, Join(rows, "\n")) == Concat(rows)
    decreases |rows|
  {
    if |rows| == 1 {
      NoNewlineKept(rows[0]);
      assert Concat(rows) == rows[0] + Concat([]);
    } else if |rows| > 1 {
      DropNewlines(rows[1..]);
      NoNewlineKept(rows[0]);
      FilterAppend(NotNewline, rows[0] + "\n", Join(rows[1..], "\n"));
      FilterAppend(NotNewline, rows[0], "\n");
      assert Filter(NotNewline, "\n") == [];
    }
  }

  /** The art holds one character per pixel: taking the newlines out gives the
      characters before the rows were cut. */
  lemma ArtHoldsEveryPixel(pixels: seq<int>, width: int, height: int)
    requires forall k :: 0 <= k < |pixels| ==> IsPixel(pixels[k])
    requires width > 0 && height > 0 && |pixels| == width * height
    ensures Filter(NotNewline, ImageToAscii(pixels, width, height).value) == Shades(pixels)
    ensures |Filter(NotNewline, ImageToAscii(pixels, width, height).value)| == |pixels|
  {
    RowsNoNewline(pixels, width);
    DropNewlines(Rows(Shades(pixels), width));
  }

  /** The art has one line per row of the image, each of exactly `width`
      characters, and the lines laid end to end are the pixels' characters. */
  lemma ArtLines(pixels: seq<int>, width: int, height: int)
    requires forall k :: 0 <= k < |pixels| ==> IsPixel(pixels[k])
    requires width > 0 && height > 0 && |pixels| == width * height
    ensures var lines := Split(ImageToAscii(pixels, width, height).value, '\n');
            && |lines| == height
            && (forall r :: 0 <= r < height ==> |lines[r]| == width)
            && Concat(lines) == Shades(pixels)
  {
    var rows := Rows(Shades(pixels), width);
    RowsOfFullImage(Shades(pixels), width, height);
    RowsNoNewline(pixels, width);
    SplitJoin(rows, '\n');
    assert "\n" == ['\n'];
  }
}

=== FILE: sorting.dfy ===
/**
 Python's `sorted(xs, key=..., reverse=...)` and `list.sort`: a stable sort by a
 total preorder. Ascending and descending keys are both expressed as the preorder
 "may come before"; insertion places a new element ahead of the first element it
 may precede, which keeps equal elements in their original order.
 */
module Sorting {
  import opened Lists

  /** `le` is total and transitive, as every key comparison the scripts use is. */
  ghost predicate TotalPreorder<T(!new)>(le: (T, T) -> bool)
  {
    && (forall a, b :: le(a, b) || le(b, a))
    && (forall a, b, c :: le(a, b) && le(b, c) ==> le(a, c))
  }

  ghost predicate SortedBy<T>(le: (T, T) -> bool, s: seq<T>)
  {
    forall i, j :: 0 <= i < j < |s| ==> le(s[i], s[j])
  }

  /** `s` with `x` placed ahead of the first element it may precede. */
  function Insert<T>(le: (T, T) -> bool, x: T, s: seq<T>): (r: seq<T>)
    ensures |r| == |s| + 1
    ensures multiset(r) == multiset(s) + multiset{x}
  {
    if s == [] || le(x, s[0]) then [x] + s
    else
      assert s == [s[0]] + s[1..];
      [s[0]] + Insert(le, x, s[1..])
  }

  /** `a` may come before every element of `s`. */
  ghost predicate Precedes<T>(le: (T, T) -> bool, a: T, s: seq<T>)
  {
    forall i :: 0 <= i < |s| ==> le(a, s[i])
  }

  lemma SortedCons<T>(le: (T, T) -> bool, a: T, s: seq<T>)
    requires Precedes(le, a, s) && SortedBy(le, s)
    ensures SortedBy(le, [a] + s)
  {
    var r := [a] + s;
    forall i, j | 0 <= i < j < |r| ensures le(r[i], r[j]) {
      assert r[j] == s[j - 1];
      if i > 0 {
        assert r[i] == s[i - 1];
      }
    }
  }

  lemma {:induction false} InsertPreceded<T>(le: (T, T) -> bool, a: T, x: T, s: seq<T>)
    requires le(a, x) && Precedes(le, a, s)
    ensures Precedes(le, a, Insert(le, x, s))
  {
    if s != [] && !le(x, s[0]) {
      InsertPreceded(le, a, x, s[1..]);
      var r := Insert(le, x, s);
      assert r == [s[0]] + Insert(le, x, s[1..]);
      forall i | 0 <= i < |r| ensures le(a, r[i]) {
        if i > 0 {
          assert r[i] == Insert(le, x, s[1..])[i - 1];
        }
      }
    }
  }

  /** Insertion keeps a sorted sequence sorted. */
  lemma {:induction false} InsertSorted<T(!new)>(le: (T, T) -> bool, x: T, s: seq<T>)
    requires TotalPreorder(le) && SortedBy(le, s)
    ensures SortedBy(le, Insert(le, x, s))
  {
    if s == [] || le(x, s[0]) {
      if s != [] {
        assert Precedes(le, x, s) by {
          forall i | 0 <= i < |s| ensures le(x, s[i]) {
            if i > 0 {
              assert le(s[0], s[i]);
            }
          }
        }
      }
      SortedCons(le, x, s);
    } else {
      InsertSorted(le, x, s[1..]);
      assert le(s[0], x);
      assert Precedes(le, s[0], s[1..]) by {
        forall i | 0 <= i < |s[1..]| ensures le(s[0], s[1..][i]) {
          assert s[1..][i] == s[i + 1];
        }
      }
      InsertPreceded(le, s[0], x, s[1..]);
      SortedCons(le, s[0], Insert(le, x, s[1..]));
    }
  }

  /** The stable sort of `s`. */
  function Sort<T>(le: (T, T) -> bool, s: seq<T>): (r: seq<T>)
    ensures |r| == |s|
    ensures multiset(r) == multiset(s)
  {
    if s == [] then []
    else
      assert s == [s[0]] + s[1..];
      Insert(le, s[0], Sort(le, s[1..]))
  }

  lemma {:induction false} SortSorted<T(!new)>(le: (T, T) -> bool, s: seq<T>)
    requires TotalPreorder(le)
    ensures SortedBy(le, Sort(le, s))
  {
    if s != [] {
      SortSorted(le, s[1..]);
      InsertSorted(le, s[0], Sort(le, s[1..]));
    }
  }

  /** The elements `le` ties with `x`: each may come before the other. */
  function Tied<T>(le: (T, T) -> bool, x: T): T -> bool
  {
    y => le(x, y) && le(y, x)
  }

  /** Inserting `y` passes over no element tied with it, so the tied elements keep
      the order they would have with `y` at the front. */
  lemma {:induction false} InsertStable<T(!new)>(le: (T, T) -> bool, x: T, y: T, s: seq<T>)
    requires TotalPreorder(le)
    ensures Filter(Tied(le, x), Insert(le, y, s)) == Filter(Tied(le, x), [y] + s)
  {
    if s != [] && !le(y, s[0]) {
      var tied := Tied(le, x);
      InsertStable(le, x, y, s[1..]);
      FilterCons(tied, s[0], Insert(le, y, s[1..]));
      FilterCons(tied, y, s[1..]);
      FilterCons(tied, y, s);
      FilterCons(tied, s[0], s[1..]);
      assert s == [s[0]] + s[1..];
      var h := s[0];
      assert tied(y) && tied(h) ==> le(y, x) && le(x, h);
    }
  }

  /** Stability: the elements tied with any `x` come out of the sort in the order they
      had in `s`. */
  lemma {:induction false} SortStable<T(!new)>(le: (T, T) -> bool, x: T, s: seq<T>)
    requires TotalPreorder(le)
    ensures Filter(Tied(le, x), Sort(le, s)) == Filter(Tied(le, x), s)
  {
    if s != [] {
      var tied := Tied(le, x);
      SortStable(le, x, s[1..]);
      InsertStable(le, x, s[0], Sort(le, s[1..]));
      FilterCons(tied, s[0], Sort(le, s[1..]));
      FilterCons(tied, s[0], s[1..]);
      assert s == [s[0]] + s[1..];
    }
  }
}

=== FILE: sourcerer.dfy ===
/**
 The Sourcerer package manager (`Sourcerer/main.py`): the parser of a package's
 `description.txt`, and the list of `user/repo` sources packages are fetched from.
 */
module Sourcerer {
  import opened Options
  import opened Text

  // ---------------------------------------------------------------------------
  // description.txt
  // ---------------------------------------------------------------------------

  /** The parsed description: one text value per section name, and the list of
      requirements. */
  datatype Meta = Meta(fields: map<string, string>, requirements: seq<string>)

  const Defaults: Meta :=
    Meta(map["description" := "No description available", "author" := "Unknown", "version" := "0.0"], [])

  /** The parser between lines: what has been read so far and the current section;
      the empty section name stands both for "no section yet" and for `[]`, since
      Python treats both as false. */
  datatype Parser = Parser(meta: Meta, section: string)

  const Start: Parser := Parser(Defaults, "")

  /** A stripped line of the form `[name]`. */
  predicate IsHeader(line: string)
  {
    |line| >= 1 && line[0] == '[' && line[|line| - 1] == ']'
  }

  /** The lowercased name between the brackets of a header. */
  function SectionName(line: string): (name: string)
    requires IsHeader(line)
    ensures |name| == |line| - 2
  {
    Lower(line[1..|line| - 1])
  }

  /** A line that carries a value: not blank, and not a header. */
  predicate IsContent(raw: string)
  {
    !AllIn(raw, Spaces) && !IsHeader(Strip(raw))
  }

  /** One line of the file. */
  function Feed(p: Parser, raw: string): (r: Parser)
    ensures AllIn(raw, Spaces) ==> r == p
    ensures IsHeader(Strip(raw)) ==> r == p.(section := SectionName(Strip(raw)))
    ensures IsContent(raw) && p.section == "" ==> r == p
    ensures IsContent(raw) && p.section == "requirements" ==>
      r == p.(meta := p.meta.(requirements := p.meta.requirements + [Strip(raw)]))
    ensures IsContent(raw) && p.section != "" && p.section != "requirements" ==>
      r == p.(meta := p.meta.(fields := p.meta.fields[p.section := Strip(raw)]))
  {
    var line := Strip(raw);
    if line == [] then p
    else if IsHeader(line) then p.(section := SectionName(line))
    else if p.section == "" then p
    else if p.section == "requirements" then
      p.(meta := p.meta.(requirements := p.meta.requirements + [line]))
    else
      p.(meta := p.meta.(fields := p.meta.fields[p.section := line]))
  }

  /** The lines of the file, in order. */
  function FeedAll(p: Parser, lines: seq<string>): Parser
    decreases |lines|
  {
    if lines == [] then p else FeedAll(Feed(p, lines[0]), lines[1..])
  }

  /** `parse_description_file`. */
  function ParseDescription(content: string): Meta
  {
    FeedAll(Start, SplitLines(content)).meta
  }

  /** The values the lines carry: each non-blank, non-header line, stripped. */
  function Contents(lines: seq<string>): (vs: seq<string>)
    ensures |vs| <= |lines|
    decreases |lines|
  {
    if lines == [] then []
    else if IsContent(lines[0]) then [Strip(lines[0])] + Contents(lines[1..])
    else Contents(lines[1..])
  }

  predicate NoHeaders(lines: seq<string>)
  {
    forall i :: 0 <= i < |lines| ==> !IsHeader(Strip(lines[i]))
  }

  lemma {:induction false} FeedAllAppend(p: Parser, a: seq<string>, b: seq<string>)
    ensures FeedAll(p, a + b) == FeedAll(FeedAll(p, a), b)
    decreases |a|
  {
    if a != [] {
      assert (a + b)[0] == a[0] && (a + b)[1..] == a[1..] + b;
      FeedAllAppend(Feed(p, a[0]), a[1..], b);
    } else {
      assert a + b == b;
    }
  }

  /** Blank lines change nothing: a file of blank lines gives the defaults. */
  lemma {:induction false} BlankLinesIgnored(p: Parser, lines: seq<string>)
    requires forall i :: 0 <= i < |lines| ==> AllIn(lines[i], Spaces)
    ensures FeedAll(p, lines) == p
    decreases |lines|
  {
    if lines != [] {
      BlankLinesIgnored(p, lines[1..]);
    }
  }

  /** A description with no line but blank ones, the empty description among them,
      gives the defaults. */
  lemma BlankDescription(content: string)
    requires forall k :: 0 <= k < |SplitLines(content)| ==> AllIn(SplitLines(content)[k], Spaces)
    ensures ParseDescription(content) == Defaults
  {
    BlankLinesIgnored(Start, SplitLines(content));
  }

  /** Lines before the first header are ignored. */
  lemma {:induction false} PreambleIgnored(pre: seq<string>, rest: seq<string>)
    requires NoHeaders(pre)
    ensures FeedAll(Start, pre + rest) == FeedAll(Start, rest)
  {
    FeedAllAppend(Start, pre, rest);
    NoSectionIgnores(Start, pre);
  }

  lemma {:induction false} NoSectionIgnores(p: Parser, lines: seq<string>)
    requires p.section == "" && NoHeaders(lines)
    ensures FeedAll(p, lines) == p
    decreases |lines|
  {
    if lines != [] {
      assert !IsHeader(Strip(lines[0]));
      NoSectionIgnores(p, lines[1..]);
    }
  }

  /** The value a line carries, if any. */
  function ValueOf(raw: string): seq<string>
  {
    if IsContent(raw) then [Strip(raw)] else []
  }

  lemma ContentsCons(lines: seq<string>)
    requires lines != []
    ensures Contents(lines) == ValueOf(lines[0]) + Contents(lines[1..])
  {
  }

  lemma RequirementsStep(p: Parser, raw: string)
    requires p.section == "requirements" && !IsHeader(Strip(raw))
    ensures Feed(p, raw).section == p.section && Feed(p, raw).meta.fields == p.meta.fields
    ensures Feed(p, raw).meta.requirements == p.meta.requirements + ValueOf(raw)
  {
  }

  /** The lines after the first of a header-free list are header-free. */
  lemma NoHeadersTail(lines: seq<string>)
    requires lines != [] && NoHeaders(lines)
    ensures !IsHeader(Strip(lines[0])) && NoHeaders(lines[1..])
  {
    forall i | 0 <= i < |lines[1..]| ensures !IsHeader(Strip(lines[1..][i])) {
      assert lines[1..][i] == lines[i + 1];
    }
  }

  /** Under `[requirements]`, header-free lines leave the section and the fields alone. */
  lemma {:induction false} RequirementsKeepFields(p: Parser, lines: seq<string>)
    requires p.section == "requirements" && NoHeaders(lines)
    ensures FeedAll(p, lines).meta.fields == p.meta.fields
    ensures FeedAll(p, lines).section == p.section
    decreases |lines|
  {
    if lines != [] {
      NoHeadersTail(lines);
      RequirementsStep(p, lines[0]);
      RequirementsKeepFields(Feed(p, lines[0]), lines[1..]);
    }
  }

  /** Under `[requirements]`, every value is appended, in order. */
  lemma {:induction false} RequirementsAccumulate(p: Parser, lines: seq<string>)
    requires p.section == "requirements" && NoHeaders(lines)
    ensures FeedAll(p, lines).meta.requirements == p.meta.requirements + Contents(lines)
    decreases |lines|
  {
    if lines != [] {
      NoHeadersTail(lines);
      RequirementsStep(p, lines[0]);
      RequirementsAccumulate(Feed(p, lines[0]), lines[1..]);
      ContentsCons(lines);
      var v, rest := ValueOf(lines[0]), Contents(lines[1..]);
      assert p.meta.requirements + (v + rest) == (p.meta.requirements + v) + rest;
    }
  }

  function Last(vs: seq<string>): string
    requires vs != []
  {
    vs[|vs| - 1]
  }

  /** One header-free line under a named section other than `[requirements]`. */
  lemma FieldStep(p: Parser, raw: string)
    requires p.section != "" && p.section != "requirements" && !IsHeader(Strip(raw))
    ensures Feed(p, raw) == if IsContent(raw) then p.(meta := p.meta.(fields := p.meta.fields[p.section := Strip(raw)])) else p
  {
  }

  /** Under any other named section, the last value wins and nothing else changes. */
  lemma {:induction false} LastValueWins(p: Parser, lines: seq<string>)
    requires p.section != "" && p.section != "requirements" && NoHeaders(lines)
    ensures Contents(lines) == [] ==> FeedAll(p, lines) == p
    ensures Contents(lines) != [] ==>
      FeedAll(p, lines) == p.(meta := p.meta.(fields := p.meta.fields[p.section := Last(Contents(lines))]))
    decreases |lines|
  {
    if lines != [] {
      NoHeadersTail(lines);
      FieldStep(p, lines[0]);
      LastValueWins(Feed(p, lines[0]), lines[1..]);
      ContentsCons(lines);
    }
  }

  /** A header line switches to its lowercased section, whatever came before. */
  lemma HeaderSwitches(p: Parser, name: string)
    requires forall k :: 0 <= k < |name| ==> !IsSpace(name[k])
    ensures Feed(p, "[" + name + "]").section == Lower(name)
  {
    var line := "[" + name + "]";
    assert NoneIn(line, Spaces) by {
      forall k | 0 <= k < |line| ensures !IsSpace(line[k]) {
        if 0 < k < |line| - 1 {
          assert line[k] == name[k - 1];
        }
      }
    }
    assert line[1..|line| - 1] == name;
  }

  // ---------------------------------------------------------------------------
  // The source list
  // ---------------------------------------------------------------------------

  /** A character of `[\w\-]`, with `\w` taken over ASCII. */
  predicate NameChar(c: char)
  {
    IsAsciiLetter(c) || IsDigit(c) || c == '_' || c == '-'
  }

  /** A match of `[\w\-]+`. */
  predicate IsName(s: string)
  {
    |s| >= 1 && forall k :: 0 <= k < |s| ==> NameChar(s[k])
  }

  /** The user and repository a source names, when it matches `^[\w\-]+/[\w\-]+$`. */
  function SourceParts(s: string): (r: Option<(string, string)>)
    ensures r.Some? ==> IsName(r.value.0) && IsName(r.value.1)
    ensures r.Some? ==> Chomp(s) == r.value.0 + "/" + r.value.1
  {
    var t := Chomp(s);
    var i := IndexIn(t, Just('/'));
    if i < |t| && IsName(t[..i]) && IsName(t[i + 1..]) then
      assert t == t[..i] + "/" + t[i + 1..];
      Some((t[..i], t[i + 1..]))
    else None
  }

  predicate ValidSource(s: string)
  {
    SourceParts(s).Some?
  }

  /** A `user/repo` of name characters ends in a name character, so `$` has no
      newline to skip, and the slash is the first one. */
  lemma JoinedSource(user: string, repo: string)
    requires IsName(user) && IsName(repo)
    ensures var t := user + "/" + repo;
            && Chomp(t) == t && Chomp(t + "\n") == t
            && IndexIn(t, Just('/')) == |user| && t[..|user|] == user && t[|user| + 1..] == repo
  {
    var t := user + "/" + repo;
    assert t[|t| - 1] == repo[|repo| - 1];
    assert (t + "\n")[..|t|] == t;
    IndexInIsFirst(t, Just('/'), |user|);
    assert t[..|user|] == user && t[|user| + 1..] == repo;
  }

  /** Every `user/repo` made of name characters is accepted, with or without a final
      newline, and gives back its two parts. */
  lemma SourcePartsOfJoin(user: string, repo: string)
    requires IsName(user) && IsName(repo)
    ensures SourceParts(user + "/" + repo) == Some((user, repo))
    ensures SourceParts(user + "/" + repo + "\n") == Some((user, repo))
  {
    JoinedSource(user, repo);
  }

  predicate NoDuplicates(xs: seq<string>)
  {
    forall i, j :: 0 <= i < j < |xs| ==> xs[i] != xs[j]
  }

  /** `add_source`: a valid source not yet listed goes at the end; anything else
      leaves the list as it was. */
  function AddSource(sources: seq<string>, s: string): (r: seq<string>)
    ensures !ValidSource(s) || s in sources ==> r == sources
    ensures |sources| <= |r| <= |sources| + 1 && r[..|sources|] == sources
    ensures ValidSource(s) ==> s in r
    ensures NoDuplicates(sources) ==> NoDuplicates(r)
  {
    if ValidSource(s) && s !in sources then sources + [s] else sources
  }

  /** `list.remove`: drop the first occurrence, if any. */
  function RemoveSource(sources: seq<string>, s: string): (r: seq<string>)
    ensures s !in sources ==> r == sources
    ensures multiset(r) == multiset(sources) - multiset{s}
    decreases |sources|
  {
    if sources == [] then []
    else
      assert sources == [sources[0]] + sources[1..];
      if sources[0] == s then sources[1..]
      else [sources[0]] + RemoveSource(sources[1..], s)
  }

  /** The list without any occurrence of `s`, in the original order. */
  function Without(xs: seq<string>, s: string): (r: seq<string>)
    ensures s !in r
    decreases |xs|
  {
    if xs == [] then []
    else if xs[0] == s then Without(xs[1..], s)
    else [xs[0]] + Without(xs[1..], s)
  }

  /** On a list without duplicates, removal leaves exactly the other sources, in
      their original order. */
  lemma {:induction false} RemoveSourceKeepsOthers(sources: seq<string>, s: string)
    requires NoDuplicates(sources)
    ensures RemoveSource(sources, s) == Without(sources, s)
    decreases |sources|
  {
    if sources != [] {
      if sources[0] == s {
        assert s !in sources[1..] by {
          forall k | 0 <= k < |sources[1..]| ensures sources[1..][k] != s {
            assert sources[1..][k] == sources[k + 1];
          }
        }
        WithoutAbsent(sources[1..], s);
      } else {
        RemoveSourceKeepsOthers(sources[1..], s);
      }
    }
  }

  lemma {:induction false} WithoutAbsent(xs: seq<string>, s: string)
    requires s !in xs
    ensures Without(xs, s) == xs
    decreases |xs|
  {
    if xs != [] {
      assert xs == [xs[0]] + xs[1..];
      WithoutAbsent(xs[1..], s);
    }
  }
}

=== FILE: strorder.dfy ===
/**
 Python's ordering of strings: lexicographic by code point, a proper prefix first.
 It is a total order, so `sorted` over strings is fully determined.
 */
module StrOrder {
  import opened Sorting

  /** `a <= b` on Python strings. */
  predicate StrLe(a: string, b: string)
    decreases |a|
  {
    if a == [] then true
    else if b == [] then false
    else if a[0] != b[0] then a[0] < b[0]
    else StrLe(a[1..], b[1..])
  }

  /** `a >= b`, the order of `sorted(..., reverse=True)`. */
  predicate StrGe(a: string, b: string)
  {
    StrLe(b, a)
  }

  lemma {:induction false} StrLeTotal(a: string, b: string)
    ensures StrLe(a, b) || StrLe(b, a)
    decreases |a|
  {
    if a != [] && b != [] && a[0] == b[0] {
      StrLeTotal(a[1..], b[1..]);
    }
  }

  lemma {:induction false} StrLeTrans(a: string, b: string, c: string)
    requires StrLe(a, b) && StrLe(b, c)
    ensures StrLe(a, c)
    decreases |a|
  {
    if a != [] && b != [] && c != [] && a[0] == b[0] && b[0] == c[0] {
      StrLeTrans(a[1..], b[1..], c[1..]);
    }
  }

  lemma {:induction false} StrLeAntisymmetric(a: string, b: string)
    requires StrLe(a, b) && StrLe(b, a)
    ensures a == b
    decreases |a|
  {
    if a != [] {
      StrLeAntisymmetric(a[1..], b[1..]);
      assert a == [a[0]] + a[1..] && b == [b[0]] + b[1..];
    }
  }

  lemma StrLeIsTotalPreorder()
    ensures TotalPreorder(StrLe)
  {
    forall a, b ensures StrLe(a, b) || StrLe(b, a) {
      StrLeTotal(a, b);
    }
    forall a, b, c | StrLe(a, b) && StrLe(b, c) ensures StrLe(a, c) {
      StrLeTrans(a, b, c);
    }
  }

  lemma StrGeIsTotalPreorder()
    ensures TotalPreorder(StrGe)
  {
    forall a, b ensures StrGe(a, b) || StrGe(b, a) {
      StrLeTotal(a, b);
    }
    forall a, b, c | StrGe(a, b) && StrGe(b, c) ensures StrGe(a, c) {
      StrLeTrans(c, b, a);
    }
  }
}

=== FILE: sucker.dfy ===
/**
 The downloader (`Sucker/main.py`): the name a downloaded file is saved under,
 taken from the URL the user typed. The download itself and the folder it goes to
 are outside the model.
 */
module Sucker {
  import opened Options
  import opened Text

  /** The name used when the URL gives none. */
  const Fallback: string := "downloaded.file"

  /** A piece that ends the string and starts it or follows the separator. */
  predicate EndPiece(s: string, p: string, c: char)
  {
    |p| <= |s| && p == s[|s| - |p|..] && (|p| == |s| || s[|s| - |p| - 1] == c)
  }

  /** The last piece of a split. */
  function LastPiece(s: string, c: char): string
  {
    var parts := Split(s, c);
    parts[|parts| - 1]
  }

  /** The last of a sequence with one more element in front. */
  lemma LastOfCons(x: string, rest: seq<string>)
    requires rest != []
    ensures var xs := [x] + rest; xs[|xs| - 1] == rest[|rest| - 1]
  {
  }

  /** Past the first separator, the split goes on with the rest of the string. */
  lemma LastAfterFirst(a: string, rest: string, c: char)
    requires c !in a
    ensures LastPiece(a + [c] + rest, c) == LastPiece(rest, c)
  {
    SplitFirst(a, rest, c);
    LastOfCons(a, Split(rest, c));
  }

  /** A piece ending the text after a separator also ends the whole string. */
  lemma EndPieceAfter(s: string, k: nat, p: string, c: char)
    requires k < |s| && s[k] == c && EndPiece(s[k + 1..], p, c)
    ensures EndPiece(s, p, c)
  {
    var t := s[k + 1..];
    assert s[|s| - |p|..] == t[|t| - |p|..];
    if |p| < |t| {
      assert s[|s| - |p| - 1] == t[|t| - |p| - 1];
    }
  }

  /** The last piece of a split is the longest suffix without the separator. */
  lemma {:induction false} SplitLast(s: string, c: char)
    ensures EndPiece(s, LastPiece(s, c), c)
    decreases |s|
  {
    var i := IndexIn(s, Just(c));
    if i < |s| {
      var a, rest := s[..i], s[i + 1..];
      assert s == a + [c] + rest;
      assert c !in a by {
        forall k | 0 <= k < i ensures a[k] != c {
          assert !Just(c).Has(s[k]);
        }
      }
      SplitLast(rest, c);
      LastAfterFirst(a, rest, c);
      EndPieceAfter(s, i, LastPiece(rest, c), c);
    }
  }

  /** `url.rstrip("/").split("/")[-1] or "downloaded.file"`: the text after the
      last slash once trailing slashes are dropped, or the fallback when that is
      empty. */
  function FileName(url: string): (name: string)
    ensures name != [] && '/' !in name
  {
    var last := LastPiece(TrimRight(url, Just('/')), '/');
    assert '/' !in Fallback;
    if last == [] then Fallback else last
  }

  /** The fallback is used exactly when the URL is made only of slashes, which is
      when the last piece of the URL without its trailing slashes is empty. Otherwise
      the name is that piece: the text after the last slash of the URL without its
      trailing slashes, a suffix of it preceded by a slash or by nothing. */
  lemma FileNameIsLastSegment(url: string)
    ensures var last := LastPiece(TrimRight(url, Just('/')), '/');
            last == [] <==> AllIn(url, Just('/'))
    ensures AllIn(url, Just('/')) ==> FileName(url) == Fallback
    ensures !AllIn(url, Just('/')) ==>
              && FileName(url) == LastPiece(TrimRight(url, Just('/')), '/')
              && EndPiece(TrimRight(url, Just('/')), FileName(url), '/')
  {
    var t := TrimRight(url, Just('/'));
    SplitLast(t, '/');
    if t == [] {
      SplitWhole(t, '/');
      assert AllIn(url, Just('/')) by {
        forall k | 0 <= k < |url| ensures Just('/').Has(url[k]) {
        }
      }
    } else {
      assert t[|t| - 1] == url[|t| - 1] && t[|t| - 1] != '/';
      assert !AllIn(url, Just('/'));
    }
  }

  /** What `main` saves to: nothing when the typed URL is blank, otherwise the name
      derived from the stripped URL. */
  function Destination(typed: string): (name: Option<string>)
    ensures name.None? <==> Strip(typed) == []
    ensures name.Some? ==> name.value == FileName(Strip(typed))
  {
    var url := Strip(typed);
    if url == [] then None else Some(FileName(url))
  }

  /** Trailing slashes do not count: `a/b/` names the file `b`. */
  lemma TrailingSlashIgnored(url: string)
    ensures FileName(url + "/") == FileName(url)
  {
    var u := url + "/";
    assert u[..|u| - 1] == url;
  }

  /** A file in a directory is named after itself. */
  lemma LastSegment(dir: string, file: string)
    requires file != [] && '/' !in file
    ensures FileName(dir + "/" + file) == file
  {
    var u := dir + "/" + file;
    assert TrimRight(u, Just('/')) == u;
    SplitFirstSlash(dir, file);
  }

  /** Splitting at the last separator: the final piece is what follows it. */
  lemma SplitFirstSlash(dir: string, file: string)
    requires '/' !in file
    ensures LastPiece(dir + "/" + file, '/') == file
  {
    var u := dir + "/" + file;
    SplitLast(u, '/');
    assert u[|u| - |file|..] == file;
    SameSegment(u, LastPiece(u, '/'), file);
  }

  /** Two slash-free suffixes that each start the string or follow a slash are the
      same suffix. */
  lemma SameSegment(u: string, p: string, q: string)
    requires EndPiece(u, p, '/') && '/' !in p
    requires EndPiece(u, q, '/') && '/' !in q
    ensures p == q
  {
    if |p| < |q| {
      SlashInside(u, p, q);
      assert false;
    } else if |q| < |p| {
      SlashInside(u, q, p);
      assert false;
    }
  }

  /** A longer suffix takes in the slash before a shorter one. */
  lemma SlashInside(u: string, p: string, q: string)
    requires |p| < |q| <= |u| && q == u[|u| - |q|..] && u[|u| - |p| - 1] == '/'
    ensures '/' in q
  {
    assert q[|q| - |p| - 1] == u[|u| - |p| - 1];
  }

  /** A URL without slashes is the name itself, and one made only of slashes gets
      the fallback. */
  lemma NoSlashOrOnlySlashes(url: string)
    ensures url != [] && '/' !in url ==> FileName(url) == url
    ensures AllIn(url, Just('/')) ==> FileName(url) == Fallback
  {
    var t := TrimRight(url, Just('/'));
    if url != [] && '/' !in url {
      assert t == url;
      SplitWhole(url, '/');
    }
    if AllIn(url, Just('/')) {
      assert t == [];
    }
  }
}

=== FILE: sysinfo.dfy ===
/**
 The system report (`sigma/sysinfo.py`): the uptime line, the macOS release name,
 and the GPU names taken from `lspci` and `system_profiler` output. The commands'
 output, the clock and `platform.mac_ver()` are parameters; every other field of
 the report is a value read from the operating system and is outside the model.
 */
module SysInfo {
  import opened Options
  import opened Text
  import opened Lists
  import opened Arith

  // ---------------------------------------------------------------------------
  // Uptime
  // ---------------------------------------------------------------------------

  /** The seconds in a day: `timedelta.seconds` is always below this. */
  const DaySeconds: nat := 86400

  datatype Clock = Clock(hours: nat, minutes: nat, seconds: nat)

  /** The two `divmod` steps: hours, then minutes and seconds of the remainder. */
  function ClockOf(secs: nat): (c: Clock)
    requires secs < DaySeconds
    ensures c.hours * 3600 + c.minutes * 60 + c.seconds == secs
    ensures c.hours < 24 && c.minutes < 60 && c.seconds < 60
  {
    var rest := secs % 3600;
    Clock(secs / 3600, rest / 60, rest % 60)
  }

  /** A clock reading within the day is the only one for its second count. */
  lemma ClockUnique(secs: nat, c: Clock)
    requires secs < DaySeconds
    requires c.minutes < 60 && c.seconds < 60
    requires c.hours * 3600 + c.minutes * 60 + c.seconds == secs
    ensures ClockOf(secs) == c
  {
    DivUnique(secs, 3600, c.hours, c.minutes * 60 + c.seconds);
    DivUnique(secs % 3600, 60, c.minutes, c.seconds);
  }

  /** `f"{hours:02}:{minutes:02}:{seconds:02}"`. */
  function ClockText(c: Clock): string
  {
    Pad2(c.hours) + ":" + Pad2(c.minutes) + ":" + Pad2(c.seconds)
  }

  /** The uptime line: "N days, " only when the uptime is at least a day, then the
      time of day on a 24-hour clock with every field zero-padded to two digits. */
  function UptimeText(days: int, secs: nat): (t: string)
    requires secs < DaySeconds
    ensures days > 0 <==> |t| > 8
    ensures days > 0 ==> t[..|t| - 8] == NatToString(days) + " days, "
    ensures |t| >= 8 && t[|t| - 8..] == ClockText(ClockOf(secs))
  {
    var c := ClockOf(secs);
    TwoDigits(c.hours);
    TwoDigits(c.minutes);
    TwoDigits(c.seconds);
    var clock := ClockText(c);
    if days > 0 then
      var t := NatToString(days) + " days, " + clock;
      assert t[|t| - 8..] == clock;
      t
    else clock
  }

  /** A number below 100, padded, is two digits that read back as it. */
  lemma TwoDigits(n: nat)
    requires n < 100
    ensures |Pad2(n)| == 2 && AllDigits(Pad2(n)) && DigitsValue(Pad2(n)) == n
  {
    var s := NatToString(n);
    DigitsValueOfNat(n);
    if n >= 10 {
      assert s == NatToString(n / 10) + [DigitChar(n % 10)];
    } else {
      assert Pad2(n)[..1] == "0";
    }
  }

  /** The clock field of the uptime line reads back as the seconds it was made
      from: three two-digit fields, separated by colons, worth hours, minutes and
      seconds. */
  lemma UptimeReadsBack(days: int, secs: nat)
    requires secs < DaySeconds
    ensures var t := UptimeText(days, secs);
            var f := t[|t| - 8..];
            && f[2] == ':' && f[5] == ':'
            && AllDigits(f[..2]) && AllDigits(f[3..5]) && AllDigits(f[6..])
            && DigitsValue(f[..2]) * 3600 + DigitsValue(f[3..5]) * 60 + DigitsValue(f[6..]) == secs
  {
    var c := ClockOf(secs);
    TwoDigits(c.hours);
    TwoDigits(c.minutes);
    TwoDigits(c.seconds);
    var f := ClockText(c);
    assert f[..2] == Pad2(c.hours);
    assert f[3..5] == Pad2(c.minutes);
    assert f[6..] == Pad2(c.seconds);
  }

  // ---------------------------------------------------------------------------
  // The macOS release name
  // ---------------------------------------------------------------------------

  /** The release names the script knows, by major or major.minor version. */
  const MacNames: map<string, string> :=
    map["10.15" := "Catalina", "11" := "Big Sur", "12" := "Monterey", "13" := "Ventura", "14" := "Sonoma"]

  /** The name for a version string: its major version looked up first, then its
      first two fields joined by ".", and "Unknown" when neither is known. */
  function MacName(version: string): (name: string)
    ensures name == "Unknown" || name in MacNames.Values
    ensures Split(version, '.')[0] in MacNames ==> name == MacNames[Split(version, '.')[0]]
  {
    var parts := Split(version, '.');
    var majorMinor := Join(parts[..if |parts| < 2 then |parts| else 2], ".");
    if parts[0] in MacNames then MacNames[parts[0]]
    else if majorMinor in MacNames then MacNames[majorMinor]
    else "Unknown"
  }

  /** Any version whose major field is a known major version gets that name,
      whatever follows it. */
  lemma MajorDecides(major: string, rest: string)
    requires major in MacNames && '.' !in major
    ensures MacName(major) == MacNames[major]
    ensures MacName(major + "." + rest) == MacNames[major]
  {
    SplitWhole(major, '.');
    SplitFirst(major, rest, '.');
  }

  /** `".".join` of two fields. */
  lemma JoinTwo(a: string, b: string)
    ensures Join([a, b], ".") == a + "." + b
  {
    assert [a, b][1..] == [b];
  }

  /** A version whose major field is not a known major version is named by its
      first two fields, or unknown. */
  lemma MajorMinorDecides(major: string, minor: string, rest: string)
    requires '.' !in major && '.' !in minor && major !in MacNames
    ensures MacName(major + "." + minor + "." + rest)
         == if major + "." + minor in MacNames then MacNames[major + "." + minor] else "Unknown"
  {
    var tail := minor + "." + rest;
    assert major + "." + minor + "." + rest == major + ['.'] + tail;
    SplitFirst(major, tail, '.');
    SplitFirst(minor, rest, '.');
    var parts := Split(major + ['.'] + tail, '.');
    assert parts == [major, minor] + Split(rest, '.');
    assert parts[..2] == [major, minor];
    JoinTwo(major, minor);
  }

  /** A version of exactly two fields whose major field is not a known major
      version is named by both fields together, or unknown; a single unknown field
      is unknown. */
  lemma MajorMinorOnly(major: string, minor: string)
    requires '.' !in major && '.' !in minor && major !in MacNames
    ensures MacName(major + "." + minor)
         == if major + "." + minor in MacNames then MacNames[major + "." + minor] else "Unknown"
    ensures MacName(major) == "Unknown"
  {
    assert major + "." + minor == major + ['.'] + minor;
    SplitFirst(major, minor, '.');
    SplitWhole(minor, '.');
    var parts := Split(major + ['.'] + minor, '.');
    assert parts == [major, minor];
    assert parts[..2] == [major, minor];
    JoinTwo(major, minor);
    SplitWhole(major, '.');
    assert [major][..1] == [major];
    assert Join([major], ".") == major;
  }

  /** "10.15" is Catalina, by its two fields together. */
  lemma CatalinaTwoFields()
    ensures MacName("10.15") == "Catalina"
  {
    TenEntries();
    MajorMinorOnly("10", "15");
    assert "10" + "." + "15" == "10.15";
  }

  /** "11.0" is Big Sur, by its major version alone. */
  lemma BigSurExample()
    ensures MacName("11.0") == "Big Sur"
  {
    MajorDecides("11", "0");
    assert "11" + "." + "0" == "11.0";
  }

  /** 10 is no major version of its own, 10.14 is not known either, 10.15 is Catalina. */
  lemma TenEntries()
    ensures "10" !in MacNames && "10.14" !in MacNames
    ensures "10.15" in MacNames && MacNames["10.15"] == "Catalina"
  {
    assert "10.14" != "10.15" by {
      assert "10.14"[4] != "10.15"[4];
    }
  }

  /** The fields of "10.15.7". */
  lemma CatalinaFields()
    ensures "10.15.7" == "10" + "." + "15" + "." + "7"
    ensures "10" + "." + "15" == "10.15"
  {
  }

  /** The fields of "10.14.6". */
  lemma UnknownFields()
    ensures "10.14.6" == "10" + "." + "14" + "." + "6"
    ensures "10" + "." + "14" == "10.14"
  {
  }

  /** "10.15.7" is Catalina: 10 is no major version of its own, 10.15 is. */
  lemma CatalinaExample()
    ensures MacName("10.15.7") == "Catalina"
  {
    TenEntries();
    CatalinaFields();
    MajorMinorDecides("10", "15", "7");
  }

  /** "10.14.6" is unknown: neither 10 nor 10.14 is in the table. */
  lemma UnknownExample()
    ensures MacName("10.14.6") == "Unknown"
  {
    TenEntries();
    UnknownFields();
    MajorMinorDecides("10", "14", "6");
  }

  /** "14.2" is Sonoma, by its major version alone. */
  lemma SonomaExample()
    ensures MacName("14.2") == "Sonoma"
  {
    MajorDecides("14", "2");
    assert "14.2" == "14" + "." + "2";
  }

  // ---------------------------------------------------------------------------
  // GPU names
  // ---------------------------------------------------------------------------

  /** How many colons a string holds. */
  function Colons(s: string): nat
  {
    multiset(s)[':']
  }

  lemma ColonsConcat(a: string, b: string)
    ensures Colons(a + b) == Colons(a) + Colons(b)
  {
    assert multiset(a + b) == multiset(a) + multiset(b);
  }

  lemma ColonsNone(a: string)
    requires ':' !in a
    ensures Colons(a) == 0
  {
  }

  /** The colons of a string: its first character's, then the rest's. */
  lemma ColonsHead(s: string)
    requires s != []
    ensures Colons(s) == (if s[0] == ':' then 1 else 0) + Colons(s[1..])
  {
    assert s == [s[0]] + s[1..];
    ColonsConcat([s[0]], s[1..]);
  }

  /** The cut at a leading colon, when one colon is wanted or there is no other. */
  lemma CutAtHead(s: string, n: nat)
    requires s != [] && s[0] == ':' && n >= 1
    requires n == 1 || ':' !in s[1..]
    ensures Colons(s[..1]) == if Colons(s) < n then Colons(s) else n
  {
    ColonsHead(s);
    ColonsHead(s[..1]);
    assert s[..1][1..] == [];
    if n != 1 {
      ColonsNone(s[1..]);
    }
  }

  /** A cut in the text after the first character, moved back to the whole string;
      `m` colons are wanted there, one fewer when that character is a colon. */
  lemma CutAfterHead(s: string, n: nat, m: nat, j: nat)
    requires s != [] && n >= 1 && m == if s[0] == ':' then n - 1 else n
    requires 0 < j < |s| && s[1..][j - 1] == ':'
    requires Colons(s[1..][..j]) == if Colons(s[1..]) < m then Colons(s[1..]) else m
    ensures s[j] == ':'
    ensures Colons(s[..1 + j]) == if Colons(s) < n then Colons(s) else n
  {
    ColonsHead(s);
    var p := s[..1 + j];
    ColonsHead(p);
    assert p[1..] == s[1..][..j];
  }

  /** Where the text after the `n`-th colon starts, or after the last colon when
      there are fewer: the part `line.split(":", n)[-1]` keeps. */
  function ColonCut(s: string, n: nat): (j: nat)
    requires n >= 1 && ':' in s
    ensures 0 < j <= |s| && s[j - 1] == ':'
    ensures Colons(s[..j]) == if Colons(s) < n then Colons(s) else n
    decreases |s|
  {
    var rest := s[1..];
    if s[0] == ':' && (n == 1 || ':' !in rest) then
      CutAtHead(s, n);
      1
    else
      assert s == [s[0]] + rest;
      var m := if s[0] == ':' then n - 1 else n;
      var j := ColonCut(rest, m);
      CutAfterHead(s, n, m, j);
      1 + j
  }

  /** The cut is the only place with its property: a colon ending a prefix holding
      exactly the number of colons the cut's prefix holds. */
  lemma ColonCutUnique(s: string, n: nat, j: nat)
    requires n >= 1 && ':' in s
    requires 0 < j <= |s| && s[j - 1] == ':'
    requires Colons(s[..j]) == if Colons(s) < n then Colons(s) else n
    ensures ColonCut(s, n) == j
  {
    var c := ColonCut(s, n);
    if c < j {
      PrefixAddsColon(s, c, j);
    } else if j < c {
      PrefixAddsColon(s, j, c);
    }
  }

  /** A longer prefix ending in a colon holds more colons. */
  lemma PrefixAddsColon(s: string, i: nat, j: nat)
    requires i < j <= |s| && s[j - 1] == ':'
    ensures Colons(s[..j]) > Colons(s[..i])
  {
    assert s[..j] == s[..i] + s[i..j];
    ColonsConcat(s[..i], s[i..j]);
    assert s[i..j] == s[i..j - 1] + [':'];
    ColonsConcat(s[i..j - 1], [':']);
  }

  predicate HasColon(line: string)
  {
    ':' in line
  }

  /** The name on one line that holds a colon: the stripped text after the second
      colon for `lspci`, after the first for `system_profiler`. */
  function GpuField(line: string, fromLspci: bool): string
    requires HasColon(line)
  {
    Strip(line[ColonCut(line, if fromLspci then 2 else 1)..])
  }

  /** The name on each of some lines that all hold a colon. */
  function FieldsOf(lines: seq<string>, fromLspci: bool): (names: seq<string>)
    requires forall k :: 0 <= k < |lines| ==> HasColon(lines[k])
    ensures |names| == |lines|
    ensures forall k :: 0 <= k < |names| ==> names[k] == GpuField(lines[k], fromLspci)
    decreases |lines|
  {
    if lines == [] then [] else [GpuField(lines[0], fromLspci)] + FieldsOf(lines[1..], fromLspci)
  }

  /** The names on the lines that hold a colon, in order; the other lines are
      skipped. */
  function GpuFields(lines: seq<string>, fromLspci: bool): (names: seq<string>)
    ensures |names| == |Filter(HasColon, lines)| <= |lines|
    ensures forall k :: 0 <= k < |names| ==> names[k] == GpuField(Filter(HasColon, lines)[k], fromLspci)
  {
    FieldsOf(Filter(HasColon, lines), fromLspci)
  }

  /** The GPU line of the report from a command's output: the names joined by ", ",
      or nothing when no line holds a colon. */
  function GpuInfo(output: string, fromLspci: bool): (info: Option<string>)
    ensures info.None? <==> Filter(HasColon, Split(Strip(output), '\n')) == []
    ensures info.Some? ==> info.value == Join(GpuFields(Split(Strip(output), '\n'), fromLspci), ", ")
  {
    var names := GpuFields(Split(Strip(output), '\n'), fromLspci);
    if names == [] then None else Some(Join(names, ", "))
  }

  /** An `lspci` line with two or more colons gives the stripped text after the
      second, whatever colons follow it. */
  lemma LspciAfterSecond(a: string, b: string, rest: string)
    requires ':' !in a && ':' !in b
    ensures GpuField(a + ":" + b + ":" + rest, true) == Strip(rest)
  {
    var s := a + ":" + b + ":" + rest;
    var j := |a| + |b| + 2;
    assert s[..j] == a + [':'] + b + [':'];
    assert s[j..] == rest;
    ColonsConcat(a + [':'] + b, [':']);
    ColonsConcat(a + [':'], b);
    ColonsConcat(a, [':']);
    ColonsConcat(s[..j], rest);
    assert s == s[..j] + rest;
    ColonCutUnique(s, 2, j);
  }

  /** An `lspci` line with a single colon, and a `system_profiler` line, give the
      stripped text after the first colon. */
  lemma AfterFirstColon(a: string, rest: string, fromLspci: bool)
    requires ':' !in a
    requires fromLspci ==> ':' !in rest
    ensures GpuField(a + ":" + rest, fromLspci) == Strip(rest)
  {
    var s := a + ":" + rest;
    var j := |a| + 1;
    assert s[..j] == a + [':'];
    assert s[j..] == rest;
    ColonsConcat(a, [':']);
    ColonsConcat(s[..j], rest);
    assert s == s[..j] + rest;
    if fromLspci {
      ColonCutUnique(s, 2, j);
    } else {
      ColonCutUnique(s, 1, j);
    }
  }
}

=== FILE: text.dfy ===
/**
 The Python `str` operations the scripts rely on, over strings as `seq<char>`:
 whitespace stripping, case folding, substring search, `split`, `join`,
 `splitlines` and decimal conversion.
 */
module Text {
  import opened Options

  /** Python's `str.isspace()` on one character. */
  predicate IsSpace(c: char)
  {
    || c == ' '
    || '\t' <= c <= '\r'
    || '\U{1C}' <= c <= '\U{1F}'
    || c == '\U{85}' || c == '\U{A0}' || c == '\U{1680}'
    || '\U{2000}' <= c <= '\U{200A}'
    || c == '\U{2028}' || c == '\U{2029}' || c == '\U{202F}' || c == '\U{205F}' || c == '\U{3000}'
  }

  /** The characters at which Python's `str.splitlines()` ends a line. */
  predicate IsLineBreak(c: char)
  {
    || '\n' <= c <= '\r'
    || '\U{1C}' <= c <= '\U{1E}'
    || c == '\U{85}' || c == '\U{2028}' || c == '\U{2029}'
  }

  /** The sets of characters the scripts strip or split on. */
  datatype CharClass = Spaces | LineEnds | Just(c: char) {
    predicate Has(x: char)
    {
      match this
      case Spaces => IsSpace(x)
      case LineEnds => IsLineBreak(x)
      case Just(c) => x == c
    }
  }

  predicate NoneIn(s: string, cs: CharClass)
  {
    forall k :: 0 <= k < |s| ==> !cs.Has(s[k])
  }

  predicate AllIn(s: string, cs: CharClass)
  {
    forall k :: 0 <= k < |s| ==> cs.Has(s[k])
  }

  // ---------------------------------------------------------------------------
  // Stripping: `s.lstrip(cs)`, `s.rstrip(cs)`, `s.strip(cs)`
  // ---------------------------------------------------------------------------

  /** `s.lstrip(cs)`: the suffix left after dropping leading characters of `cs`. */
  function TrimLeft(s: string, cs: CharClass): (r: string)
    ensures |r| <= |s| && r == s[|s| - |r|..]
    ensures forall k :: 0 <= k < |s| - |r| ==> cs.Has(s[k])
    ensures r == [] || !cs.Has(r[0])
  {
    if |s| > 0 && cs.Has(s[0]) then TrimLeft(s[1..], cs) else s
  }

  /** `s.rstrip(cs)`: the prefix left after dropping trailing characters of `cs`. */
  function TrimRight(s: string, cs: CharClass): (r: string)
    ensures |r| <= |s| && r == s[..|r|]
    ensures forall k :: |r| <= k < |s| ==> cs.Has(s[k])
    ensures r == [] || !cs.Has(r[|r| - 1])
  {
    if |s| > 0 && cs.Has(s[|s| - 1]) then TrimRight(s[..|s| - 1], cs) else s
  }

  /** `s.strip(cs)`: a contiguous piece of `s` that neither starts nor ends in `cs`,
      empty exactly when every character of `s` is in `cs`. */
  function StripChars(s: string, cs: CharClass): (r: string)
    ensures |r| <= |s|
    ensures r == [] || (!cs.Has(r[0]) && !cs.Has(r[|r| - 1]))
    ensures r == [] <==> AllIn(s, cs)
    ensures NoneIn(s, cs) ==> r == s
  {
    var t := TrimLeft(s, cs);
    var r := TrimRight(t, cs);
    assert AllIn(s, cs) ==> AllIn(t, cs);
    r
  }

  /** `s.strip()`: strip Python whitespace from both ends. */
  function Strip(s: string): (r: string)
    ensures |r| <= |s|
    ensures r == [] || (!IsSpace(r[0]) && !IsSpace(r[|r| - 1]))
    ensures r == [] <==> AllIn(s, Spaces)
    ensures NoneIn(s, Spaces) ==> r == s
  {
    StripChars(s, Spaces)
  }

  // ---------------------------------------------------------------------------
  // Case folding and searching
  // ---------------------------------------------------------------------------

  function LowerChar(c: char): char
  {
    if 'A' <= c <= 'Z' then (c as int + 32) as char else c
  }

  /** `s.lower()` on the ASCII letters. */
  function Lower(s: string): (r: string)
    ensures |r| == |s|
    ensures forall k :: 0 <= k < |s| ==> r[k] == LowerChar(s[k])
  {
    seq(|s|, k requires 0 <= k < |s| => LowerChar(s[k]))
  }

  lemma LowerIdempotent(s: string)
    ensures Lower(Lower(s)) == Lower(s)
  {
  }

  predicate StartsWith(s: string, p: string)
  {
    |p| <= |s| && s[..|p|] == p
  }

  predicate EndsWith(s: string, p: string)
  {
    |p| <= |s| && s[|s| - |p|..] == p
  }

  predicate OccursAt(s: string, sub: string, i: int)
  {
    0 <= i && i + |sub| <= |s| && s[i..i + |sub|] == sub
  }

  /** `sub in s`. */
  predicate Contains(s: string, sub: string)
  {
    exists i | 0 <= i <= |s| - |sub| :: OccursAt(s, sub, i)
  }

  /** `needle.lower() in hay.lower()`, the case-insensitive test of several scripts. */
  predicate ContainsIgnoringCase(hay: string, needle: string)
  {
    Contains(Lower(hay), Lower(needle))
  }

  lemma ContainsEmpty(s: string)
    ensures Contains(s, "")
  {
    assert OccursAt(s, "", 0);
  }

  /** The first index of a character of `cs` in `s`, or `|s|` when there is none. */
  function IndexIn(s: string, cs: CharClass): (i: nat)
    ensures i <= |s|
    ensures i < |s| ==> cs.Has(s[i])
    ensures forall k :: 0 <= k < i ==> !cs.Has(s[k])
  {
    if |s| == 0 || cs.Has(s[0]) then 0 else 1 + IndexIn(s[1..], cs)
  }

  lemma IndexInIsFirst(s: string, cs: CharClass, j: nat)
    requires j < |s| && cs.Has(s[j]) && forall k :: 0 <= k < j ==> !cs.Has(s[k])
    ensures IndexIn(s, cs) == j
  {
  }

  lemma IndexInNone(s: string, cs: CharClass)
    requires NoneIn(s, cs)
    ensures IndexIn(s, cs) == |s|
  {
  }

  // ---------------------------------------------------------------------------
  // Joining and splitting
  // ---------------------------------------------------------------------------

  /** `sep.join(parts)`. */
  function Join(parts: seq<string>, sep: string): string
  {
    if |parts| == 0 then ""
    else if |parts| == 1 then parts[0]
    else parts[0] + sep + Join(parts[1..], sep)
  }

  lemma JoinAppend(parts: seq<string>, last: string, sep: string)
    requires |parts| >= 1
    ensures Join(parts + [last], sep) == Join(parts, sep) + sep + last
  {
    if |parts| == 1 {
      assert parts + [last] == [parts[0], last];
    } else {
      assert (parts + [last])[1..] == parts[1..] + [last];
      JoinAppend(parts[1..], last, sep);
    }
  }

  /** Text added in front of the first part is in front of the joined text. */
  lemma JoinExtendFirst(parts: seq<string>, a: string, sep: string)
    requires |parts| >= 1
    ensures Join([a + parts[0]] + parts[1..], sep) == a + Join(parts, sep)
  {
    var ps := [a + parts[0]] + parts[1..];
    if |parts| > 1 {
      assert ps[1..] == parts[1..];
    }
  }

  /** Text added after the last part is after the joined text. */
  lemma {:induction false} JoinExtendLast(parts: seq<string>, b: string, sep: string)
    requires |parts| >= 1
    ensures Join(parts[..|parts| - 1] + [parts[|parts| - 1] + b], sep) == Join(parts, sep) + b
    decreases |parts|
  {
    var n := |parts|;
    var ps := parts[..n - 1] + [parts[n - 1] + b];
    if n > 1 {
      var tail := parts[1..];
      JoinExtendLast(tail, b, sep);
      assert ps[1..] == tail[..|tail| - 1] + [tail[|tail| - 1] + b];
      assert ps[0] == parts[0];
    }
  }

  /** Stripping a character from both ends of a string wrapped in it gives the string
      back, when the string neither starts nor ends with that character. */
  lemma StripWrapped(t: string, c: char)
    requires t != [] && t[0] != c && t[|t| - 1] != c
    ensures StripChars([c] + t + [c], Just(c)) == t
  {
    var s := [c] + t + [c];
    assert s[1..] == t + [c];
    assert TrimLeft(t + [c], Just(c)) == t + [c];
    assert TrimLeft(s, Just(c)) == t + [c];
    assert (t + [c])[..|t|] == t;
    assert TrimRight(t + [c], Just(c)) == TrimRight(t, Just(c));
  }

  /** `s.split(c)` with a one-character separator: the pieces between occurrences of `c`. */
  function Split(s: string, c: char): (parts: seq<string>)
    ensures |parts| >= 1
    ensures forall k :: 0 <= k < |parts| ==> c !in parts[k]
    decreases |s|
  {
    var i := IndexIn(s, Just(c));
    if i == |s| then
      assert s == s[..i];
      [s]
    else
      [s[..i]] + Split(s[i + 1..], c)
  }

  /** Splitting at a separator that follows a separator-free first field gives that
      field first, then the rest split. */
  lemma SplitFirst(a: string, rest: string, c: char)
    requires c !in a
    ensures Split(a + [c] + rest, c) == [a] + Split(rest, c)
  {
    var s := a + [c] + rest;
    IndexInIsFirst(s, Just(c), |a|);
    assert s[..|a|] == a && s[|a| + 1..] == rest;
  }

  /** A string without the separator splits into itself alone. */
  lemma SplitWhole(a: string, c: char)
    requires c !in a
    ensures Split(a, c) == [a]
  {
    IndexInNone(a, Just(c));
  }

  /** Splitting and re-joining on the same separator gives the string back. */
  lemma {:induction false} JoinSplit(s: string, c: char)
    ensures Join(Split(s, c), [c]) == s
    decreases |s|
  {
    var i := IndexIn(s, Just(c));
    if i < |s| {
      var rest := Split(s[i + 1..], c);
      JoinSplit(s[i + 1..], c);
      assert Split(s, c) == [s[..i]] + rest;
      assert ([s[..i]] + rest)[1..] == rest;
      assert Join(Split(s, c), [c]) == s[..i] + [c] + Join(rest, [c]);
      assert s == s[..i] + [c] + s[i + 1..];
    }
  }

  /** Joining pieces without the separator and splitting again gives the pieces back. */
  lemma {:induction false} SplitJoin(parts: seq<string>, c: char)
    requires |parts| >= 1 && forall k :: 0 <= k < |parts| ==> c !in parts[k]
    ensures Split(Join(parts, [c]), c) == parts
    decreases |parts|
  {
    if |parts| == 1 {
      SplitWhole(parts[0], c);
    } else {
      var rest := parts[1..];
      SplitJoin(rest, c);
      assert Join(parts, [c]) == parts[0] + [c] + Join(rest, [c]);
      SplitFirst(parts[0], Join(rest, [c]), c);
      assert parts == [parts[0]] + rest;
    }
  }

  /** The pieces of `s` between runs of characters of `cs`, with no empty pieces. */
  function SplitRuns(s: string, cs: CharClass): seq<string>
    decreases |s|
  {
    var t := TrimLeft(s, cs);
    if t == [] then []
    else
      var i := IndexIn(t, cs);
      [t[..i]] + SplitRuns(t[i..], cs)
  }

  /** Every piece is non-empty and holds no separator. */
  predicate Pieces(ws: seq<string>, cs: CharClass)
  {
    forall k :: 0 <= k < |ws| ==> |ws[k]| > 0 && NoneIn(ws[k], cs)
  }

  /** The run before the first separator of a string that does not start with one. */
  lemma FirstPiece(t: string, cs: CharClass)
    requires t != [] && !cs.Has(t[0])
    ensures IndexIn(t, cs) > 0 && NoneIn(t[..IndexIn(t, cs)], cs)
  {
  }

  /** A piece in front of pieces. */
  lemma PiecesCons(w: string, ws: seq<string>, cs: CharClass)
    requires |w| > 0 && NoneIn(w, cs) && Pieces(ws, cs)
    ensures Pieces([w] + ws, cs)
  {
    var all := [w] + ws;
    forall k | 0 <= k < |all| ensures |all[k]| > 0 && NoneIn(all[k], cs) {
      if k > 0 {
        assert all[k] == ws[k - 1];
      }
    }
  }

  lemma {:induction false} SplitRunsPieces(s: string, cs: CharClass)
    ensures Pieces(SplitRuns(s, cs), cs)
    decreases |s|
  {
    var t := TrimLeft(s, cs);
    if t != [] {
      var i := IndexIn(t, cs);
      FirstPiece(t, cs);
      SplitRunsPieces(t[i..], cs);
      assert SplitRuns(s, cs) == [t[..i]] + SplitRuns(t[i..], cs);
      PiecesCons(t[..i], SplitRuns(t[i..], cs), cs);
    }
  }

  /** There are no pieces exactly when the whole string is made of separators. */
  lemma SplitRunsEmpty(s: string, cs: CharClass)
    ensures SplitRuns(s, cs) == [] <==> AllIn(s, cs)
  {
    var t := TrimLeft(s, cs);
    if t != [] {
      assert s[|s| - |t|] == t[0];
    }
  }

  /** `s.split()`: the pieces of `s` between runs of whitespace. */
  function Words(s: string): (ws: seq<string>)
    ensures forall k :: 0 <= k < |ws| ==> |ws[k]| > 0 && NoneIn(ws[k], Spaces)
    ensures ws == [] <==> AllIn(s, Spaces)
  {
    SplitRunsEmpty(s, Spaces);
    SplitRunsPieces(s, Spaces);
    SplitRuns(s, Spaces)
  }

  /** A string that neither starts nor ends with whitespace is its own strip. */
  lemma StripUnpadded(s: string)
    requires s == [] || (!IsSpace(s[0]) && !IsSpace(s[|s| - 1]))
    ensures Strip(s) == s
  {
    assert TrimLeft(s, Spaces) == s;
  }

  /** The joined text starts with the first part and ends with the last. */
  lemma {:induction false} JoinEnds(ws: seq<string>, sep: string)
    requires |ws| >= 1 && forall k :: 0 <= k < |ws| ==> ws[k] != []
    ensures var t := Join(ws, sep); t != [] && t[0] == ws[0][0] && t[|t| - 1] == ws[|ws| - 1][|ws[|ws| - 1]| - 1]
    decreases |ws|
  {
    if |ws| > 1 {
      JoinEnds(ws[1..], sep);
    }
  }

  /** A single word is one piece. */
  lemma SplitRunsWord(w: string, cs: CharClass)
    requires w != [] && NoneIn(w, cs)
    ensures SplitRuns(w, cs) == [w]
  {
    assert TrimLeft(w, cs) == w;
    IndexInNone(w, cs);
    assert w[..|w|] == w && w[|w|..] == [];
    assert TrimLeft([], cs) == [];
  }

  /** A string that starts with a non-separator begins with its first run. */
  lemma SplitRunsUnfold(s: string, cs: CharClass)
    requires s != [] && !cs.Has(s[0])
    ensures SplitRuns(s, cs) == [s[..IndexIn(s, cs)]] + SplitRuns(s[IndexIn(s, cs)..], cs)
  {
    assert TrimLeft(s, cs) == s;
  }

  /** A leading separator is skipped. */
  lemma SplitRunsSkip(c: char, rest: string, cs: CharClass)
    requires cs.Has(c)
    ensures SplitRuns([c] + rest, cs) == SplitRuns(rest, cs)
  {
    assert ([c] + rest)[1..] == rest;
    assert TrimLeft([c] + rest, cs) == TrimLeft(rest, cs);
  }

  /** Where the first run of a word, a space and more text ends. */
  lemma FirstRun(w: string, rest: string)
    requires w != [] && NoneIn(w, Spaces)
    ensures var s := w + " " + rest;
            && !IsSpace(s[0]) && IndexIn(s, Spaces) == |w|
            && s[..|w|] == w && s[|w|..] == [' '] + rest
  {
    var s := w + " " + rest;
    assert s[0] == w[0] && s[|w|] == ' ';
    IndexInIsFirst(s, Spaces, |w|);
    assert s[..|w|] == w;
    assert s[|w|..] == [' '] + rest;
  }

  /** A word, a space and a text that starts with a non-space split into the word and
      the text's pieces. */
  lemma SplitRunsCons(w: string, rest: string)
    requires w != [] && NoneIn(w, Spaces)
    requires rest != [] && !IsSpace(rest[0])
    ensures SplitRuns(w + " " + rest, Spaces) == [w] + SplitRuns(rest, Spaces)
  {
    FirstRun(w, rest);
    SplitRunsUnfold(w + " " + rest, Spaces);
    SplitRunsSkip(' ', rest, Spaces);
  }

  /** Words joined by single spaces split back into the same words. */
  lemma {:induction false} WordsJoin(ws: seq<string>)
    requires Pieces(ws, Spaces)
    ensures SplitRuns(Join(ws, " "), Spaces) == ws
    decreases |ws|
  {
    if |ws| == 1 {
      SplitRunsWord(ws[0], Spaces);
    } else if |ws| > 1 {
      WordsJoin(ws[1..]);
      JoinEnds(ws[1..], " ");
      SplitRunsCons(ws[0], Join(ws[1..], " "));
      assert ws == [ws[0]] + ws[1..];
    }
  }

  /** `s.splitlines()`: the lines of `s` without their terminators; `\r\n` ends one line,
      and a final terminator does not start an empty line. */
  function SplitLines(s: string): (ls: seq<string>)
    ensures forall k :: 0 <= k < |ls| ==> NoneIn(ls[k], LineEnds)
    ensures ls == [] <==> s == []
    decreases |s|
  {
    if s == [] then []
    else
      var i := IndexIn(s, LineEnds);
      if i == |s| then
        assert s == s[..i];
        [s]
      else
        var w := if s[i] == '\r' && i + 1 < |s| && s[i + 1] == '\n' then 2 else 1;
        [s[..i]] + SplitLines(s[i + w..])
  }

  /** Joining lines that hold no terminators with "\n" and splitting the result gives the
      lines back, provided the last line is not empty (an empty last line is lost). */
  lemma {:induction false} SplitLinesJoin(ls: seq<string>)
    requires |ls| >= 1 && |ls[|ls| - 1]| > 0
    requires forall k :: 0 <= k < |ls| ==> NoneIn(ls[k], LineEnds)
    ensures SplitLines(Join(ls, "\n")) == ls
  {
    var s := Join(ls, "\n");
    if |ls| == 1 {
      assert s == ls[0];
      IndexInNone(s, LineEnds);
    } else {
      var rest := Join(ls[1..], "\n");
      var n := |ls[0]|;
      assert s == ls[0] + "\n" + rest;
      assert s[..n] == ls[0];
      IndexInIsFirst(s, LineEnds, n);
      assert s[n + 1..] == rest;
      SplitLinesJoin(ls[1..]);
    }
  }

  // ---------------------------------------------------------------------------
  // Decimal numbers: `str(n)`, `f"{n:02}"` and `int(s)`
  // ---------------------------------------------------------------------------

  predicate IsDigit(c: char)
  {
    '0' <= c <= '9'
  }

  predicate IsAsciiLetter(c: char)
  {
    'A' <= c <= 'Z' || 'a' <= c <= 'z'
  }

  /** The text a regular expression anchored by `$` must match in full: Python's `$`
      matches at the end of the string and also just before a final "\n". For the
      patterns here, none of which can match a "\n", a string matches exactly when
      this text does. */
  function Chomp(s: string): (t: string)
    ensures s == t || s == t + "\n"
  {
    if |s| > 0 && s[|s| - 1] == '\n' then s[..|s| - 1] else s
  }

  predicate AllDigits(s: string)
  {
    forall k :: 0 <= k < |s| ==> IsDigit(s[k])
  }

  function DigitChar(d: nat): (c: char)
    requires d < 10
    ensures IsDigit(c)
  {
    ('0' as int + d) as char
  }

  /** `str(n)` for a non-negative integer: its decimal digits, no leading zeros. */
  function NatToString(n: nat): (r: string)
    ensures |r| >= 1 && AllDigits(r)
    ensures |r| > 1 ==> r[0] != '0'
    decreases n
  {
    if n < 10 then [DigitChar(n)] else NatToString(n / 10) + [DigitChar(n % 10)]
  }

  /** `f"{n:02}"`: at least two digits, zero-padded on the left. */
  function Pad2(n: nat): (r: string)
    ensures |r| >= 2
    ensures n < 10 ==> r == ['0', DigitChar(n)]
    ensures n >= 10 ==> r == NatToString(n)
  {
    var d := NatToString(n);
    if |d| < 2 then "0" + d else d
  }

  function DigitValue(c: char): nat
    requires IsDigit(c)
  {
    c as int - '0' as int
  }

  /** The value of a string of decimal digits. */
  function DigitsValue(s: string): nat
    requires AllDigits(s)
  {
    if s == [] then 0 else DigitsValue(s[..|s| - 1]) * 10 + DigitValue(s[|s| - 1])
  }

  /** `int(s)` on a decimal numeral: surrounding whitespace, an optional sign, then
      ASCII digits, which single underscores may separate. Any other text makes
      `int()` raise `ValueError`, which is `None` here. */
  function ParseInt(s: string): (r: Option<int>)
    ensures AllIn(s, Spaces) ==> r == None
  {
    ParseSigned(Strip(s))
  }

  /** Digits, with single underscores allowed between two of them: a digit, then
      either nothing or a numeral, with one underscore in front allowed. */
  predicate Numeral(b: string)
    decreases |b|
  {
    && |b| > 0 && IsDigit(b[0])
    && (|b| == 1 || Numeral(if b[1] == '_' then b[2..] else b[1..]))
  }

  /** A run of digits is a numeral. */
  lemma {:induction false} DigitsNumeral(d: string)
    requires |d| > 0 && AllDigits(d)
    ensures Numeral(d)
    decreases |d|
  {
    if |d| > 1 {
      assert IsDigit(d[1]);
      DigitsNumeral(d[1..]);
    }
  }

  /** A numeral holds only digits and underscores. */
  lemma {:induction false} NumeralChars(b: string)
    requires Numeral(b)
    ensures forall k :: 0 <= k < |b| ==> IsDigit(b[k]) || b[k] == '_'
    decreases |b|
  {
    if |b| > 1 {
      var rest := if b[1] == '_' then b[2..] else b[1..];
      NumeralChars(rest);
      assert forall k :: 1 <= k < |b| ==> b[k] == '_' || b[k] in rest;
    }
  }

  /** The digits of a numeral, its underscores left out. */
  function DropUnderscores(b: string): (d: string)
    ensures (forall k :: 0 <= k < |b| ==> IsDigit(b[k]) || b[k] == '_') ==> AllDigits(d)
    ensures AllDigits(b) ==> d == b
    ensures |d| <= |b|
  {
    if b == [] then []
    else if b[0] == '_' then DropUnderscores(b[1..])
    else [b[0]] + DropUnderscores(b[1..])
  }

  /** An optional sign followed by a numeral. */
  function ParseSigned(t: string): (r: Option<int>)
    ensures t == [] ==> r == None
  {
    var signed := |t| > 0 && (t[0] == '-' || t[0] == '+');
    var body := if signed then t[1..] else t;
    if !Numeral(body) then None
    else
      NumeralChars(body);
      var v: int := DigitsValue(DropUnderscores(body));
      Some(if signed && t[0] == '-' then -v else v)
  }

  lemma {:induction false} DigitsValueOfNat(n: nat)
    ensures DigitsValue(NatToString(n)) == n
    decreases n
  {
    var s := NatToString(n);
    if n >= 10 {
      DigitsValueOfNat(n / 10);
      assert s[..|s| - 1] == NatToString(n / 10);
    }
  }

  lemma DigitNotSpace(c: char)
    requires IsDigit(c)
    ensures !IsSpace(c)
  {
  }

  lemma AllDigitsNoSpace(d: string)
    requires AllDigits(d)
    ensures NoneIn(d, Spaces)
  {
    forall k | 0 <= k < |d| ensures !IsSpace(d[k]) {
      DigitNotSpace(d[k]);
    }
  }

  lemma ParseUnsigned(d: string)
    requires |d| > 0 && AllDigits(d)
    ensures ParseInt(d) == Some(DigitsValue(d) as int)
  {
    AllDigitsNoSpace(d);
    assert Strip(d) == d;
    SignedDigits(d);
  }

  /** Digits without a sign read as their value. */
  lemma SignedDigits(d: string)
    requires |d| > 0 && AllDigits(d)
    ensures ParseSigned(d) == Some(DigitsValue(d) as int)
  {
    assert IsDigit(d[0]);
    assert d[0] != '-' && d[0] != '+';
    DigitsNumeral(d);
  }

  /** Digits split into groups by single underscores read as the digits together:
      `int("1_000") == 1000`. */
  lemma ParseGrouped(a: string, b: string)
    requires |a| > 0 && AllDigits(a) && |b| > 0 && AllDigits(b)
    ensures ParseInt(a + "_" + b) == Some(DigitsValue(a + b) as int)
  {
    var t := a + "_" + b;
    GroupedNumeral(a, b);
    assert Strip(t) == t;
    assert t[0] != '-' && t[0] != '+';
    DropAround(a, b);
  }

  /** Two runs of digits joined by an underscore form a numeral with no space in it. */
  lemma GroupedNumeral(a: string, b: string)
    requires |a| > 0 && AllDigits(a) && |b| > 0 && AllDigits(b)
    ensures Numeral(a + "_" + b) && NoneIn(a + "_" + b, Spaces) && IsDigit((a + "_" + b)[0])
  {
    var t := a + "_" + b;
    forall k | 0 <= k < |t| ensures !IsSpace(t[k]) {
      if k < |a| {
        assert t[k] == a[k];
      } else if k > |a| {
        assert t[k] == b[k - |a| - 1];
      }
    }
    assert t[0] == a[0];
    GroupedIsNumeral(a, b);
  }

  lemma {:induction false} GroupedIsNumeral(a: string, b: string)
    requires |a| > 0 && AllDigits(a) && |b| > 0 && AllDigits(b)
    ensures Numeral(a + "_" + b)
    decreases |a|
  {
    var t := a + "_" + b;
    assert t[0] == a[0];
    if |a| == 1 {
      assert t[1] == '_' && t[2..] == b;
      DigitsNumeral(b);
    } else {
      assert t[1] == a[1] && t[1..] == a[1..] + "_" + b;
      GroupedIsNumeral(a[1..], b);
    }
  }

  /** Dropping the one underscore between two runs of digits joins them. */
  lemma {:induction false} DropAround(a: string, b: string)
    requires AllDigits(a) && AllDigits(b)
    ensures DropUnderscores(a + "_" + b) == a + b
    decreases |a|
  {
    if a == [] {
      assert a + "_" + b == ['_'] + b;
      assert (['_'] + b)[1..] == b;
    } else {
      DropAround(a[1..], b);
      assert (a + "_" + b)[1..] == a[1..] + "_" + b;
      assert a + b == [a[0]] + (a[1..] + b);
    }
  }

  /** In a numeral every underscore has a digit on either side, so `int()` refuses a
      leading, trailing or doubled underscore. */
  lemma {:induction false} UnderscoreBetweenDigits(b: string, k: int)
    requires Numeral(b) && 0 <= k < |b| && b[k] == '_'
    ensures 0 < k < |b| - 1 && IsDigit(b[k - 1]) && IsDigit(b[k + 1])
    decreases |b|
  {
    if b[1] == '_' {
      var rest := b[2..];
      if k > 1 {
        assert rest[k - 2] == '_';
        UnderscoreBetweenDigits(rest, k - 2);
        assert rest[k - 3] == b[k - 1] && rest[k - 1] == b[k + 1];
      } else {
        assert rest[0] == b[2];
      }
    } else {
      var rest := b[1..];
      assert rest[k - 1] == '_';
      UnderscoreBetweenDigits(rest, k - 1);
      assert rest[k - 2] == b[k - 1] && rest[k] == b[k + 1];
    }
  }

  /** `int(str(n)) == n`: decimal rendering and parsing are inverse. */
  lemma ParseNatToString(n: nat)
    ensures ParseInt(NatToString(n)) == Some(n as int)
  {
    DigitsValueOfNat(n);
    ParseUnsigned(NatToString(n));
  }

  lemma MinusNoSpace(d: string)
    requires AllDigits(d)
    ensures NoneIn("-" + d, Spaces)
  {
    var s := "-" + d;
    forall k | 0 <= k < |s| ensures !IsSpace(s[k]) {
      if k > 0 {
        assert s[k] == d[k - 1];
        DigitNotSpace(d[k - 1]);
      }
    }
  }

  lemma SignedMinus(d: string)
    requires AllDigits(d)
    ensures ParseSigned("-" + d) == if d == [] then None else Some(-(DigitsValue(d) as int))
  {
    var t := "-" + d;
    assert t[0] == '-' && t[1..] == d;
    if d == [] {
      assert !Numeral(t[1..]);
    } else {
      SignedNegative(t, d);
    }
  }

  lemma SignedNegative(t: string, d: string)
    requires |t| > 0 && t[0] == '-' && t[1..] == d
    requires |d| > 0 && AllDigits(d)
    ensures ParseSigned(t) == Some(-(DigitsValue(d) as int))
  {
    DigitsNumeral(d);
  }

  /** A leading minus sign negates the parsed value. */
  lemma ParseMinus(d: string)
    requires AllDigits(d)
    ensures ParseInt("-" + d) == if d == [] then None else Some(-(DigitsValue(d) as int))
  {
    MinusNoSpace(d);
    SignedMinus(d);
  }
}

=== FILE: viewlogs.dfy ===
/**
 The log viewer (`sigma/viewlogs.py`): choosing which lines of a log to show, how
 each shown line is classified and split, and how the command line picks a log file.
 Reading the file, listing the directory and printing are inputs and outputs of the
 model: the file's lines (as `readlines` returns them) and the names the directory
 listing found are parameters.
 */
module ViewLogs {
  import opened Options
  import opened Text
  import opened Sorting
  import opened StrOrder
  import opened Lists

  // ---------------------------------------------------------------------------
  // Selecting lines
  // ---------------------------------------------------------------------------

  /** The options of `view_log`; `lines == 0` and `filter == ""` stand for the
      absent argument, which Python treats alike. */
  datatype ViewOptions = ViewOptions(lines: int, filter: string, errorsOnly: bool)

  const Plain: ViewOptions := ViewOptions(0, "", false)

  /** The condition of the text filter. */
  function Mentions(needle: string): string -> bool
  {
    line => ContainsIgnoringCase(line, needle)
  }

  predicate IsErrorLine(line: string)
  {
    Contains(Lower(line), "error") || Contains(Lower(line), "exception")
  }

  /** Python's `xs[start:]`: a negative start counts from the end, and both ends are
      clamped to the list. */
  function SliceFrom<T>(xs: seq<T>, start: int): (r: seq<T>)
    ensures start >= 0 ==> r == xs[Clamp(start, |xs|)..]
    ensures start < 0 ==> r == xs[Clamp(|xs| + start, |xs|)..]
  {
    var i := if start < 0 then |xs| + start else start;
    xs[Clamp(i, |xs|)..]
  }

  function Clamp(i: int, n: nat): (c: nat)
    ensures c <= n
    ensures 0 <= i <= n ==> c == i
  {
    if i < 0 then 0 else if i > n then n else i
  }

  /** `content[-lines:]` when `lines` is non-zero: the last `lines` lines for a
      positive count; a negative count instead drops that many lines from the front. */
  function Tail<T(==)>(xs: seq<T>, n: int): (r: seq<T>)
    ensures EndsWithSeq(xs, r)
    ensures n == 0 ==> r == xs
    ensures n > 0 ==> |r| == if n < |xs| then n else |xs|
    ensures n < 0 ==> |r| == if -n < |xs| then |xs| + n else 0
  {
    if n == 0 then xs else SliceFrom(xs, -n)
  }

  predicate EndsWithSeq<T(==)>(xs: seq<T>, suffix: seq<T>)
  {
    |suffix| <= |xs| && xs[|xs| - |suffix|..] == suffix
  }

  /** The lines `view_log` goes on to show, before blank ones are skipped. */
  function Select(content: seq<string>, opts: ViewOptions): seq<string>
  {
    var filtered := if opts.filter != "" then Filter(Mentions(opts.filter), content) else content;
    var errors := if opts.errorsOnly then Filter(IsErrorLine, filtered) else filtered;
    Tail(errors, opts.lines)
  }

  /** The text filter keeps exactly the lines that mention the text, whatever the case,
      in their original order. */
  lemma SelectByText(content: seq<string>, needle: string)
    requires needle != []
    ensures forall l :: l in Select(content, ViewOptions(0, needle, false))
                    <==> l in content && ContainsIgnoringCase(l, needle)
    ensures forall xs, ys :: content == xs + ys ==>
      Select(content, ViewOptions(0, needle, false))
        == Filter(Mentions(needle), xs) + Filter(Mentions(needle), ys)
  {
    forall xs, ys | content == xs + ys
      ensures Filter(Mentions(needle), content)
           == Filter(Mentions(needle), xs) + Filter(Mentions(needle), ys)
    {
      FilterAppend(Mentions(needle), xs, ys);
    }
  }

  /** The errors-only view keeps exactly the lines that mention an error or an
      exception, whatever the case. */
  lemma SelectErrors(content: seq<string>)
    ensures forall l :: l in Select(content, ViewOptions(0, "", true))
                    <==> l in content && IsErrorLine(l)
  {
  }

  // ---------------------------------------------------------------------------
  // Showing a line
  // ---------------------------------------------------------------------------

  datatype Severity = Error | Warning | Success | Info | Normal

  predicate ErrorMarked(line: string)
  {
    Contains(line, "[ERROR]") || Contains(line, "Error:") || Contains(line, "Exception")
  }

  predicate WarningMarked(line: string)
  {
    Contains(line, "[WARNING]") || Contains(line, "Warning:")
  }

  predicate SuccessMarked(line: string)
  {
    Contains(line, "[SUCCESS]") || Contains(line, "Success:")
  }

  predicate InfoMarked(line: string)
  {
    Contains(line, "[INFO]") || Contains(line, "Info:")
  }

  /** The colour of a line: the first kind of marker it holds, in the order error,
      warning, success, info. */
  function Classify(line: string): (s: Severity)
    ensures s == Error <==> ErrorMarked(line)
    ensures s == Warning <==> !ErrorMarked(line) && WarningMarked(line)
    ensures s == Success <==> !ErrorMarked(line) && !WarningMarked(line) && SuccessMarked(line)
    ensures s == Info <==>
      !ErrorMarked(line) && !WarningMarked(line) && !SuccessMarked(line) && InfoMarked(line)
    ensures s == Normal <==>
      !ErrorMarked(line) && !WarningMarked(line) && !SuccessMarked(line) && !InfoMarked(line)
  {
    if ErrorMarked(line) then Error
    else if WarningMarked(line) then Warning
    else if SuccessMarked(line) then Success
    else if InfoMarked(line) then Info
    else Normal
  }

  /** A line as shown: a highlighted timestamp (empty when the line has no brackets),
      then the rest in the severity's colour. */
  datatype Entry = Entry(severity: Severity, timestamp: string, message: string)

  /** The timestamp runs to the first "]", inclusive. */
  function SplitTimestamp(line: string): (r: (string, string))
    requires ']' in line
    ensures r.0 + r.1 == line
    ensures |r.0| >= 1 && r.0[|r.0| - 1] == ']' && ']' !in r.0[..|r.0| - 1]
  {
    var i := IndexIn(line, Just(']'));
    assert line == line[..i + 1] + line[i + 1..];
    assert line[..i + 1][..i] == line[..i];
    (line[..i + 1], line[i + 1..])
  }

  /** One stripped, non-blank line. */
  function Render(line: string): (e: Entry)
    ensures e.timestamp + e.message == line
    ensures e.severity == Classify(line)
    ensures e.timestamp != [] <==> '[' in line && ']' in line
  {
    if ']' in line && '[' in line then
      var (t, m) := SplitTimestamp(line);
      Entry(Classify(line), t, m)
    else
      Entry(Classify(line), "", line)
  }

  /** A line `view_log` shows: one that is not blank once stripped. */
  predicate Shown(line: string)
  {
    Strip(line) != []
  }

  /** The entry of a line that is shown: the line rendered from its stripped text. */
  function Displayed(line: string): Entry
  {
    Render(Strip(line))
  }

  /** The entries shown for the selected lines: each is stripped, and blank ones are
      skipped. */
  function Show(lines: seq<string>): (es: seq<Entry>)
    ensures |es| <= |lines|
    decreases |lines|
  {
    if lines == [] then []
    else if Shown(lines[0]) then [Displayed(lines[0])] + Show(lines[1..])
    else Show(lines[1..])
  }

  /** A blank line adds nothing to what is shown; any other adds its stripped text. */
  lemma ShowCons(line: string, rest: seq<string>)
    ensures AllIn(line, Spaces) ==> Show([line] + rest) == Show(rest)
    ensures !AllIn(line, Spaces) ==> Show([line] + rest) == [Render(Strip(line))] + Show(rest)
  {
    assert ([line] + rest)[1..] == rest;
  }

  /** What is shown is, in order, one entry per non-blank line, rendered from its
      stripped text. */
  lemma {:induction false} ShowRendersShown(lines: seq<string>)
    ensures Show(lines) == Map(Displayed, Filter(Shown, lines))
    decreases |lines|
  {
    if lines != [] {
      var line, rest := lines[0], lines[1..];
      assert lines == [line] + rest;
      ShowRendersShown(rest);
      FilterCons(Shown, line, rest);
      if Shown(line) {
        MapCons(Displayed, line, Filter(Shown, rest));
      }
    }
  }

  /** `view_log`: `None` when no line is selected ("No log entries match"), else the
      entries shown. */
  function ViewLog(content: seq<string>, opts: ViewOptions): (r: Option<seq<Entry>>)
    ensures r == None <==> Select(content, opts) == []
  {
    var selected := Select(content, opts);
    if selected == [] then None else Some(Show(selected))
  }

  // ---------------------------------------------------------------------------
  // Choosing the log
  // ---------------------------------------------------------------------------

  /** A file name given on the command line, with ".log" added unless present. */
  function LogName(name: string): (r: string)
    ensures EndsWith(r, ".log")
    ensures EndsWith(name, ".log") ==> r == name
    ensures !EndsWith(name, ".log") ==> r == name + ".log"
  {
    if EndsWith(name, ".log") then name else name + ".log"
  }

  lemma LogNameIdempotent(name: string)
    ensures LogName(LogName(name)) == LogName(name)
  {
  }

  /** The log files newest name first, as `sorted(..., reverse=True)` orders them. */
  function Newest(files: seq<string>): (r: seq<string>)
    ensures |r| == |files| && multiset(r) == multiset(files)
  {
    Sort(StrGe, files)
  }

  lemma NewestSorted(files: seq<string>)
    ensures SortedBy(StrGe, Newest(files))
  {
    StrGeIsTotalPreorder();
    SortSorted(StrGe, files);
  }

  /** The log the k-th entry of the listing names, counting from 1. */
  function Pick(files: seq<string>, k: Option<int>): (r: Option<string>)
    ensures r.Some? <==> k.Some? && 1 <= k.value <= |files|
    ensures r.Some? ==> r.value in files && r.value == Newest(files)[k.value - 1]
  {
    if k.Some? && 1 <= k.value <= |files| then
      NewestHolds(files, k.value - 1);
      Some(Newest(files)[k.value - 1])
    else None
  }

  lemma NewestHolds(files: seq<string>, i: nat)
    requires i < |files|
    ensures Newest(files)[i] in files
  {
    assert Newest(files)[i] in multiset(Newest(files));
  }

  /** What `main` does. */
  datatype Command =
    | ListLogs
    | ShowHelp
    | ClearLogs
    | DeleteLog(target: Option<string>)    // None: "Invalid log file number"
    | View(file: string, opts: ViewOptions)
    | InvalidNumber
    | ViewNamed(name: string)              // shown if that file exists

  /** The options after the log number. */
  function OptionsOf(args: seq<string>): (o: ViewOptions)
    requires |args| >= 1
    ensures |args| == 1 ==> o == Plain
    ensures |args| >= 3 && args[1] == "filter" ==> o == ViewOptions(0, args[2], false)
    ensures |args| >= 2 && args[1] == "errors" ==> o == ViewOptions(0, "", true)
    ensures |args| >= 2 && args[1] != "errors" && !(args[1] == "filter" && |args| >= 3) ==>
      o == if ParseInt(args[1]).Some? then ViewOptions(ParseInt(args[1]).value, "", false) else Plain
  {
    if |args| < 2 then Plain
    else if args[1] == "filter" && |args| >= 3 then ViewOptions(0, args[2], false)
    else if args[1] == "errors" then ViewOptions(0, "", true)
    else
      match ParseInt(args[1])
      case Some(n) => ViewOptions(n, "", false)
      case None => Plain
  }

  /** The arguments a view option is typed as after the log number: `errors`,
      `filter TEXT`, a line count, or nothing. */
  function OptionsArgs(o: ViewOptions): seq<string>
    requires o.lines >= 0
  {
    if o.errorsOnly then ["errors"]
    else if o.filter != [] then ["filter", o.filter]
    else if o.lines > 0 then [NatToString(o.lines)]
    else []
  }

  /** A view asks for one thing at a time: errors, a filter, or a line count. */
  predicate SingleOption(o: ViewOptions)
  {
    && o.lines >= 0
    && (o.errorsOnly ==> o.filter == [] && o.lines == 0)
    && (o.filter != [] ==> o.lines == 0)
  }

  /** Every single option typed after a log number is read back as that option. */
  lemma OptionsRead(number: string, o: ViewOptions)
    requires SingleOption(o)
    ensures OptionsOf([number] + OptionsArgs(o)) == o
  {
    var args := [number] + OptionsArgs(o);
    if !o.errorsOnly && o.filter == [] && o.lines > 0 {
      var d := NatToString(o.lines);
      assert args[1] == d;
      assert d[0] != 'e' && d[0] != 'f';
      ParseNatToString(o.lines);
    }
  }

  /** The first argument is neither `help`, `clear` nor `delete N`, so it names a
      log, by number or by name. */
  predicate Viewing(args: seq<string>)
  {
    && args != []
    && Lower(args[0]) != "help" && Lower(args[0]) != "clear"
    && !(Lower(args[0]) == "delete" && |args| == 2)
  }

  /** `main`, given the command-line arguments and the names of the log files. */
  function Main(args: seq<string>, files: seq<string>): (c: Command)
    ensures args == [] <==> c == ListLogs
    ensures c == ShowHelp <==> args != [] && Lower(args[0]) == "help"
    ensures c == ClearLogs <==> args != [] && Lower(args[0]) == "clear"
    ensures c.DeleteLog? <==> |args| == 2 && Lower(args[0]) == "delete"
    ensures c.DeleteLog? ==> c.target == Pick(files, ParseInt(args[1]))
    ensures c.ViewNamed? <==> Viewing(args) && ParseInt(Lower(args[0])).None?
    ensures c.ViewNamed? ==> c.name == LogName(Lower(args[0]))
    ensures c.View? <==> Viewing(args) && Pick(files, ParseInt(Lower(args[0]))).Some?
    ensures c.View? ==> Some(c.file) == Pick(files, ParseInt(Lower(args[0]))) && c.opts == OptionsOf(args)
    ensures c.View? ==> c.file in files
    ensures c == InvalidNumber <==>
      Viewing(args) && ParseInt(Lower(args[0])).Some? && Pick(files, ParseInt(Lower(args[0]))).None?
  {
    if args == [] then ListLogs
    else
      var command := Lower(args[0]);
      if command == "help" then ShowHelp
      else if command == "clear" then ClearLogs
      else if command == "delete" && |args| == 2 then DeleteLog(Pick(files, ParseInt(args[1])))
      else if ParseInt(command).None? then ViewNamed(LogName(command))
      else
        match Pick(files, ParseInt(command))
        case Some(f) => View(f, OptionsOf(args))
        case None => InvalidNumber
  }

  lemma LowerDigits(s: string)
    requires AllDigits(s)
    ensures Lower(s) == s
  {
    forall i | 0 <= i < |s| ensures LowerChar(s[i]) == s[i] {
      assert IsDigit(s[i]);
    }
  }

  /** A word that starts with a digit is none of the command words. */
  lemma DigitNotWord(s: string)
    requires |s| > 0 && IsDigit(s[0])
    ensures s != "help" && s != "clear" && s != "delete"
  {
    assert !IsDigit('h') && !IsDigit('c') && !IsDigit('d');
  }

  lemma PickNumber(files: seq<string>, k: int)
    ensures Pick(files, Some(k)) == if 1 <= k <= |files| then Some(Newest(files)[k - 1]) else None
  {
  }

  /** A single argument that reads as a number picks a log by that number. */
  lemma MainNumber(s: string, files: seq<string>, k: int)
    requires Lower(s) == s && |s| > 0 && IsDigit(s[0]) && ParseInt(s) == Some(k)
    ensures Main([s], files) == if 1 <= k <= |files| then View(Newest(files)[k - 1], Plain) else InvalidNumber
  {
    var args := [s];
    assert args[0] == s && |args| == 1;
    DigitNotWord(s);
    assert Viewing(args);
    assert ParseInt(Lower(args[0])) == Some(k);
    var picked := Pick(files, Some(k));
    PickNumber(files, k);
    assert Pick(files, ParseInt(Lower(args[0]))) == picked;
    var c := Main(args, files);
    if 1 <= k <= |files| {
      assert c.View?;
      assert Some(c.file) == picked;
      assert c.opts == OptionsOf(args) == Plain;
    } else {
      assert picked.None?;
      assert c == InvalidNumber;
    }
  }

  /** A number selects the log at that place in the listing, newest first, exactly
      when it is between 1 and the number of logs. */
  lemma MainByNumber(files: seq<string>, k: nat)
    requires 1 <= k
    ensures Main([NatToString(k)], files)
         == if k <= |files| then View(Newest(files)[k - 1], Plain) else InvalidNumber
  {
    var s := NatToString(k);
    ParseNatToString(k);
    LowerDigits(s);
    MainNumber(s, files, k);
  }
}

=== FILE: wifi.dfy ===
/**
 The Wi-Fi tool (`sigma/wifi.py`): how a signal strength is shown, and how the
 command line, SSIDs with spaces included, is read. The radio itself (scanning,
 connecting) is outside the model; its inputs are the parsed command.
 */
module Wifi {
  import opened Options
  import opened Text

  // ---------------------------------------------------------------------------
  // Signal strength
  // ---------------------------------------------------------------------------

  /** The number of filled bars for a signal in dBm: thresholds -50, -60, -70, -80. */
  function Bars(signal: int): (n: nat)
    ensures n <= 4
    ensures n == 4 <==> signal >= -50
    ensures n == 0 <==> signal < -80
  {
    if signal >= -50 then 4
    else if signal >= -60 then 3
    else if signal >= -70 then 2
    else if signal >= -80 then 1
    else 0
  }

  /** A stronger signal never shows fewer bars. */
  lemma BarsMonotone(weaker: int, stronger: int)
    requires weaker <= stronger
    ensures Bars(weaker) <= Bars(stronger)
  {
  }

  /** The bar glyphs: the filled ones, then underscores. */
  function BarText(n: nat): (s: string)
    requires n <= 4
    ensures |s| == 4
    ensures forall k :: 0 <= k < 4 ==> (s[k] == '_' <==> k >= n)
  {
    var full := "▂▄▆█";
    full[..n] + seq(4 - n, _ => '_')
  }

  datatype Tone = Good | Fair | Bad

  /** The colour: green down to -60, yellow down to -80, red below. */
  function ToneOf(signal: int): (t: Tone)
    ensures t == Good <==> Bars(signal) >= 3
    ensures t == Bad <==> Bars(signal) == 0
  {
    if signal >= -60 then Good else if signal >= -80 then Fair else Bad
  }

  /** The percentage shown: -90 dBm and below is 0, every further 0.6 dBm adds one
      percent (rounded down), and it stops at 100. The script computes it in floating
      point; here it is exact. */
  function Percentage(signal: int): (p: int)
    ensures 0 <= p <= 100
    ensures signal <= -90 ==> p == 0
    ensures signal >= -30 ==> p == 100
  {
    var scaled := (signal + 90) * 100;
    if scaled <= 0 then 0
    else if scaled / 60 > 100 then 100
    else scaled / 60
  }

  lemma PercentageMonotone(weaker: int, stronger: int)
    requires weaker <= stronger
    ensures Percentage(weaker) <= Percentage(stronger)
  {
    var a, b := (weaker + 90) * 100, (stronger + 90) * 100;
    if 0 < a {
      assert a <= b;
      assert a / 60 <= b / 60;
    }
  }

  // ---------------------------------------------------------------------------
  // The command line
  // ---------------------------------------------------------------------------

  datatype Command =
    | StatusAndHelp
    | Help
    | Scan
    | Status
    | Connect(ssid: string, password: Option<string>)
    | Disconnect
    | Unknown(name: string)      // "Unknown command", then the help

  predicate OpensQuote(s: string)
  {
    |s| > 0 && s[0] == '"'
  }

  predicate ClosesQuote(s: string)
  {
    |s| > 0 && s[|s| - 1] == '"'
  }

  /** `s.strip('"')`. */
  function Unquote(s: string): string
  {
    StripChars(s, Just('"'))
  }

  /** The first argument from `i` on that ends with a quote, or the argument count. */
  function QuoteEnd(args: seq<string>, i: nat): (j: nat)
    requires i <= |args|
    ensures i <= j <= |args|
    ensures j < |args| ==> ClosesQuote(args[j])
    ensures forall k :: i <= k < j ==> !ClosesQuote(args[k])
    decreases |args| - i
  {
    if i == |args| then i
    else if ClosesQuote(args[i]) then i
    else QuoteEnd(args, i + 1)
  }

  /** The SSID and password of `connect`, read from `args[1:]`. An SSID that opens a
      quote without closing it runs up to the first argument that closes one; the
      password, if any, is the argument after it. */
  function ConnectArgs(args: seq<string>): (r: (string, Option<string>))
    requires |args| >= 2
    ensures !(|args| >= 3 && OpensQuote(args[1]) && !ClosesQuote(args[1])) ==>
      r == (Unquote(args[1]), if |args| >= 3 then Some(args[2]) else None)
    ensures |args| >= 3 && OpensQuote(args[1]) && !ClosesQuote(args[1]) && QuoteEnd(args, 1) == |args| ==>
      r == (Unquote(args[1]), Some(args[2]))
    ensures |args| >= 3 && OpensQuote(args[1]) && !ClosesQuote(args[1]) && QuoteEnd(args, 1) < |args| ==>
      var j := QuoteEnd(args, 1);
      && ClosesQuote(args[j])
      && r.0 == Unquote(Join(args[1..j + 1], " "))
      && r.1 == if j + 1 < |args| then Some(args[j + 1]) else None
  {
    if |args| >= 3 && OpensQuote(args[1]) && !ClosesQuote(args[1]) then
      var j := QuoteEnd(args, 1);
      if j < |args| then
        (Unquote(Join(args[1..j + 1], " ")), if |args| > j + 1 then Some(args[j + 1]) else None)
      else
        (Unquote(args[1]), Some(args[2]))
    else
      (Unquote(args[1]), if |args| >= 3 then Some(args[2]) else None)
  }

  /** The lowercased commands `main` acts on, given the number of arguments:
      `connect` needs an SSID after it. */
  predicate Known(command: string, count: nat)
  {
    || command in ["help", "scan", "status", "disconnect"]
    || (command == "connect" && count >= 2)
  }

  /** `main`, given `sys.argv[1:]`. */
  function Main(args: seq<string>): (c: Command)
    ensures args == [] <==> c == StatusAndHelp
    ensures c == Help <==> args != [] && Lower(args[0]) == "help"
    ensures c == Scan <==> args != [] && Lower(args[0]) == "scan"
    ensures c == Status <==> args != [] && Lower(args[0]) == "status"
    ensures c == Disconnect <==> args != [] && Lower(args[0]) == "disconnect"
    ensures c.Connect? <==> |args| >= 2 && Lower(args[0]) == "connect"
    ensures c.Connect? ==> (c.ssid, c.password) == ConnectArgs(args)
    ensures c.Unknown? <==> args != [] && !Known(Lower(args[0]), |args|)
    ensures c.Unknown? ==> c.name == Lower(args[0])
    ensures args != [] && Lower(args[0]) == "connect" && |args| < 2 ==> c == Unknown("connect")
  {
    if args == [] then StatusAndHelp
    else
      var command := Lower(args[0]);
      if command == "help" then Help
      else if command == "scan" then Scan
      else if command == "status" then Status
      else if command == "connect" && |args| >= 2 then
        var (ssid, password) := ConnectArgs(args);
        Connect(ssid, password)
      else if command == "disconnect" then Disconnect
      else Unknown(command)
  }

  predicate NoQuotes(w: string)
  {
    forall k :: 0 <= k < |w| ==> w[k] != '"'
  }

  /** The arguments the shell makes of `"w1 w2 ... wn"`: a quote glued to the first
      word and another to the last. */
  function Quoted(ws: seq<string>): (args: seq<string>)
    requires |ws| >= 2
    ensures |args| == |ws|
  {
    ["\"" + ws[0]] + ws[1..|ws| - 1] + [ws[|ws| - 1] + "\""]
  }

  predicate Words(ws: seq<string>)
  {
    |ws| >= 2 && forall k :: 0 <= k < |ws| ==> ws[k] != [] && NoQuotes(ws[k])
  }

  /** Joining the quoted words gives the words' text in quotes. */
  lemma QuotedJoin(ws: seq<string>)
    requires Words(ws)
    ensures Join(Quoted(ws), " ") == ['"'] + Join(ws, " ") + ['"']
  {
    var n := |ws|;
    var inner := ["\"" + ws[0]] + ws[1..];
    JoinExtendFirst(ws, "\"", " ");
    assert Quoted(ws) == inner[..n - 1] + [inner[n - 1] + "\""];
    JoinExtendLast(inner, "\"", " ");
  }

  lemma QuotedUnquote(ws: seq<string>)
    requires Words(ws)
    ensures Unquote(Join(Quoted(ws), " ")) == Join(ws, " ")
  {
    QuotedJoin(ws);
    JoinEnds(ws, " ");
    StripWrapped(Join(ws, " "), '"');
  }

  /** The closing quote is on the last word. */
  lemma QuotedEnd(ws: seq<string>, password: string)
    requires Words(ws)
    ensures QuoteEnd(["connect"] + Quoted(ws) + [password], 1) == |ws|
  {
    var n := |ws|;
    var args := ["connect"] + Quoted(ws) + [password];
    forall k | 1 <= k < n ensures !ClosesQuote(args[k]) {
      if k > 1 {
        assert args[k] == ws[k - 1];
      } else {
        assert args[1] == "\"" + ws[0];
      }
    }
    assert args[n] == ws[n - 1] + "\"";
    QuoteEndIs(args, 1, n);
  }

  /** `connect` with at least one more argument connects with what `ConnectArgs`
      reads. */
  lemma MainConnect(args: seq<string>)
    requires |args| >= 2 && args[0] == "connect"
    ensures Main(args) == Connect(ConnectArgs(args).0, ConnectArgs(args).1)
  {
    assert Lower("connect") == "connect";
  }

  lemma ConnectArgsQuoted(ws: seq<string>, password: string)
    requires Words(ws)
    ensures ConnectArgs(["connect"] + Quoted(ws) + [password]) == (Join(ws, " "), Some(password))
  {
    var n := |ws|;
    var args := ["connect"] + Quoted(ws) + [password];
    QuotedEnd(ws, password);
    QuotedUnquote(ws);
    assert args[1] == "\"" + ws[0];
    assert args[1..n + 1] == Quoted(ws);
    assert args[n + 1] == password;
  }

  /** An SSID of several words typed in quotes, followed by a password, is read back
      as the words joined by single spaces, and that password. */
  lemma ConnectQuoted(ws: seq<string>, password: string)
    requires Words(ws)
    ensures Main(["connect"] + Quoted(ws) + [password]) == Connect(Join(ws, " "), Some(password))
  {
    var args := ["connect"] + Quoted(ws) + [password];
    ConnectArgsQuoted(ws, password);
    MainConnect(args);
  }

  lemma QuoteEndIs(args: seq<string>, i: nat, j: nat)
    requires i <= j < |args| && ClosesQuote(args[j])
    requires forall k :: i <= k < j ==> !ClosesQuote(args[k])
    ensures QuoteEnd(args, i) == j
    decreases j - i
  {
    if i < j {
      QuoteEndIs(args, i + 1, j);
    }
  }
}

=== FILE: xiai.dfy ===
/**
 The chat client's context window (`XiAI/online.py`): the history starts with the
 system prompt, and once it grows past ten messages it is cut back to the system
 prompt and the nine latest messages before it is sent. The request, the streamed
 reply and the terminal are outside the model.
 */
module XiAI {

  datatype Message = Message(role: string, content: string)

  /** The most messages a request carries. */
  const Window: nat := 10

  /** `messages = [messages[0]] + messages[-9:]` when there are more than ten. */
  function Trim(messages: seq<Message>): (r: seq<Message>)
    ensures |messages| <= Window ==> r == messages
    ensures |r| == if |messages| <= Window then |messages| else Window
    ensures messages != [] ==> r[0] == messages[0]
    ensures r != [] ==> r[1..] == messages[|messages| - (|r| - 1)..]
  {
    if |messages| > Window then [messages[0]] + messages[|messages| - (Window - 1)..] else messages
  }

  /** Trimming a trimmed history changes nothing. */
  lemma TrimIdempotent(messages: seq<Message>)
    ensures Trim(Trim(messages)) == Trim(messages)
  {
  }

  /** The history after the user's messages, each appended and then trimmed, the
      assistant's replies left aside. */
  function History(system: Message, inputs: seq<Message>): (h: seq<Message>)
    ensures h != [] && h[0] == system
    decreases |inputs|
  {
    if inputs == [] then [system]
    else Trim(History(system, inputs[..|inputs| - 1]) + [inputs[|inputs| - 1]])
  }

  /** The system prompt followed by the latest `kept` messages. */
  function Latest(system: Message, inputs: seq<Message>, kept: nat): seq<Message>
    requires kept <= |inputs|
  {
    [system] + inputs[|inputs| - kept..]
  }

  /** One message past the window drops the oldest message after the system prompt. */
  lemma TrimOne(grown: seq<Message>)
    requires |grown| == Window + 1
    ensures Trim(grown) == [grown[0]] + grown[2..]
  {
  }

  /** How many of `n` typed messages the history keeps. */
  function Kept(n: nat): (k: nat)
    ensures k <= n && k < Window
  {
    if n < Window then n else Window - 1
  }

  /** Below the window nothing is dropped. */
  lemma LatestGrows(system: Message, before: seq<Message>, x: Message)
    requires |before| + 1 < Window
    ensures Trim(Latest(system, before, |before|) + [x]) == Latest(system, before + [x], |before| + 1)
  {
    assert before[0..] == before;
    assert (before + [x])[0..] == before + [x];
  }

  /** At the window the oldest kept message makes way for the new one. */
  lemma LatestSlides(system: Message, before: seq<Message>, x: Message)
    requires |before| >= Window - 1
    ensures Trim(Latest(system, before, Window - 1) + [x]) == Latest(system, before + [x], Window - 1)
  {
    var n := |before| + 1;
    var tail := before[n - Window..];
    var grown := [system] + tail + [x];
    assert Latest(system, before, Window - 1) + [x] == grown;
    TrimOne(grown);
    assert grown[2..] == tail[1..] + [x];
    assert tail[1..] + [x] == (before + [x])[n - (Window - 1)..];
  }

  /** One more message, appended and trimmed, moves the kept messages on by one. */
  lemma LatestStep(system: Message, before: seq<Message>, x: Message)
    ensures Trim(Latest(system, before, Kept(|before|)) + [x]) == Latest(system, before + [x], Kept(|before| + 1))
  {
    if |before| + 1 < Window {
      LatestGrows(system, before, x);
    } else {
      LatestSlides(system, before, x);
    }
  }

  /** The step, for the history before the last message. */
  lemma HistoryStep(system: Message, before: seq<Message>, x: Message)
    requires History(system, before) == Latest(system, before, Kept(|before|))
    ensures History(system, before + [x]) == Latest(system, before + [x], Kept(|before| + 1))
  {
    var inputs := before + [x];
    assert inputs[..|inputs| - 1] == before && inputs[|inputs| - 1] == x;
    assert History(system, inputs) == Trim(History(system, before) + [x]);
    LatestStep(system, before, x);
  }

  /** The history is the system prompt followed by the latest messages, at most nine
      of them, in the order they were typed. */
  lemma {:induction false} HistoryKeepsLatest(system: Message, inputs: seq<Message>)
    ensures History(system, inputs) == Latest(system, inputs, Kept(|inputs|))
    decreases |inputs|
  {
    var n := |inputs|;
    if n > 0 {
      var before, x := inputs[..n - 1], inputs[n - 1];
      LastSplit(inputs);
      HistoryKeepsLatest(system, before);
      HistoryStep(system, before, x);
    }
  }

  lemma LastSplit(inputs: seq<Message>)
    requires inputs != []
    ensures inputs[..|inputs| - 1] + [inputs[|inputs| - 1]] == inputs
  {
  }
}

=== FILE: yapper.dfy ===
/**
 The yapper terminal editor (`yapper/main.py`): a console key decoder, a buffer of
 lines with a cursor, the transition each key makes, and the load and save
 conventions of the file it edits.

 Besides the per-key contracts, the buffer is related to the text it saves: the
 cursor cuts the saved text into `Before` and `After`, and every editing key acts
 on that cut like an ordinary text cursor (typing inserts at the cut, Backspace
 deletes the character before it, Left and Right move it by one character).
 */
module Yapper {
  import opened Options
  import opened Text

  newtype byte = x: int | 0 <= x < 256

  // ---------------------------------------------------------------------------
  // Key decoding
  // ---------------------------------------------------------------------------

  datatype Key = Up | Down | Left | Right | Exit | Enter | Backspace | Char(c: char)

  const Prefix: byte := 0xE0
  const CtrlX: byte := 0x18
  const Return: byte := 0x0D
  const BackspaceByte: byte := 0x08

  /** Bytes one key occupies: the arrow prefix is followed by the arrow's own code. */
  function KeyLength(b: byte): nat
  {
    if b == Prefix then 2 else 1
  }

  /** A stream that holds a whole key at its head. */
  predicate HasKey(input: seq<byte>)
  {
    |input| >= 1 && |input| >= KeyLength(input[0])
  }

  /** `get_key`: the key at the head of the console input; `None` for an unknown
      arrow code and for a byte that is not ASCII. */
  function GetKey(input: seq<byte>): (k: Option<Key>)
    requires HasKey(input)
    ensures input[0] != Prefix && input[0] >= 0x80 ==> k == None
    ensures k == Some(Exit) <==> input[0] == CtrlX
    ensures k == Some(Enter) <==> input[0] == Return
    ensures k == Some(Backspace) <==> input[0] == BackspaceByte
    ensures k == Some(Up) <==> input[0] == Prefix && input[1] == 0x48
    ensures k == Some(Down) <==> input[0] == Prefix && input[1] == 0x50
    ensures k == Some(Left) <==> input[0] == Prefix && input[1] == 0x4B
    ensures k == Some(Right) <==> input[0] == Prefix && input[1] == 0x4D
    ensures k.Some? && k.value.Char? ==> k.value.c as int == input[0] as int < 0x80
  {
    var b := input[0];
    if b == Prefix then
      var code := input[1];
      if code == 0x48 then Some(Up)
      else if code == 0x50 then Some(Down)
      else if code == 0x4B then Some(Left)
      else if code == 0x4D then Some(Right)
      else None
    else if b == CtrlX then Some(Exit)
    else if b == Return then Some(Enter)
    else if b == BackspaceByte then Some(Backspace)
    else if b < 0x80 then Some(Char(b as int as char))
    else None
  }

  /** The keys the console can produce. */
  predicate Typeable(k: Key)
  {
    match k
    case Char(c) =>
      c as int < 0x80 && c as int != CtrlX as int && c as int != Return as int
      && c as int != BackspaceByte as int
    case _ => true
  }

  /** The bytes the console sends for a key. */
  function Encode(k: Key): (bs: seq<byte>)
    requires Typeable(k)
    ensures HasKey(bs) && |bs| == KeyLength(bs[0])
  {
    match k
    case Up => [Prefix, 0x48]
    case Down => [Prefix, 0x50]
    case Left => [Prefix, 0x4B]
    case Right => [Prefix, 0x4D]
    case Exit => [CtrlX]
    case Enter => [Return]
    case Backspace => [BackspaceByte]
    case Char(c) => [c as int as byte]
  }

  /** Every key the console can produce is decoded back from its bytes. */
  lemma DecodeEncode(k: Key)
    requires Typeable(k)
    ensures GetKey(Encode(k)) == Some(k)
  {
  }

  /** Whatever `get_key` recognises was sent as exactly that key's bytes. */
  lemma EncodeDecode(input: seq<byte>)
    requires HasKey(input) && GetKey(input).Some?
    ensures Typeable(GetKey(input).value)
    ensures Encode(GetKey(input).value) == input[..KeyLength(input[0])]
  {
  }

  /** The keys read one after another from a console input; a lone arrow prefix at
      the very end waits for its second byte, so it produces no key. */
  function Keys(input: seq<byte>): (ks: seq<Option<Key>>)
    ensures |ks| <= |input|
    decreases |input|
  {
    if HasKey(input) then [GetKey(input)] + Keys(input[KeyLength(input[0])..]) else []
  }

  // ---------------------------------------------------------------------------
  // The buffer and its cursor
  // ---------------------------------------------------------------------------

  /** The lines being edited and the cursor `(cursor_y, cursor_x)`. */
  datatype Buffer = Buffer(lines: seq<string>, y: nat, x: nat) {
    /** The cursor is on a line of the buffer, at most one past its last character. */
    predicate Valid()
    {
      y < |lines| && x <= |lines[y]|
    }
  }

  /** `str.isprintable()` on the ASCII characters `get_key` returns. */
  predicate Printable(c: char)
  {
    ' ' <= c <= '~'
  }

  /** Enter: split the line at the cursor and move to the start of the new line. */
  function Newline(b: Buffer): (r: Buffer)
    requires b.Valid()
    ensures r.Valid()
    ensures |r.lines| == |b.lines| + 1
    ensures r.lines[b.y] + r.lines[b.y + 1] == b.lines[b.y] && |r.lines[b.y]| == b.x
    ensures r.y == b.y + 1 && r.x == 0
    ensures r.lines[..b.y] == b.lines[..b.y] && r.lines[b.y + 2..] == b.lines[b.y + 1..]
  {
    var line := b.lines[b.y];
    var lines := b.lines[..b.y] + [line[..b.x], line[b.x..]] + b.lines[b.y + 1..];
    assert lines[b.y + 2..] == b.lines[b.y + 1..];
    Buffer(lines, b.y + 1, 0)
  }

  /** Backspace: delete the character before the cursor, or join the line onto the
      previous one at column 0; nothing at the start of the buffer. */
  function DeleteBack(b: Buffer): (r: Buffer)
    requires b.Valid()
    ensures r.Valid()
    ensures b.x > 0 ==>
      && r.y == b.y && r.x == b.x - 1 && |r.lines| == |b.lines|
      && r.lines[b.y] == b.lines[b.y][..b.x - 1] + b.lines[b.y][b.x..]
      && (forall i :: 0 <= i < |b.lines| && i != b.y ==> r.lines[i] == b.lines[i])
    ensures b.x == 0 && b.y > 0 ==>
      && |r.lines| == |b.lines| - 1 && r.y == b.y - 1 && r.x == |b.lines[b.y - 1]|
      && r.lines[b.y - 1] == b.lines[b.y - 1] + b.lines[b.y]
      && r.lines[..b.y - 1] == b.lines[..b.y - 1] && r.lines[b.y..] == b.lines[b.y + 1..]
    ensures b.x == 0 && b.y == 0 ==> r == b
  {
    var line := b.lines[b.y];
    if b.x > 0 then
      Buffer(b.lines[b.y := line[..b.x - 1] + line[b.x..]], b.y, b.x - 1)
    else if b.y > 0 then
      var prev := b.lines[b.y - 1];
      var lines := b.lines[..b.y - 1] + [prev + line] + b.lines[b.y + 1..];
      assert lines[b.y..] == b.lines[b.y + 1..];
      Buffer(lines, b.y - 1, |prev|)
    else
      b
  }

  /** Left: one column back, or to the end of the previous line. */
  function MoveLeft(b: Buffer): (r: Buffer)
    requires b.Valid()
    ensures r.Valid() && r.lines == b.lines
    ensures b.x > 0 ==> r.y == b.y && r.x == b.x - 1
    ensures b.x == 0 && b.y > 0 ==> r.y == b.y - 1 && r.x == |b.lines[b.y - 1]|
    ensures b.x == 0 && b.y == 0 ==> r == b
  {
    if b.x > 0 then b.(x := b.x - 1)
    else if b.y > 0 then b.(y := b.y - 1, x := |b.lines[b.y - 1]|)
    else b
  }

  /** Right: one column on, or to the start of the next line. */
  function MoveRight(b: Buffer): (r: Buffer)
    requires b.Valid()
    ensures r.Valid() && r.lines == b.lines
    ensures b.x < |b.lines[b.y]| ==> r.y == b.y && r.x == b.x + 1
    ensures b.x == |b.lines[b.y]| && b.y + 1 < |b.lines| ==> r.y == b.y + 1 && r.x == 0
    ensures b.x == |b.lines[b.y]| && b.y + 1 == |b.lines| ==> r == b
  {
    if b.x < |b.lines[b.y]| then b.(x := b.x + 1)
    else if b.y < |b.lines| - 1 then b.(y := b.y + 1, x := 0)
    else b
  }

  function Min(a: nat, b: nat): nat
  {
    if a < b then a else b
  }

  /** Up: the previous line, keeping the column where that line is long enough. */
  function MoveUp(b: Buffer): (r: Buffer)
    requires b.Valid()
    ensures r.Valid() && r.lines == b.lines
    ensures b.y > 0 ==> r.y == b.y - 1 && r.x <= b.x
    ensures b.y > 0 ==> (r.x == b.x || r.x == |b.lines[r.y]|)
    ensures b.y == 0 ==> r == b
  {
    if b.y > 0 then b.(y := b.y - 1, x := Min(b.x, |b.lines[b.y - 1]|)) else b
  }

  /** Down: the next line, keeping the column where that line is long enough. */
  function MoveDown(b: Buffer): (r: Buffer)
    requires b.Valid()
    ensures r.Valid() && r.lines == b.lines
    ensures b.y + 1 < |b.lines| ==> r.y == b.y + 1 && r.x <= b.x
    ensures b.y + 1 < |b.lines| ==> (r.x == b.x || r.x == |b.lines[r.y]|)
    ensures b.y + 1 == |b.lines| ==> r == b
  {
    if b.y < |b.lines| - 1 then b.(y := b.y + 1, x := Min(b.x, |b.lines[b.y + 1]|)) else b
  }

  /** A printable character: spliced in at the cursor, which moves past it. */
  function Type(b: Buffer, c: char): (r: Buffer)
    requires b.Valid()
    ensures r.Valid()
    ensures r.y == b.y && r.x == b.x + 1 && |r.lines| == |b.lines|
    ensures r.lines[b.y][..b.x] == b.lines[b.y][..b.x] && r.lines[b.y][b.x] == c
    ensures r.lines[b.y][b.x + 1..] == b.lines[b.y][b.x..]
    ensures forall i :: 0 <= i < |b.lines| && i != b.y ==> r.lines[i] == b.lines[i]
  {
    var line := b.lines[b.y];
    var l := line[..b.x] + [c] + line[b.x..];
    assert l[b.x + 1..] == line[b.x..];
    Buffer(b.lines[b.y := l], b.y, b.x + 1)
  }

  /** One pass of the editing loop for a key other than exit. */
  function Step(b: Buffer, k: Option<Key>): (r: Buffer)
    requires b.Valid()
    ensures r.Valid()
    ensures k == None ==> r == b
    ensures k.Some? && k.value.Char? && !Printable(k.value.c) ==> r == b
    ensures k == Some(Enter) ==> r == Newline(b)
    ensures k == Some(Backspace) ==> r == DeleteBack(b)
    ensures k == Some(Left) ==> r == MoveLeft(b)
    ensures k == Some(Right) ==> r == MoveRight(b)
    ensures k == Some(Up) ==> r == MoveUp(b)
    ensures k == Some(Down) ==> r == MoveDown(b)
    ensures k.Some? && k.value.Char? && Printable(k.value.c) ==> r == Type(b, k.value.c)
  {
    match k
    case None => b
    case Some(Enter) => Newline(b)
    case Some(Backspace) => DeleteBack(b)
    case Some(Left) => MoveLeft(b)
    case Some(Right) => MoveRight(b)
    case Some(Up) => MoveUp(b)
    case Some(Down) => MoveDown(b)
    case Some(Char(c)) => if Printable(c) then Type(b, c) else b
    case Some(Exit) => b
  }

  /** The loop of `editor`: keys are applied until exit; the result is the buffer at
      exit, or `None` when the keys run out first and nothing is saved. */
  function Run(b: Buffer, keys: seq<Option<Key>>): (r: Option<Buffer>)
    requires b.Valid()
    ensures r.Some? <==> Some(Exit) in keys
    ensures r.Some? ==> r.value.Valid()
    decreases |keys|
  {
    if keys == [] then None
    else
      assert keys == [keys[0]] + keys[1..];
      if keys[0] == Some(Exit) then Some(b) else Run(Step(b, keys[0]), keys[1..])
  }

  // ---------------------------------------------------------------------------
  // Loading and saving
  // ---------------------------------------------------------------------------

  /** The lines read from the file, or one empty line for a missing or empty file. */
  function Load(file: Option<string>): (lines: seq<string>)
    ensures |lines| >= 1
    ensures NoBreaks(lines)
    ensures file == None || file == Some([]) ==> lines == [""]
  {
    match file
    case None => [""]
    case Some(text) => var ls := SplitLines(text); if ls == [] then [""] else ls
  }

  /** The text written on exit. */
  function Save(lines: seq<string>): string
  {
    Join(lines, "\n")
  }

  /** The whole session: load, start at the top left, apply the keys read from the
      console, and on exit write the buffer; `None` when no exit key arrives. */
  function Session(file: Option<string>, input: seq<byte>): (saved: Option<string>)
    ensures saved.Some? <==> Some(Exit) in Keys(input)
  {
    match Run(Buffer(Load(file), 0, 0), Keys(input))
    case Some(b) => Some(Save(b.lines))
    case None => None
  }

  predicate NoBreaks(lines: seq<string>)
  {
    forall i :: 0 <= i < |lines| ==> NoneIn(lines[i], LineEnds)
  }

  /** Splitting a line keeps both halves free of terminators. */
  lemma NewlineKeepsNoBreaks(b: Buffer)
    requires b.Valid() && NoBreaks(b.lines)
    ensures NoBreaks(Newline(b).lines)
  {
    var r := Newline(b);
    var line := b.lines[b.y];
    forall i | 0 <= i < |r.lines| ensures NoneIn(r.lines[i], LineEnds) {
      if i == b.y {
        assert r.lines[i] == line[..b.x];
      } else if i == b.y + 1 {
        assert r.lines[i] == line[b.x..];
      } else if i > b.y + 1 {
        assert r.lines[i] == r.lines[b.y + 2..][i - b.y - 2];
      } else {
        assert r.lines[i] == r.lines[..b.y][i];
      }
    }
  }

  lemma DeleteBackKeepsNoBreaks(b: Buffer)
    requires b.Valid() && NoBreaks(b.lines)
    ensures NoBreaks(DeleteBack(b).lines)
  {
    var r := DeleteBack(b);
    if b.x == 0 && b.y > 0 {
      forall i | 0 <= i < |r.lines| ensures NoneIn(r.lines[i], LineEnds) {
        if i >= b.y {
          assert r.lines[i] == r.lines[b.y..][i - b.y];
        } else if i < b.y - 1 {
          assert r.lines[i] == r.lines[..b.y - 1][i];
        }
      }
    }
  }

  /** Keys never put a line terminator into the buffer, since only printable
      characters are typed. */
  lemma StepKeepsNoBreaks(b: Buffer, k: Option<Key>)
    requires b.Valid() && NoBreaks(b.lines)
    ensures NoBreaks(Step(b, k).lines)
  {
    match k
    case Some(Enter) => NewlineKeepsNoBreaks(b);
    case Some(Backspace) => DeleteBackKeepsNoBreaks(b);
    case _ =>
  }

  /** Saving and loading again gives the buffer back, when the buffer holds no line
      terminators and its last line is not empty (or it is the single empty line). */
  lemma LoadSave(lines: seq<string>)
    requires |lines| >= 1 && NoBreaks(lines)
    requires |lines[|lines| - 1]| > 0 || lines == [""]
    ensures Load(Some(Save(lines))) == lines
  {
    if lines != [""] {
      SplitLinesJoin(lines);
    }
  }

  /** An empty last line is lost: `["a", ""]` saves as "a\n", which loads as `["a"]`. */
  lemma LoadSaveLosesEmptyLastLine()
    ensures Save(["a", ""]) == "a\n"
    ensures Load(Some("a\n")) == ["a"]
  {
    var t := "a\n";
    IndexInIsFirst(t, LineEnds, 1);
    assert t[2..] == [] && t[..1] == "a";
    assert SplitLines(t) == [t[..1]] + SplitLines(t[2..]);
  }

  // ---------------------------------------------------------------------------
  // The cursor as a cut of the saved text
  // ---------------------------------------------------------------------------

  /** Every line followed by "\n". */
  function Terminated(ls: seq<string>): (s: string)
    ensures ls != [] ==> |s| > 0 && s[|s| - 1] == '\n'
  {
    if ls == [] then [] else Terminated(ls[..|ls| - 1]) + ls[|ls| - 1] + "\n"
  }

  /** Every line preceded by "\n". */
  function Introduced(ls: seq<string>): (s: string)
    ensures ls != [] ==> |s| > 0 && s[0] == '\n'
  {
    if ls == [] then [] else "\n" + ls[0] + Introduced(ls[1..])
  }

  /** The saved text before the cursor. */
  function Before(b: Buffer): string
    requires b.Valid()
  {
    Terminated(b.lines[..b.y]) + b.lines[b.y][..b.x]
  }

  /** The saved text from the cursor on. */
  function After(b: Buffer): string
    requires b.Valid()
  {
    b.lines[b.y][b.x..] + Introduced(b.lines[b.y + 1..])
  }

  lemma TerminatedStep(ls: seq<string>, y: nat)
    requires y < |ls|
    ensures Terminated(ls[..y + 1]) == Terminated(ls[..y]) + ls[y] + "\n"
  {
    assert ls[..y + 1][..y] == ls[..y];
  }

  lemma IntroducedStep(ls: seq<string>, y: nat)
    requires y < |ls|
    ensures Introduced(ls[y..]) == "\n" + ls[y] + Introduced(ls[y + 1..])
  {
    assert ls[y..][1..] == ls[y + 1..];
  }

  lemma {:induction false} JoinIntroduced(ls: seq<string>)
    requires |ls| >= 1
    ensures Join(ls, "\n") == ls[0] + Introduced(ls[1..])
    decreases |ls|
  {
    if |ls| > 1 {
      JoinIntroduced(ls[1..]);
      assert ls[1..][1..] == ls[2..];
      IntroducedStep(ls, 1);
    }
  }

  lemma {:induction false} JoinAround(ls: seq<string>, y: nat)
    requires y < |ls|
    ensures Join(ls, "\n") == Terminated(ls[..y]) + ls[y] + Introduced(ls[y + 1..])
    decreases y
  {
    if y == 0 {
      JoinIntroduced(ls);
    } else {
      JoinAround(ls, y - 1);
      TerminatedStep(ls, y - 1);
      IntroducedStep(ls, y);
      var a, b := Terminated(ls[..y - 1]), Introduced(ls[y + 1..]);
      assert Join(ls, "\n") == a + ls[y - 1] + ("\n" + ls[y] + b);
      assert Terminated(ls[..y]) == a + ls[y - 1] + "\n";
    }
  }

  /** The cursor cuts the saved text in two. */
  lemma SaveAtCursor(b: Buffer)
    requires b.Valid()
    ensures Save(b.lines) == Before(b) + After(b)
  {
    JoinAround(b.lines, b.y);
    var line := b.lines[b.y];
    assert line == line[..b.x] + line[b.x..];
  }

  /** The cursor is at the start of the text exactly at the top left. */
  lemma BeforeEmpty(b: Buffer)
    requires b.Valid()
    ensures Before(b) == [] <==> b.y == 0 && b.x == 0
  {
    if b.y > 0 {
      assert b.lines[..b.y] != [];
    }
  }

  /** The cursor is at the end of the text exactly at the end of the last line. */
  lemma AfterEmpty(b: Buffer)
    requires b.Valid()
    ensures After(b) == [] <==> b.y + 1 == |b.lines| && b.x == |b.lines[b.y]|
  {
    if b.y + 1 < |b.lines| {
      assert b.lines[b.y + 1..] != [];
    }
  }

  /** Typing inserts the character at the cursor. */
  lemma TypeInserts(b: Buffer, c: char)
    requires b.Valid()
    ensures Before(Type(b, c)) == Before(b) + [c]
    ensures After(Type(b, c)) == After(b)
  {
    var r := Type(b, c);
    assert r.lines[..b.y] == b.lines[..b.y];
    assert r.lines[b.y + 1..] == b.lines[b.y + 1..];
    assert r.lines[b.y][..b.x + 1] == b.lines[b.y][..b.x] + [c];
  }

  /** Enter inserts a line terminator at the cursor. */
  lemma NewlineInserts(b: Buffer)
    requires b.Valid()
    ensures Before(Newline(b)) == Before(b) + "\n"
    ensures After(Newline(b)) == After(b)
  {
    var r := Newline(b);
    TerminatedStep(r.lines, b.y);
  }

  /** Backspace deletes the character before the cursor, if there is one. */
  lemma DeleteBackDeletes(b: Buffer)
    requires b.Valid()
    ensures Before(b) == [] ==> DeleteBack(b) == b
    ensures Before(b) != [] ==>
      Before(DeleteBack(b)) == Before(b)[..|Before(b)| - 1] && After(DeleteBack(b)) == After(b)
  {
    BeforeEmpty(b);
    var r := DeleteBack(b);
    var line := b.lines[b.y];
    if b.x > 0 {
      assert r.lines[..b.y] == b.lines[..b.y];
      assert r.lines[b.y + 1..] == b.lines[b.y + 1..];
      assert r.lines[b.y][..b.x - 1] == line[..b.x - 1];
      assert r.lines[b.y][b.x - 1..] == line[b.x..];
    } else if b.y > 0 {
      TerminatedStep(b.lines, b.y - 1);
      assert b.lines[..b.y - 1] == r.lines[..b.y - 1];
      assert r.lines[b.y - 1][..r.x] == b.lines[b.y - 1];
      assert r.lines[b.y - 1][r.x..] == line;
    }
  }

  /** Left moves the cut one character back. */
  lemma MoveLeftMoves(b: Buffer)
    requires b.Valid()
    ensures Before(b) == [] ==> MoveLeft(b) == b
    ensures Before(b) != [] ==>
      && Before(MoveLeft(b)) == Before(b)[..|Before(b)| - 1]
      && After(MoveLeft(b)) == [Before(b)[|Before(b)| - 1]] + After(b)
  {
    BeforeEmpty(b);
    var line := b.lines[b.y];
    if b.x > 0 {
      assert line[b.x - 1..] == [line[b.x - 1]] + line[b.x..];
    } else if b.y > 0 {
      TerminatedStep(b.lines, b.y - 1);
      IntroducedStep(b.lines, b.y);
    }
  }

  /** Right within a line passes over the character after the cursor. */
  lemma MoveRightInLine(b: Buffer)
    requires b.Valid() && b.x < |b.lines[b.y]|
    ensures Before(MoveRight(b)) == Before(b) + [After(b)[0]]
    ensures After(MoveRight(b)) == After(b)[1..]
  {
    var line := b.lines[b.y];
    assert line[..b.x + 1] == line[..b.x] + [line[b.x]];
    assert line[b.x..] == [line[b.x]] + line[b.x + 1..];
  }

  /** Right at the end of a line passes over the line break. */
  lemma MoveRightAtBreak(b: Buffer)
    requires b.Valid() && b.x == |b.lines[b.y]| && b.y + 1 < |b.lines|
    ensures Before(MoveRight(b)) == Before(b) + [After(b)[0]]
    ensures After(MoveRight(b)) == After(b)[1..]
  {
    var line := b.lines[b.y];
    assert line[b.x..] == [] && line[..b.x] == line;
    TerminatedStep(b.lines, b.y);
    IntroducedStep(b.lines, b.y + 1);
  }

  /** Right moves the cut one character on. */
  lemma MoveRightMoves(b: Buffer)
    requires b.Valid()
    ensures After(b) == [] ==> MoveRight(b) == b
    ensures After(b) != [] ==>
      && Before(MoveRight(b)) == Before(b) + [After(b)[0]]
      && After(MoveRight(b)) == After(b)[1..]
  {
    AfterEmpty(b);
    if b.x < |b.lines[b.y]| {
      MoveRightInLine(b);
    } else if b.y + 1 < |b.lines| {
      MoveRightAtBreak(b);
    }
  }

  /** Reading a single-byte key off the head of the input. */
  lemma KeysCons(a: byte, rest: seq<byte>)
    requires a != Prefix
    ensures Keys([a] + rest) == [GetKey([a])] + Keys(rest)
  {
    assert ([a] + rest)[1..] == rest;
    assert ([a] + rest)[0] == [a][0];
  }

  /** "Hi" and Enter, ahead of whatever follows. */
  lemma HiKeys(rest: seq<byte>)
    ensures Keys([0x48, 0x69, 0x0D] + rest) == [Some(Char('H')), Some(Char('i')), Some(Enter)] + Keys(rest)
  {
    KeysCons(0x0D, rest);
    KeysCons(0x69, [0x0D] + rest);
    KeysCons(0x48, [0x69] + ([0x0D] + rest));
    assert [0x48, 0x69, 0x0D] + rest == [0x48] + ([0x69] + ([0x0D] + rest));
  }

  /** "Bye" and Ctrl+X. */
  lemma ByeKeys()
    ensures Keys([0x42, 0x79, 0x65, 0x18]) == [Some(Char('B')), Some(Char('y')), Some(Char('e')), Some(Exit)]
  {
    KeysCons(0x18, []);
    KeysCons(0x65, [0x18]);
    KeysCons(0x79, [0x65, 0x18]);
    KeysCons(0x42, [0x79, 0x65, 0x18]);
  }

  /** "Hi", Enter, "Bye", Ctrl+X as the console sends them. */
  const HiByeInput: seq<byte> := [0x48, 0x69, 0x0D, 0x42, 0x79, 0x65, 0x18]

  /** The keys read from that input. */
  lemma HiByeKeys()
    ensures Keys(HiByeInput)
         == [Some(Char('H')), Some(Char('i')), Some(Enter), Some(Char('B')),
             Some(Char('y')), Some(Char('e')), Some(Exit)]
  {
    HiKeys([0x42, 0x79, 0x65, 0x18]);
    ByeKeys();
    assert HiByeInput == [0x48, 0x69, 0x0D] + [0x42, 0x79, 0x65, 0x18];
  }

  lemma RunCons(b: Buffer, k: Option<Key>, ks: seq<Option<Key>>)
    requires b.Valid() && k != Some(Exit)
    ensures Run(b, [k] + ks) == Run(Step(b, k), ks)
  {
    assert ([k] + ks)[1..] == ks;
  }

  /** The keys typed into the new file before Ctrl+X. */
  const Typing: seq<Key> := [Char('H'), Char('i'), Enter, Char('B'), Char('y'), Char('e')]

  /** The buffer after the first `n` of those keys. */
  function Typed(n: nat): (b: Buffer)
    requires n <= |Typing|
    ensures b.Valid()
  {
    if n == 0 then Buffer([""], 0, 0) else Step(Typed(n - 1), Some(Typing[n - 1]))
  }

  /** The buffer after typing "Hi", Enter, "Bye" into a new file. */
  function HiBye(): Buffer
  {
    Typed(6)
  }

  /** Typing one character of "Hi\nBye" extends the text before the cursor and
      leaves nothing after it. */
  lemma TypedChar(n: nat, text: string)
    requires 0 < n <= |Typing| && Typing[n - 1].Char? && Printable(Typing[n - 1].c)
    requires Before(Typed(n - 1)) == text && After(Typed(n - 1)) == []
    ensures Before(Typed(n)) == text + [Typing[n - 1].c] && After(Typed(n)) == []
  {
    TypeInserts(Typed(n - 1), Typing[n - 1].c);
  }

  /** The new file: nothing before the cursor and nothing after it. */
  lemma TypedNothing()
    ensures Before(Typed(0)) == [] && After(Typed(0)) == []
  {
    var b := Typed(0);
    assert b.lines[..0] == [] && b.lines[1..] == [];
  }

  /** "Hi": the first line so far. */
  lemma TypedHi()
    ensures Before(Typed(2)) == "Hi" && After(Typed(2)) == []
  {
    TypedNothing();
    TypedChar(1, []);
    assert [] + ['H'] == "H";
    TypedChar(2, "H");
    assert "H" + ['i'] == "Hi";
  }

  /** Enter extends the text before the cursor by a line break. */
  lemma TypedEnter(n: nat, text: string)
    requires 0 < n <= |Typing| && Typing[n - 1] == Enter
    requires Before(Typed(n - 1)) == text && After(Typed(n - 1)) == []
    ensures Before(Typed(n)) == text + "\n" && After(Typed(n)) == []
  {
    NewlineInserts(Typed(n - 1));
  }

  /** Enter after "Hi". */
  lemma TypedHiEnter()
    ensures Before(Typed(3)) == "Hi\n" && After(Typed(3)) == []
  {
    TypedHi();
    TypedEnter(3, "Hi");
    assert "Hi" + "\n" == "Hi\n";
  }

  lemma TypedB()
    ensures Before(Typed(4)) == "Hi\nB" && After(Typed(4)) == []
  {
    TypedHiEnter();
    TypedChar(4, "Hi\n");
    assert "Hi\n" + ['B'] == "Hi\nB";
  }

  lemma TypedBy()
    ensures Before(Typed(5)) == "Hi\nBy" && After(Typed(5)) == []
  {
    TypedB();
    TypedChar(5, "Hi\nB");
    assert "Hi\nB" + ['y'] == "Hi\nBy";
  }

  /** "Hi", Enter, "Bye": the cursor ends at the end of the text. */
  lemma TypedHiBye()
    ensures Before(Typed(6)) == "Hi\nBye" && After(Typed(6)) == []
  {
    TypedBy();
    TypedChar(6, "Hi\nBy");
    assert "Hi\nBy" + ['e'] == "Hi\nBye";
  }

  /** Each key extends the text before the cursor, and nothing is ever after it. */
  lemma HiByeSaves()
    ensures Save(HiBye().lines) == "Hi\nBye"
  {
    TypedHiBye();
    SaveAtCursor(Typed(6));
  }

  /** The loop applies each key of the session to the buffer in turn. */
  lemma HiByeRuns()
    ensures Run(Buffer([""], 0, 0), [Some(Char('H')), Some(Char('i')), Some(Enter), Some(Char('B')),
                                     Some(Char('y')), Some(Char('e')), Some(Exit)]) == Some(HiBye())
  {
    RunCons(Typed(5), Some(Char('e')), [Some(Exit)]);
    RunCons(Typed(4), Some(Char('y')), [Some(Char('e')), Some(Exit)]);
    RunCons(Typed(3), Some(Char('B')), [Some(Char('y')), Some(Char('e')), Some(Exit)]);
    RunCons(Typed(2), Some(Enter), [Some(Char('B')), Some(Char('y')), Some(Char('e')), Some(Exit)]);
    RunCons(Typed(1), Some(Char('i')),
            [Some(Enter), Some(Char('B')), Some(Char('y')), Some(Char('e')), Some(Exit)]);
    RunCons(Typed(0), Some(Char('H')),
            [Some(Char('i')), Some(Enter), Some(Char('B')), Some(Char('y')), Some(Char('e')), Some(Exit)]);
  }

  /** Typing "Hi", Enter, "Bye" into a new file and pressing Ctrl+X saves "Hi\nBye". */
  lemma HiByeSession()
    ensures Session(None, HiByeInput) == Some("Hi\nBye")
  {
    HiByeKeys();
    HiByeRuns();
    HiByeSaves();
  }
}
